=== FILE: README.md ===
# dictionary — a Dafny model

This project models the core of `dictionary`, a converter that builds a
bilingual dictionary and writes it as a Kindle dictionary. It reads three
kinds of source: a FreeDict English–Czech tab file, tab-separated
pronunciation lists, and a Wiktionary XML dump. The model covers these parts:

- **Dictionary merge rules** (`Lexicon`). Terms are keyed by the
  case-folded headword. Pronunciation lists are only ever appended to.
  Meanings are keyed by case-folded description, their translations are
  merged by set union, and each keeps the display rank it was first given.
- **English inflection** (`Inflection`). The `-s`, `-ing` and `-ed` rules
  apply in the code's own precedence, and irregular verbs come from a table.
  Each regular expression is written out as a suffix or character-class
  predicate.
- **Word classes and keys** (`Words`). This covers the declaration order,
  the display labels and the headword key.
- **Tab-file readers** (`Tabular`). `read_tab_file`, `read_czech` and
  `read_pronunciation` are pure functions of what reading the file
  produced.
- **Wiktionary reader** (`Wiki`).
  - The page state machine runs over a sequence of abstract XML events.
  - The extraction of one page's headword, pronunciations, word classes and
    translations is a fold over the lines of the page.
- **Kindle writer** (`Kindle`), with its pure decisions:
  - the output-path rule;
  - batching keys into content files of 30000;
  - skipping empty terms;
  - the markup of each entry;
  - the manifest and spine of the OPF package.

  Sorting and hash-map iteration order are handled in `Ordering`.
- **XML escaping** (`Xml`). The five chained replacements are proved equal
  to a per-character escape. They round-trip through an unescape, leave no
  raw markup, and change exactly the texts that contain a reserved
  character.
- **Command line** (`Cli`). `CliConfig::build` is modelled. A round-trip
  lemma shows that every checked configuration is parsed back from its own
  command line. Checked means the files exist, the pronunciation names and
  file names are free of `:`, and the names are trimmed; these are exactly
  the configurations `build` accepts.
- **Shared pieces**. `Base` holds `Option` and `Result`. `Strings` holds
  trim, ASCII lower-casing, split, lines, join and `{:04}` formatting.

How the model stands in for the program's effects:

- Filesystem effects become parameters:
  - a file's contents are a `Result<string>`;
  - `fs::exists` is a `FileProbe` with three outcomes;
  - `fs::metadata` is a `PathKind`.
- Hash-map and hash-set iteration order is an `Order` parameter: one
  function from a set to a listing of it, so equal sets are listed alike
  (see "Left out"). Where a result needs more, the only thing assumed of it
  (`Ordering.Lists`) is that it lists each element once. Results that do
  not depend on it are proved for any two such orders.

## Model

| member | source | states |
|---|---|---|
| Words.AllClassesSorted | src/dictionary.rs:48-59 | The nine classes listed in declaration order sit at the position of their derived rank, so filtering that list sorts classes as `#[derive(Ord)]` does. |
| Words.LabelRoundTrip | src/dictionary.rs:350-362 | Every class's `as_str` label reads back into that class, so distinct classes never share a label. |
| Words.WordToKey | src/dictionary.rs:301-303 | A key has the length of the word and is already folded, so folding it again gives the same key. |
| Inflection.LastLine | src/dictionary.rs:309 | A `(.*)` group anchored at the end of the word captures the text after the last newline: a suffix of the word with no newline in it, preceded by a newline unless it is the whole word, which it is when the word has no newline. |
| Inflection.AddS | src/dictionary.rs:208-234 | The `-s` form always ends in "s". |
| Inflection.AddSRules | src/dictionary.rs:208-234 | First-match precedence for a one-line word: s/sh/ch/x → +es; o → +es only for hero/potato/tomato/go/do, else +s; consonant+y → y replaced by ies; otherwise +s. |
| Inflection.AddIng | src/dictionary.rs:236-254 | The `-ing` form always ends in "ing". |
| Inflection.AddIngRules | src/dictionary.rs:236-254 | "ee" → +ing; any other final e is dropped before +ing, so the `ie` → `ying` rule can never fire; vowel + final consonant (y, w and x included) → last letter doubled + ing; otherwise +ing. |
| Inflection.AddEd | src/dictionary.rs:256-281 | A verb whose folded key is in the irregular table yields exactly its listed forms. Any other verb yields one form, which ends in "d". |
| Inflection.AddEdRules | src/dictionary.rs:267-280 | For a regular one-line verb: final e → +d; consonant+y → ied; vowel + final consonant → doubled letter + ed; otherwise +ed. |
| Inflection.Inflect | src/dictionary.rs:178-206 | A noun gets exactly its `-s` form. A verb gets its `-s` form, then its `-ing` form, then its past forms. Any other class or language gets nothing. |
| Inflection.InflectCount | src/dictionary.rs:178-206 | A noun has 1 form. A verb has 2 plus either 1 or the number of its irregular forms. Every other case has 0. |
| Inflection.TieExample | src/dictionary.rs:241-244 | "tie" becomes "tiing", because the `(.*)e$` rule fires before the `ie` rule. |
| Inflection.PlayExample | src/dictionary.rs:245-248 | "play" becomes "playying", because `y` is in the consonant class. |
| Inflection.PlayedExample | src/dictionary.rs:272-275 | "play" has the past form "playyed". |
| Inflection.CarriedExample | src/dictionary.rs:269-271 | "carry" has the past form "carried". |
| Inflection.AddIngIntended | src/dictionary.rs:236-254 | With the `ie` rule tried before the drop-the-e rule and doubling limited to consonants other than w, x and y, a word in "ie" takes "ying" and a word in "y" takes a plain "ing". |
| Inflection.AddEdIntended | src/dictionary.rs:256-281 | The same restriction for the past form: irregular verbs keep their table forms, and a regular verb in vowel + "y" takes a plain "ed". |
| Inflection.AddIngDiffers | src/dictionary.rs:236-254 | For a one-line word, the `-ing` form of the code differs from the intended one iff the word ends in "ie" or in a vowel followed by w, x or y. |
| Inflection.AddEdDiffers | src/dictionary.rs:256-281 | For a one-line regular verb, the past form of the code differs from the intended one iff the verb ends, without a final e, in a vowel followed by w, x or y. |
| Inflection.IntendedExamples | src/dictionary.rs:241-275 | The intended rules give "tying", "playing" and "played". |
| Inflection.BeExample | src/dictionary.rs:259-264 | "Be" is looked up by its folded key and yields was, were, been, am, are, is, in that order. |
| Inflection.PotatoExample | src/dictionary.rs:213-219 | "potato" is one of the five words in "o" that take "es". |
| Inflection.RadioExample | src/dictionary.rs:213-220 | "radio" takes a plain "s". |
| Lexicon.AddTranslation | src/dictionary.rs:374-376 | The translation joins the set. Description and rank are kept, and the meaning is no longer empty. |
| Lexicon.Meaning.IsEmpty | src/dictionary.rs:378-380 | A meaning is empty iff it has no description and no translation, whatever its rank. |
| Lexicon.Term.IsEmpty | src/dictionary.rs:336-346 | A term is empty iff its headword is empty or it has neither pronunciations nor classes. |
| Lexicon.MeaningPositionRank | src/dictionary.rs:139-153 | A stored meaning keeps its rank. A new one is ranked at the size of its class, 0 for a new class or term. When ranks are dense, that rank is taken by no stored meaning. |
| Lexicon.New | src/dictionary.rs:72-84 | A new dictionary has no terms and is well formed. |
| Lexicon.AddPronunciation | src/dictionary.rs:133-137 | The pronunciation is appended to the list of its source name in the term of the folded headword. A new term takes the given spelling, and an existing one keeps its own. No other list, field or term changes. |
| Lexicon.StoreMeaning | src/dictionary.rs:170-175 | A meaning already stored under the folded description gets the union of translations and the new rank, and keeps its stored description. A missing one is created from the given description. No other meaning changes. |
| Lexicon.WithMeaning | src/dictionary.rs:162-175 | The term keeps its spelling and pronunciations. Its inflections are exactly the old ones and the new forms. Its classes gain exactly the given class, which holds the meaning stored into what it held; every other class is untouched. |
| Lexicon.AddMeaning | src/dictionary.rs:155-176 | Only the key of the folded headword is added or changed. Every other term and both languages are kept. |
| Lexicon.AddMeaningTerm | src/dictionary.rs:155-176 | Inside its term, `add_meaning` keeps the first spelling and the pronunciations, adds the headword's inflections for the class, and touches no other class. |
| Lexicon.AddMeaningMerges | src/dictionary.rs:139-176 | An existing meaning gets old ∪ new translations and keeps its description and rank. A new meaning is ranked at the number of meanings already in the class, which is 0 for a new class or term. No other meaning changes. |
| Lexicon.Lookup | src/dictionary.rs:283-285 | A term is found iff its folded key is stored, and then it is the stored term. |
| Lexicon.AddPronunciationValid | src/dictionary.rs:133-137 | `add_pronunciation` keeps every term under its folded spelling, every meaning under its folded description, and ranks dense. |
| Lexicon.StoreMeaningOK | src/dictionary.rs:139-175 | Storing with the rank `get_meaning_position` gives keeps the ranks of a class exactly 0..n-1. |
| Lexicon.AddMeaningValid | src/dictionary.rs:155-176 | `add_meaning` keeps the dictionary well formed. |
| Lexicon.AddMeaningIdempotent | src/dictionary.rs:155-176 | Adding the same fact twice is adding it once. |
| Lexicon.SameKeySameTerm | src/dictionary.rs:133-137 | Headwords that fold alike reach the same term through add and through `lookup`. The stored spelling is that of the first insertion. |
| Lexicon.PronunciationsOnlyGrow | src/dictionary.rs:133-176 | Every pronunciation list before an add is a prefix of the same list after it. |
| Lexicon.RankIsFirstSeen | src/dictionary.rs:139-153 | Two new meanings of a new term get ranks 0 and 1 in the order they arrive. |
| Lexicon.WrittenTermShown | src/dictionary.rs:133-176 | A term just written by either add is empty iff its headword is empty, so every write with a headword is exported. |
| Tabular.Rows | src/dictionary/reader.rs:12-19 | Every kept row has at least two fields, and there are no more rows than lines. |
| Tabular.ReadTabFile | src/dictionary/reader.rs:10-22 | A read error is passed on unchanged. Otherwise every row has at least two fields, so field 1 is always there for the callers. |
| Tabular.RowsAreDataLines | src/dictionary/reader.rs:12-19 | Joined back at their tabs, the rows are exactly the lines that are not comments and hold a tab, in file order. Empty fields are kept. |
| Tabular.TagToClass | src/dictionary/reader/gnu_fdl.rs:16-24 | Any class other than Unknown is the class whose tag equals the text exactly. |
| Tabular.TagRoundTrip | src/dictionary/reader/gnu_fdl.rs:16-24 | The six tags n:, v:, adv:, adj:, pron: and prep: read back into their classes. Determiner, LinkingWord and Unknown have no tag. |
| Tabular.CzechRow | src/dictionary/reader/gnu_fdl.rs:9-26 | A row with fewer than three fields leaves the dictionary as it is. Any other row adds exactly the key of its trimmed headword, and the dictionary stays well formed. |
| Tabular.CzechRowStores | src/dictionary/reader/gnu_fdl.rs:13-26 | After a row with three fields or more, its trimmed field 1 is a translation of the description-less meaning of its trimmed headword, in the tagged class. |
| Tabular.CzechRows | src/dictionary/reader/gnu_fdl.rs:8-27 | Reading rows adds exactly the keys of the rows with three fields, keeps every existing key, and keeps the dictionary well formed. |
| Tabular.CzechRowsKeepPronunciations | src/dictionary/reader/gnu_fdl.rs:8-27 | The translation file changes no pronunciation list. |
| Tabular.ReadCzech | src/dictionary/reader/gnu_fdl.rs:5-30 | `read_czech` fails iff reading the file failed. |
| Tabular.RowEntry | src/dictionary/reader/pronunciation.rs:9-12 | The headword is field 0 trimmed. Pronunciation i is piece i of field 1 split at commas, trimmed; there are #commas + 1 of them, empty pieces kept, none holding a comma. |
| Tabular.RowEntries | src/dictionary/reader/pronunciation.rs:8-13 | One entry per row, in file order. |
| Tabular.AddPronunciationsAppends | src/dictionary/reader/pronunciation.rs:10-12 | The row's pronunciations are appended in order to the headword's list under the source name. |
| Tabular.AddPronunciationsFrame | src/dictionary/reader/pronunciation.rs:10-12 | Only the headword's key is added, and no other term changes. |
| Tabular.AddPronunciationsKeepMeanings | src/dictionary/reader/pronunciation.rs:10-12 | Pronunciation files change no class, meaning or inflection. |
| Tabular.AddEntries | src/dictionary/reader/pronunciation.rs:8-13 | Adding a file's entries keeps the dictionary well formed and keeps the classes and inflections of every term. |
| Tabular.ReadPronunciation | src/dictionary/reader/pronunciation.rs:5-16 | `read_pronunciation` fails iff reading the file failed. |
| Tabular.ReadersKeepValid | src/dictionary/reader/gnu_fdl.rs:5-30 | Both readers keep a well-formed dictionary well formed. |
| Xml.Replace | src/dictionary/writer.rs:5-9 | A replacement leaves text without the character unchanged. It leaves no occurrence of the character when the replacement text has none. |
| Xml.Escape | src/dictionary/writer.rs:3-10 | The output has no raw `<`, `>`, `'` or `"`, and a text with none of the five characters comes back unchanged. |
| Xml.EscapeAppend | src/dictionary/writer.rs:3-10 | Escaping distributes over concatenation. |
| Xml.EscapeIsPerCharacter | src/dictionary/writer.rs:3-10 | The five chained replacements equal escaping each character on its own, because `&` is replaced first. |
| Xml.EscapeIsSafe | src/dictionary/writer.rs:3-10 | The output has no raw `<`, `>`, `'` or `"`. Every `&` in it begins one of the five entities. |
| Xml.EscapeRoundTrip | src/dictionary/writer.rs:3-10 | Decoding the five entities gives back the input exactly. |
| Xml.EscapeUnchangedIff | src/dictionary/writer.rs:5-9 | The output equals the input iff the input has none of the five characters. The length grows by 4 per `&`, by 3 per `<` or `>`, and by 5 per `'` or `"`. |
| Wiki.Templates | src/dictionary/reader/wiki.rs:42 | Because the match is lazy, no template found contains `}}`. A line without `{{` has no template. |
| Wiki.TemplatesCons | src/dictionary/reader/wiki.rs:42 | A template written at the front of a line is the first one found, with its inner text as written. |
| Wiki.LanguageHeading | src/dictionary/reader/wiki.rs:44 | A heading is `==X==` with X non-empty and free of `=`. |
| Wiki.LanguageHeadingOf | src/dictionary/reader/wiki.rs:44 | Every such `==X==` line is a heading naming X. |
| Wiki.HeadwordOf | src/dictionary/reader/wiki.rs:138-141 | A title without `/` loses nothing but its surrounding whitespace. |
| Wiki.HeadwordOfTranslations | src/dictionary/reader/wiki.rs:138-141 | `X/translations` names X when X is non-empty and free of `/`. |
| Wiki.HeadwordOfNested | src/dictionary/reader/wiki.rs:138-141 | The suffix stays when the part before it has a `/`. |
| Wiki.PrefixMatch | src/dictionary/reader/wiki.rs:40 | A matching line starts with `*` and is at least three characters longer than the prefix. |
| Wiki.PrefixMatchShapes | src/dictionary/reader/wiki.rs:40 | Both `* cs:` and `*: cs:` shapes match. A line that does not start with `*` never matches. |
| Wiki.ClassTemplateRoundTrip | src/dictionary/reader/wiki.rs:203-210 | The eight `en-…` templates and the classes they set correspond one to one. |
| Wiki.IpaPronunciations | src/dictionary/reader/wiki.rs:170-176 | Every pronunciation kept is a trimmed field starting with `/`, and every field whose trimmed value starts with `/` is kept. |
| Wiki.AddIpaAppends | src/dictionary/reader/wiki.rs:170-176 | The field loop appends exactly those fields, in order, under the source name "wiki". |
| Wiki.IpaStepAppends | src/dictionary/reader/wiki.rs:161-177 | An `IPA` template appends its `/…` fields from index 2 on, and only in the English section when field 1 is absent or equals the source language. Otherwise it changes nothing. |
| Wiki.TransTop | src/dictionary/reader/wiki.rs:179-194 | `trans-top` flushes a non-empty pending meaning and starts a new one. The new one is described by trimmed field 1 only in the English section with a field 1, and by "" otherwise. |
| Wiki.TransBottom | src/dictionary/reader/wiki.rs:196-201 | `trans-bottom` flushes and resets a non-empty pending meaning, and leaves everything alone when it is empty. |
| Wiki.ClassTemplateStep | src/dictionary/reader/wiki.rs:203-210 | An `en-…` template only sets the word class. |
| Wiki.TranslationTemplateStep | src/dictionary/reader/wiki.rs:212-215 | Any other template adds trimmed field 2 as a translation iff it has three fields or more and the line is a translation line of the prefix. |
| Wiki.PlainLineRead | src/dictionary/reader/wiki.rs:147-156 | A line that is not a heading is read under the current language while that language is unset or English. |
| Wiki.ForeignHeadingStops | src/dictionary/reader/wiki.rs:148-154 | A heading of another language ends the reading of the page. |
| Wiki.ForeignPageUnchanged | src/dictionary/reader/wiki.rs:147-154 | A page that opens with another language's heading adds nothing. |
| Wiki.LanguageKept | src/dictionary/reader/wiki.rs:148-150 | A line that is not a heading keeps the current language. |
| Wiki.ReadWikiPage | src/dictionary/reader/wiki.rs:137-223 | A page changes only the term of its own headword, keeps the source language, and keeps the dictionary well formed. |
| Wiki.StepState | src/dictionary/reader/wiki.rs:70-110 | Start page/title/text go to Page/Title/Content with that part cleared. End title/text go back to the page, and end page goes back outside. Other tags change nothing. |
| Wiki.TextOutsideIgnored | src/dictionary/reader/wiki.rs:112-125 | Text outside a title or text element is ignored. |
| Wiki.Step | src/dictionary/reader/wiki.rs:91-98 | A page is handed on only at its end, and only when its title has no `:`. |
| Wiki.Run | src/dictionary/reader/wiki.rs:67-129 | The loop only appends pages, and every page it appends has a title without `:`. |
| Wiki.EofStops | src/dictionary/reader/wiki.rs:68 | Nothing after the end of the stream is read. |
| Wiki.OnePage | src/dictionary/reader/wiki.rs:70-125 | A page element collects its title and text, and is handed on iff the title has no `:`. |
| Wiki.OnePageRead | src/dictionary/reader/wiki.rs:93-97 | Reading a one-page dump is reading that page, or nothing for a page of another namespace. |
| Wiki.ReadPages | src/dictionary/reader/wiki.rs:93-97 | Reading the pages keeps the source language and a well-formed dictionary. It adds only the keys of the pages' headwords and leaves every other term as it was. |
| Wiki.ReadWiki | src/dictionary/reader/wiki.rs:50-132 | The same holds for a whole dump, for the headwords of the pages of the main namespace. |
| Ordering.Sort | src/dictionary/writer/kindle.rs:96-97 | `sort` returns a sorted permutation of its input. |
| Ordering.SortedKeysUnique | src/dictionary/writer/kindle.rs:96-97 | Sorted hash-map keys are the same sequence whatever order the map gave them in. The result is strictly sorted and holds exactly the keys. |
| Kindle.CheckOutputPath | src/dictionary/writer/kindle.rs:10-24 | An existing file is an error, and so is an existing directory without force, each with its own message. A missing path is to be created. Anything else proceeds. |
| Kindle.ForceOnlyForDirectories | src/dictionary/writer/kindle.rs:10-24 | `-f` changes the outcome only for an existing directory and never overrides a file. |
| Kindle.Batch | src/dictionary/writer/kindle.rs:38-45 | Each batch holds between 1 and 30000 keys. |
| Kindle.ListedKeys | src/dictionary/writer/kindle.rs:32-63 | The non-empty keys, in order: they export exactly what all the keys export, one term each. |
| Kindle.ListedBatches | src/dictionary/writer/kindle.rs:32-63 | Batching only those keys gives ceil(e/30000) files for e exported terms, loses and reorders nothing, and fills every file but the last. |
| Kindle.EmptyTermTakesAFile | src/dictionary/writer/kindle.rs:38-63 | With 30000 non-empty keys and one empty key after them, the code writes two files, the second with no entry. The batching of non-empty keys writes one. |
| Kindle.SlicesAreBatches | src/dictionary/writer/kindle.rs:32-51 | There are ceil(n/30000) batches, with none for n = 0. They are consecutive and together are all keys in order. |
| Kindle.ContentId | src/dictionary/writer/kindle.rs:43 | The id is "content" plus at least four digits, exactly four below 10000. |
| Kindle.ContentIdInjective | src/dictionary/writer/kindle.rs:43 | Distinct file numbers give distinct ids. |
| Kindle.CreateContentFiles | src/dictionary/writer/kindle.rs:32-51 | One file per batch. File k has id content(k+1), path `<out>/<id>.xhtml` and the keys of batch k. |
| Kindle.Exported | src/dictionary/writer/kindle.rs:58-63 | A content file lists no empty term. |
| Kindle.ExportedIff | src/dictionary/writer/kindle.rs:58-63 | A term is listed iff it is non-empty and one of the keys leads to it. |
| Kindle.ExportedInBatches | src/dictionary/writer/kindle.rs:32-63 | Batching loses, repeats and reorders no term. |
| Kindle.ContentBodiesInBatches | src/dictionary/writer/kindle.rs:32-81 | The bodies of the batch files, concatenated, equal the body of one file over all keys. |
| Kindle.ContentBodySkipsEmpty | src/dictionary/writer/kindle.rs:58-63 | An empty term contributes nothing to its file, but it keeps its place in the batch. |
| Kindle.ContentBody | src/dictionary/writer/kindle.rs:53-81 | A file body is empty iff none of its keys leads to a non-empty term. |
| Kindle.Entry | src/dictionary/writer/kindle.rs:65-73 | An entry opens the `idx:entry` element, then the bold headword, escaped, and closes the element at its end. |
| Kindle.HeadwordMarkup | src/dictionary/writer/kindle.rs:83-93 | The headword, escaped, follows `<b><idx:orth>`. The markup opens five tags besides those of the inflection block. |
| Kindle.InflectionBlockTags | src/dictionary/writer/kindle.rs:85-91 | The `<idx:infl>` block is present iff the term has inflections. It then opens one tag per inflection besides its own two, whatever the set order. |
| Kindle.ShownSourcesFacts | src/dictionary/writer/kindle.rs:95-110 | Sources are printed in strictly sorted name order, independent of hash order. They are exactly the term's sources, and "wiki" is shown iff it is the only source. |
| Kindle.PronunciationMarkup | src/dictionary/writer/kindle.rs:95-110 | There is pronunciation markup iff some source is shown. |
| Kindle.PronunciationMarkupEmpty | src/dictionary/writer/kindle.rs:95-110 | Under any order that lists each name once, there is pronunciation markup iff the term has a pronunciation source. |
| Kindle.PronunciationLineTags | src/dictionary/writer/kindle.rs:103-108 | A line opens its two label tags plus whatever `<` the source name has, because the name is not escaped. There is no label for "" or "wiki". The escaped pronunciations add no tag, and one break ends the line. |
| Kindle.ClassMarkupOrder | src/dictionary/writer/kindle.rs:112-124 | One block per class that has meanings, in declaration order. |
| Kindle.ClassMarkup | src/dictionary/writer/kindle.rs:112-124 | The class markup is the blocks of exactly the classes with meanings, in `Ord` order, whatever order the map gave. |
| Kindle.MeaningsMarkupOpens | src/dictionary/writer/kindle.rs:126-147 | `<ul>` comes first iff some meaning has a translation. Otherwise the markup opens with `<ol>`. |
| Kindle.TranslationBlock | src/dictionary/writer/kindle.rs:133-137 | The `<ul>` block is there iff some meaning has a translation, and then it opens four tags: `ul`, `li` and their two closings. |
| Kindle.ListItems | src/dictionary/writer/kindle.rs:140-145 | One `<li>` item per description, opening two tags each, and nothing for no description. |
| Kindle.MeaningsMarkup | src/dictionary/writer/kindle.rs:126-147 | The meanings markup opens 4 tags for the translations when there are any, 2 for `<ol>`, and 2 per meaning with a description. |
| Kindle.Described | src/dictionary/writer/kindle.rs:139-146 | The numbered list holds exactly the non-empty descriptions. |
| Kindle.DescribedCount | src/dictionary/writer/kindle.rs:139-146 | It has one item per meaning with a description. |
| Kindle.ManifestIdRoundTrip | src/dictionary/writer/kindle.rs:203-206 | A manifest item names the id it was written for. |
| Kindle.SpineIdRoundTrip | src/dictionary/writer/kindle.rs:213-216 | A spine item names the id it was written for. |
| Kindle.ManifestInFileOrder | src/dictionary/writer/kindle.rs:203-206 | Manifest item k names file k. |
| Kindle.SpineInFileOrder | src/dictionary/writer/kindle.rs:213-216 | Spine item k names file k. |
| Kindle.PackageOf | src/dictionary/writer/kindle.rs:184-220 | The package carries the dictionary's metadata and one manifest item and one spine item per file. When no id holds `"`, item k of each reads back as the id of file k. |
| Kindle.KeysCount | src/dictionary/writer/kindle.rs:33 | Under any order that lists each key once, the keys batched are exactly the dictionary's keys, as many as it has terms. |
| Kindle.ToKindle | src/dictionary/writer/kindle.rs:10-30 | A path error is returned as is. Otherwise every key is in exactly one file, in order, and file k has body `ContentBody` of its keys. Manifest and spine item k name content(k+1), and the metadata is the dictionary's. |
| Cli.ParamValue | src/cli_config.rs:63-65 | A present argument is returned as is. A missing one gives "Missing parameter". |
| Cli.Defaults | src/cli_config.rs:20-34 | The defaults set no input file, no pronunciation file and no force, so they pass every file check. |
| Cli.FileName | src/cli_config.rs:68-74 | The name is accepted iff it is present and the probe finds it. Otherwise there are three distinct errors for missing argument, absent file and failed check. |
| Cli.Pronunciation | src/cli_config.rs:76-87 | A missing argument or a count of colons other than one gives its error. An accepted value has a trimmed name, no colon in either part, and an existing file. |
| Cli.PronunciationPair | src/cli_config.rs:76-87 | `raw:file` gives the trimmed raw name and the file, or the file's error. |
| Cli.PronunciationIsPair | src/cli_config.rs:76-87 | Every accepted value is `raw:file`, with the name being trimmed raw. |
| Cli.FlagSpelling | src/cli_config.rs:43-56 | Each option is recognised by its own spelling and by nothing else. |
| Cli.ApplyInput | src/cli_config.rs:44 | `-i` is accepted iff its file exists, and then it sets the input path. |
| Cli.ApplyPronunciation | src/cli_config.rs:49 | `-p` appends one pronunciation file after those given before. |
| Cli.Apply | src/cli_config.rs:43-56 | An option with its argument keeps force, extends the pronunciation list, keeps files checked, and fails only with one of the five messages. |
| Cli.Parse | src/cli_config.rs:42-57 | Parsing fails only with one of the five messages, never clears force, only appends pronunciation files, and keeps files checked. |
| Cli.ParseOption | src/cli_config.rs:43-56 | The same for the option at the front of the arguments. |
| Cli.Build | src/cli_config.rs:37-60 | With no argument after the program name, the result is the defaults: English to Czech, no paths, no force, empty title and author. |
| Cli.BuildIsChecked | src/cli_config.rs:37-60 | Every accepted configuration has its files checked. |
| Cli.ParseAppend | src/cli_config.rs:42-57 | Once a prefix of the arguments parses, the rest continue from its configuration. |
| Cli.UnknownOption | src/cli_config.rs:55 | An unknown token gives "Illegal argument", whatever follows it. |
| Cli.MissingLast | src/cli_config.rs:44-54 | A value-taking option given last gives "Missing parameter". |
| Cli.LastValueWins | src/cli_config.rs:45-54 | A repeated value option keeps the value given last. |
| Cli.RenderRoundTrip | src/cli_config.rs:37-60 | A checked configuration is what `build` returns for its own command line. Checked means: the input file exists, and every pronunciation file exists, has a name and a file name free of `:`, and has a trimmed name. A configuration with name "a:b" is therefore not one `build` can produce. With `Cli.BuildIsChecked`, checked configurations are exactly the ones `build` can produce. |
| Strings.Split | src/dictionary/reader.rs:16 | Splitting on a character gives #occurrences + 1 pieces, none holding the character, and they join back to the input. |
| Strings.LinesJoin | src/dictionary/reader.rs:13 | For text without carriage returns that does not end in a newline, the lines joined with newlines give the text back. |
| Strings.Pad4 | src/dictionary/writer/kindle.rs:43 | `{:04}` gives at least four digits, exactly four below 10000, that read back as the number. |

## Left out

**Not modelled at all**
- `src/main.rs` and `Dictionary::build`, which run the readers, the lookup and the writer. Their own checks are not modelled:
  - `main` stops with "No search (-s) or output path (-o) is specified." when neither `-s` nor `-o` is given;
  - `Dictionary::build` rejects an input file for any language pair other than en-cs ("Unsupported language combination: …");
  - `Dictionary::build` rejects `-w` without `-wp` ("No wiki prefix specified.").
- `Dictionary::len` and `WordRegex::new` as operations. The patterns themselves are modelled as predicates.
- bzip2 decompression, quick_xml decoding and entity unescaping. The reader gets already-unescaped `Text` events.
- The `panic!` on malformed XML and the `unwrap`s, which cannot fail on the paths modelled.

**Replaced by parameters or by plain values**
- File contents, `fs::exists` and `fs::metadata` are parameters.
- `create_dir_all`, `File::create` and `write_all` are not performed. An export is the files' paths and texts plus the package values; a write error is not modelled.
- The fixed HTML head and tail of each content file, and the static OPF text, are left out. Only the values filled into them and the manifest and spine items are modelled.

**Approximations of Rust or regex behaviour**
- `to_lowercase` is modelled on ASCII letters only.
- Trim and the regex `\s` use the Unicode White_Space list.
- The language prefix of `^\*.?\s<prefix>:` is taken as literal text, not as a regular expression.
- Hash-map and hash-set iteration order is the `Order` parameter. The order of inflections, translations and descriptions in the output is whatever it yields; no particular order is proved.
- `Order` is one function from a set to a listing of it, so two equal sets are always listed alike. In Rust each `HashMap` and `HashSet` has its own `RandomState`, and two equal sets held in different maps may iterate in different orders. Every result proved here for any order that lists each element once still holds, but a claim that two equal sets print identically does not carry over.

**Members stated more weakly than the source promises**
- Kindle.ToKindle: the number of files is stated for the keys the order yields. `Kindle.KeysCount` relates that to `|d.terms|` when the order lists each key once. `Lists` is a ghost predicate, so it is not a precondition of the method.
- Inflection.AddSRules: stated only for one-line headwords. For words containing a newline, `Inflection.LastLine` gives what the regex capture keeps.
- Inflection.AddIngRules: stated only for one-line headwords, for the same reason.
- Inflection.AddEdRules: stated only for one-line headwords, for the same reason.
- Words.Label: its contract is stated as the round trip `Words.LabelRoundTrip` with `Words.ClassOfLabel`, not on the function itself.

## Findings

The model follows the code as written: `Inflection.Inflect`, `Kindle.CreateContentFiles` and `Kindle.ToKindle` use the code's rules, because they describe the files the program writes. The corrected definitions sit beside them, with their intended properties proved.

| source | as written | input that shows it | evidently intended | confidence | as-written member | corrected member |
|---|---|---|---|---|---|---|
| src/dictionary.rs:241-244 | The `(.*)e$` rule is tried before the `(.*)ie$` rule, so the `ie` rule never fires. | "tie" gives "tiing" | "tying" | not executed; high | Inflection.TieExample | Inflection.AddIngIntended |
| src/dictionary.rs:245-248 | The consonant class after a vowel includes `w`, `x` and `y`, so they are doubled before "ing". | "play" gives "playying" | "playing" | not executed; high | Inflection.PlayExample | Inflection.AddIngIntended |
| src/dictionary.rs:272-275 | The same class doubles `w`, `x` and `y` before "ed". | "play" gives "playyed" | "played" | not executed; high | Inflection.PlayedExample | Inflection.AddEdIntended |
| src/dictionary/writer/kindle.rs:38-63 | Keys are sliced into files of 30000 before empty terms are skipped, so empty terms use places in a file. | 30000 non-empty keys followed by one empty key give a second file with no entry | one file per 30000 exported entries | not executed; low | Kindle.EmptyTermTakesAFile | Kindle.ListedBatches |

`Inflection.AddIngDiffers` and `Inflection.AddEdDiffers` give the exact set of words on which each as-written rule and its correction disagree, and `Inflection.IntendedExamples` gives "tying", "playing" and "played".

=== FILE: base.dfy ===
/** Failure-carrying wrappers shared by the whole model: an optional value
    (Rust's `Option`) and a result whose error is a message (Rust's
    `Result<_, &str>` / `Box<dyn Error>` collapsed to its text). */
module Base {

  datatype Option<+T> = None | Some(value: T)

  datatype Result<+T> = Ok(value: T) | Err(error: string)
}

=== FILE: cli.dfy ===
/** The command line of the converter (`CliConfig::build`). Options are read
    left to right; each one either sets a field, appends a pronunciation
    file, or sets the force flag. Whether a file exists is asked of a probe
    standing for `fs::exists`. */
module Cli {
  import opened Base
  import opened Strings

  /** The three outcomes of `fs::exists`: the path exists, it does not, or
      the existence test itself failed. */
  datatype Probe = Present | Absent | Unreadable

  type FileProbe = string -> Probe

  /** A `-p <name>:<filename>` argument after parsing. */
  datatype PronunciationFile = PronunciationFile(name: string, fileName: string)

  datatype Config = Config(
    inputFilePath: Option<string>,
    pronunciationFiles: seq<PronunciationFile>,
    wikiFilePath: Option<string>,
    outputPath: Option<string>,
    query: Option<string>,
    wikiPrefix: Option<string>,
    sourceLanguage: string,
    targetLanguage: string,
    title: string,
    author: string,
    force: bool)

  const MissingParameter := "Missing parameter"
  const IllegalArgument := "Illegal argument"
  const FileMissing := "File does not exist"
  const FileUnknown := "Cannot find file"
  const PronunciationParts := "Pronunciation must have 2 parts: '<name>:<filename>'"

  /** `CliConfig::new`: nothing given, English to Czech, no title or author.
      It names no file, so it is checked whatever files exist. */
  function Defaults(): (r: Config)
    ensures forall probe: FileProbe :: Checked(r, probe)
    ensures !r.force && r.pronunciationFiles == []
  {
    Config(None, [], None, None, None, None, "en", "cs", "", "", false)
  }

  /** `get_param_value`: the argument after an option, which must exist. */
  function ParamValue(param: Option<string>): (r: Result<string>)
    ensures r.Ok? <==> param.Some?
    ensures r.Ok? ==> r.value == param.value
    ensures r.Err? ==> r.error == MissingParameter
  {
    match param
    case None => Err(MissingParameter)
    case Some(v) => Ok(v)
  }

  /** `get_file_name`: the argument after an option, naming a file that
      exists. */
  function FileName(param: Option<string>, probe: FileProbe): (r: Result<string>)
    ensures r.Ok? <==> param.Some? && probe(param.value) == Present
    ensures r.Ok? ==> r.value == param.value
    ensures param.None? ==> r == Err(MissingParameter)
    ensures param.Some? && probe(param.value) == Absent ==> r == Err(FileMissing)
    ensures param.Some? && probe(param.value) == Unreadable ==> r == Err(FileUnknown)
  {
    match ParamValue(param)
    case Err(e) => Err(e)
    case Ok(name) =>
      match probe(name)
      case Present => Ok(name)
      case Absent => Err(FileMissing)
      case Unreadable => Err(FileUnknown)
  }

  /** `get_pronunciation`: `<name>:<filename>` split at its one colon; the
      name is trimmed, the file must exist. */
  function Pronunciation(param: Option<string>, probe: FileProbe): (r: Result<PronunciationFile>)
    ensures param.None? ==> r == Err(MissingParameter)
    ensures param.Some? && Count(param.value, ':') != 1 ==> r == Err(PronunciationParts)
    ensures r.Ok? ==> ':' !in r.value.name && ':' !in r.value.fileName
    ensures r.Ok? ==> Trim(r.value.name) == r.value.name && probe(r.value.fileName) == Present
  {
    match ParamValue(param)
    case Err(e) => Err(e)
    case Ok(v) =>
      var parts := Split(v, ':');
      if |parts| != 2 then Err(PronunciationParts)
      else
        match FileName(Some(parts[1]), probe)
        case Err(e) => Err(e)
        case Ok(fileName) =>
          TrimAbsent(parts[0], ':');
          TrimIdempotent(parts[0]);
          Ok(PronunciationFile(Trim(parts[0]), fileName))
  }

  /** The whole of a `-p` argument with one colon: the part before it,
      trimmed, names the file after it. */
  lemma PronunciationPair(raw: string, fileName: string, probe: FileProbe)
    requires ':' !in raw && ':' !in fileName
    ensures Pronunciation(Some(raw + ":" + fileName), probe) ==
      (match probe(fileName)
       case Present => Ok(PronunciationFile(Trim(raw), fileName))
       case Absent => Err(FileMissing)
       case Unreadable => Err(FileUnknown))
  {
    SplitPair(raw, fileName, ':');
  }

  /** Every accepted `-p` argument is such a pair. */
  lemma PronunciationIsPair(param: Option<string>, probe: FileProbe)
    requires Pronunciation(param, probe).Ok?
    ensures param.Some?
    ensures exists raw ::
      && ':' !in raw
      && param.value == raw + ":" + Pronunciation(param, probe).value.fileName
      && Pronunciation(param, probe).value.name == Trim(raw)
  {
    var parts := Split(param.value, ':');
    SplitTwo(param.value, ':');
    assert param.value == parts[0] + ":" + parts[1];
  }

  /** The options `CliConfig::build` recognises, by what they do. */
  datatype Flag =
    | Input       // -i
    | Output      // -o
    | WikiFile    // -w
    | Search      // -s
    | WikiPrefix  // -wp
    | Pronounce   // -p
    | Force       // -f
    | Source      // -sl
    | Target      // -tl
    | Title       // -t
    | Author      // -a
    | Illegal     // anything else
  {
    /** The options that only record the argument after them. */
    predicate Plain()
    {
      !(Input? || Pronounce? || Force? || Illegal?)
    }
  }

  function FlagOf(arg: string): Flag
  {
    if arg == "-i" then Input
    else if arg == "-o" then Output
    else if arg == "-w" then WikiFile
    else if arg == "-s" then Search
    else if arg == "-wp" then WikiPrefix
    else if arg == "-p" then Pronounce
    else if arg == "-f" then Force
    else if arg == "-sl" then Source
    else if arg == "-tl" then Target
    else if arg == "-t" then Title
    else if arg == "-a" then Author
    else Illegal
  }

  /** The spelling of each option on the command line. */
  function Spelling(f: Flag): string
  {
    match f
    case Input => "-i"
    case Output => "-o"
    case WikiFile => "-w"
    case Search => "-s"
    case WikiPrefix => "-wp"
    case Pronounce => "-p"
    case Force => "-f"
    case Source => "-sl"
    case Target => "-tl"
    case Title => "-t"
    case Author => "-a"
    case Illegal => ""
  }

  /** Each option is recognised by its spelling and by nothing else. */
  lemma FlagSpelling(f: Flag, arg: string)
    requires f != Illegal
    ensures FlagOf(arg) == f <==> arg == Spelling(f)
  {
  }

  predicate IsError(e: string)
  {
    e in {MissingParameter, IllegalArgument, FileMissing, FileUnknown, PronunciationParts}
  }

  /** A pronunciation file as `get_pronunciation` can produce it. */
  predicate Listed(p: PronunciationFile, probe: FileProbe)
  {
    ':' !in p.name && ':' !in p.fileName && Trim(p.name) == p.name && probe(p.fileName) == Present
  }

  /** A configuration whose every file was checked to exist. */
  predicate Checked(c: Config, probe: FileProbe)
  {
    && (c.inputFilePath.Some? ==> probe(c.inputFilePath.value) == Present)
    && (forall i :: 0 <= i < |c.pronunciationFiles| ==> Listed(c.pronunciationFiles[i], probe))
  }

  /** `-i`: the input file, which must exist. */
  function ApplyInput(value: string, c: Config, probe: FileProbe): (r: Result<Config>)
    ensures r.Ok? <==> probe(value) == Present
    ensures r.Err? ==> IsError(r.error)
    ensures r.Ok? ==> r.value == c.(inputFilePath := Some(value))
  {
    match FileName(Some(value), probe)
    case Err(e) => Err(e)
    case Ok(v) => Ok(c.(inputFilePath := Some(v)))
  }

  /** `-p`: one more pronunciation file, after those given before. */
  function ApplyPronunciation(value: string, c: Config, probe: FileProbe): (r: Result<Config>)
    ensures r.Ok? <==> Pronunciation(Some(value), probe).Ok?
    ensures r.Err? ==> IsError(r.error)
    ensures r.Ok? ==> r.value == c.(pronunciationFiles := c.pronunciationFiles + [Pronunciation(Some(value), probe).value])
    ensures r.Ok? ==> Listed(Pronunciation(Some(value), probe).value, probe)
  {
    match Pronunciation(Some(value), probe)
    case Err(e) => Err(e)
    case Ok(p) => Ok(c.(pronunciationFiles := c.pronunciationFiles + [p]))
  }

  function SetPlain(flag: Flag, value: string, c: Config): (r: Config)
    requires flag.Plain()
    ensures r.inputFilePath == c.inputFilePath && r.pronunciationFiles == c.pronunciationFiles && r.force == c.force
  {
    match flag
    case Output => c.(outputPath := Some(value))
    case WikiFile => c.(wikiFilePath := Some(value))
    case Search => c.(query := Some(value))
    case WikiPrefix => c.(wikiPrefix := Some(value))
    case Source => c.(sourceLanguage := value)
    case Target => c.(targetLanguage := value)
    case Title => c.(title := value)
    case Author => c.(author := value)
  }

  /** One option with its argument applied to the configuration. */
  function Apply(flag: Flag, value: string, c: Config, probe: FileProbe): (r: Result<Config>)
    requires flag != Force && flag != Illegal
    ensures r.Err? ==> IsError(r.error)
    ensures r.Ok? ==> r.value.force == c.force
    ensures r.Ok? ==> |c.pronunciationFiles| <= |r.value.pronunciationFiles|
    ensures r.Ok? ==> r.value.pronunciationFiles[..|c.pronunciationFiles|] == c.pronunciationFiles
    ensures r.Ok? && Checked(c, probe) ==> Checked(r.value, probe)
  {
    if flag == Input then ApplyInput(value, c, probe)
    else if flag == Pronounce then ApplyPronunciation(value, c, probe)
    else Ok(SetPlain(flag, value, c))
  }

  /** The loop of `CliConfig::build` over the arguments still to read.
      Errors are the five messages, the force flag is never cleared,
      pronunciation files are only appended, and a checked configuration
      stays checked. */
  function Parse(args: seq<string>, c: Config, probe: FileProbe): (r: Result<Config>)
    ensures r.Err? ==> IsError(r.error)
    ensures r.Ok? && c.force ==> r.value.force
    ensures r.Ok? ==>
      |c.pronunciationFiles| <= |r.value.pronunciationFiles|
      && r.value.pronunciationFiles[..|c.pronunciationFiles|] == c.pronunciationFiles
    ensures r.Ok? && Checked(c, probe) ==> Checked(r.value, probe)
    decreases |args|, 1
  {
    if args == [] then Ok(c) else ParseOption(args, c, probe)
  }

  /** One pass of the loop: the option in front, then the rest. */
  function ParseOption(args: seq<string>, c: Config, probe: FileProbe): (r: Result<Config>)
    requires args != []
    ensures r.Err? ==> IsError(r.error)
    ensures r.Ok? && c.force ==> r.value.force
    ensures r.Ok? ==>
      |c.pronunciationFiles| <= |r.value.pronunciationFiles|
      && r.value.pronunciationFiles[..|c.pronunciationFiles|] == c.pronunciationFiles
    ensures r.Ok? && Checked(c, probe) ==> Checked(r.value, probe)
    decreases |args|, 0
  {
    var flag := FlagOf(args[0]);
    if flag == Force then Parse(args[1..], c.(force := true), probe)
    else if flag == Illegal then Err(IllegalArgument)
    else if |args| == 1 then Err(MissingParameter)
    else
      match Apply(flag, args[1], c, probe)
      case Err(e) => Err(e)
      case Ok(c') =>
        var r := Parse(args[2..], c', probe);
        assert r.Ok? ==> r.value.pronunciationFiles[..|c.pronunciationFiles|] == c.pronunciationFiles by {
          if r.Ok? {
            var ps, ps', ps'' := c.pronunciationFiles, c'.pronunciationFiles, r.value.pronunciationFiles;
            assert ps'[..|ps|] == ps;
            assert ps''[..|ps|] == ps''[..|ps'|][..|ps|];
          }
        }
        r
  }

  /** `CliConfig::build`: the program name is skipped, the rest parsed from
      the defaults. */
  function Build(args: seq<string>, probe: FileProbe): (r: Result<Config>)
    ensures |args| <= 1 ==> r == Ok(Defaults())
  {
    if args == [] then Ok(Defaults()) else Parse(args[1..], Defaults(), probe)
  }

  /** Every configuration `Build` accepts has its files checked; with
      `RenderRoundTrip` these are exactly the configurations it can give. */
  lemma BuildIsChecked(args: seq<string>, probe: FileProbe)
    ensures Build(args, probe).Ok? ==> Checked(Build(args, probe).value, probe)
  {
    if args != [] {
      assert Checked(Defaults(), probe);
    }
  }

  /** Parsing stops where its arguments end: once a prefix of the arguments
      parses, the rest continue from the configuration it produced. */
  lemma {:induction false} ParseAppend(a: seq<string>, b: seq<string>, c: Config, probe: FileProbe)
    requires Parse(a, c, probe).Ok?
    ensures Parse(a + b, c, probe) == Parse(b, Parse(a, c, probe).value, probe)
    decreases |a|
  {
    if a == [] {
      assert a + b == b;
    } else if FlagOf(a[0]) == Force {
      assert (a + b)[0] == a[0] && (a + b)[1..] == a[1..] + b;
      ParseAppend(a[1..], b, c.(force := true), probe);
    } else {
      assert (a + b)[0] == a[0] && (a + b)[1] == a[1] && (a + b)[2..] == a[2..] + b;
      ParseAppend(a[2..], b, Apply(FlagOf(a[0]), a[1], c, probe).value, probe);
    }
  }

  /** An option the program does not know ends parsing with an error,
      whatever follows it. */
  lemma UnknownOption(arg: string, rest: seq<string>, c: Config, probe: FileProbe)
    requires arg !in {"-i", "-o", "-w", "-s", "-wp", "-p", "-f", "-sl", "-tl", "-t", "-a"}
    ensures Parse([arg] + rest, c, probe) == Err(IllegalArgument)
  {
    assert ([arg] + rest)[0] == arg;
  }

  /** An option that needs an argument, given last, is an error. */
  lemma MissingLast(arg: string, c: Config, probe: FileProbe)
    requires FlagOf(arg) != Force && FlagOf(arg) != Illegal
    ensures Parse([arg], c, probe) == Err(MissingParameter)
  {
  }

  /** A repeated option keeps the value given last. */
  lemma LastValueWins(flag: Flag, first: string, last: string, rest: seq<string>, c: Config, probe: FileProbe)
    requires flag.Plain()
    ensures Parse([Spelling(flag), first, Spelling(flag), last] + rest, c, probe) == Parse([Spelling(flag), last] + rest, c, probe)
  {
    var args := [Spelling(flag), first, Spelling(flag), last] + rest;
    assert args[2..] == [Spelling(flag), last] + rest;
    PlainStep(flag, first, [Spelling(flag), last] + rest, c, probe);
    PlainStep(flag, last, rest, SetPlain(flag, first, c), probe);
    PlainStep(flag, last, rest, c, probe);
    assert SetPlain(flag, last, SetPlain(flag, first, c)) == SetPlain(flag, last, c);
  }

  // ---------------------------------------------------------------------
  // Writing a configuration back as a command line

  /** An option followed by its argument. */
  function Pair(flag: Flag, value: string): seq<string>
  {
    [Spelling(flag), value]
  }

  function OptionArgs(flag: Flag, o: Option<string>): seq<string>
  {
    if o.Some? then Pair(flag, o.value) else []
  }

  /** The four options that are always written. */
  function LastArgs(c: Config): seq<string>
  {
    Pair(Source, c.sourceLanguage) + (Pair(Target, c.targetLanguage) + (Pair(Title, c.title) + Pair(Author, c.author)))
  }

  /** The `<name>:<filename>` text of each pronunciation file. */
  function PronunciationTexts(ps: seq<PronunciationFile>): (r: seq<string>)
    ensures |r| == |ps|
  {
    seq(|ps|, i requires 0 <= i < |ps| => ps[i].name + ":" + ps[i].fileName)
  }

  /** One `-p` option per text. */
  function PronunciationArgs(texts: seq<string>): seq<string>
  {
    if texts == [] then [] else ["-p", texts[0]] + PronunciationArgs(texts[1..])
  }

  /** A command line that asks for `c`: every option set in `c`, then the
      pronunciation files in order, the force flag, and the four texts. */
  function Render(c: Config): seq<string>
  {
    OptionArgs(Input, c.inputFilePath) + (
    OptionArgs(Output, c.outputPath) + (
    OptionArgs(WikiFile, c.wikiFilePath) + (
    OptionArgs(Search, c.query) + (
    OptionArgs(WikiPrefix, c.wikiPrefix) + (
    PronunciationArgs(PronunciationTexts(c.pronunciationFiles)) + (
    (if c.force then ["-f"] else []) + LastArgs(c)))))))
  }

  /** An option with its argument, followed by more arguments. */
  lemma ValueStep(flag: Flag, value: string, rest: seq<string>, c: Config, probe: FileProbe)
    requires flag != Force && flag != Illegal && Apply(flag, value, c, probe).Ok?
    ensures Parse(Pair(flag, value) + rest, c, probe) == Parse(rest, Apply(flag, value, c, probe).value, probe)
  {
    var args := Pair(flag, value) + rest;
    assert args[0] == Spelling(flag) && args[1] == value && args[2..] == rest;
    FlagSpelling(flag, args[0]);
  }

  lemma PlainStep(flag: Flag, value: string, rest: seq<string>, c: Config, probe: FileProbe)
    requires flag.Plain()
    ensures Parse(Pair(flag, value) + rest, c, probe) == Parse(rest, SetPlain(flag, value, c), probe)
  {
    ValueStep(flag, value, rest, c, probe);
  }

  lemma InputStep(o: Option<string>, rest: seq<string>, c: Config, probe: FileProbe)
    requires o.Some? ==> probe(o.value) == Present
    ensures Parse(OptionArgs(Input, o) + rest, c, probe) == Parse(rest, c.(inputFilePath := if o.Some? then o else c.inputFilePath), probe)
  {
    var args := OptionArgs(Input, o) + rest;
    if o.Some? {
      assert args[0] == "-i" && args[1] == o.value && args[2..] == rest;
    } else {
      assert args == rest;
    }
  }

  lemma OptionStep(flag: Flag, o: Option<string>, rest: seq<string>, c: Config, probe: FileProbe)
    requires flag.Plain()
    ensures Parse(OptionArgs(flag, o) + rest, c, probe) == Parse(rest, if o.Some? then SetPlain(flag, o.value, c) else c, probe)
  {
    if o.Some? {
      PlainStep(flag, o.value, rest, c, probe);
    } else {
      assert OptionArgs(flag, o) + rest == rest;
    }
  }

  /** A `-p` option whose text reads as `p`. */
  lemma PronunciationStep(text: string, p: PronunciationFile, rest: seq<string>, c: Config, probe: FileProbe)
    requires Pronunciation(Some(text), probe) == Ok(p)
    ensures Parse(["-p", text] + rest, c, probe) == Parse(rest, c.(pronunciationFiles := c.pronunciationFiles + [p]), probe)
  {
    ValueStep(Pronounce, text, rest, c, probe);
  }

  /** A listed pronunciation file is read back from its own text. */
  lemma PronunciationListed(p: PronunciationFile, probe: FileProbe)
    requires Listed(p, probe)
    ensures Pronunciation(Some(p.name + ":" + p.fileName), probe) == Ok(p)
  {
    PronunciationPair(p.name, p.fileName, probe);
  }

  /** Each text reads as the pronunciation file in the same place. */
  predicate ReadAs(texts: seq<string>, ps: seq<PronunciationFile>, probe: FileProbe)
  {
    |texts| == |ps| &&
    (texts != [] ==> Pronunciation(Some(texts[0]), probe) == Ok(ps[0]) && ReadAs(texts[1..], ps[1..], probe))
  }

  lemma {:induction false} TextsReadBack(ps: seq<PronunciationFile>, probe: FileProbe)
    requires forall i :: 0 <= i < |ps| ==> Listed(ps[i], probe)
    ensures ReadAs(PronunciationTexts(ps), ps, probe)
  {
    if ps != [] {
      PronunciationListed(ps[0], probe);
      TextsReadBack(ps[1..], probe);
      TextsTail(ps);
    }
  }

  lemma TextsTail(ps: seq<PronunciationFile>)
    requires ps != []
    ensures PronunciationTexts(ps)[1..] == PronunciationTexts(ps[1..])
  {
    var a, b := PronunciationTexts(ps)[1..], PronunciationTexts(ps[1..]);
    forall i | 0 <= i < |b|
      ensures a[i] == b[i]
    {
      assert ps[1..][i] == ps[i + 1];
    }
  }

  lemma AppendAssoc<T>(a: seq<T>, b: seq<T>, c: seq<T>)
    ensures (a + b) + c == a + (b + c)
  {
  }

  lemma {:induction false} PronunciationArgsParse(texts: seq<string>, ps: seq<PronunciationFile>, rest: seq<string>, c: Config, probe: FileProbe)
    requires ReadAs(texts, ps, probe)
    ensures Parse(PronunciationArgs(texts) + rest, c, probe) == Parse(rest, c.(pronunciationFiles := c.pronunciationFiles + ps), probe)
  {
    if texts == [] {
      NoPronunciations(ps, rest, c, probe);
    } else {
      var c' := c.(pronunciationFiles := c.pronunciationFiles + [ps[0]]);
      PronunciationArgsCons(texts, ps, rest, c, probe);
      PronunciationArgsParse(texts[1..], ps[1..], rest, c', probe);
      MorePronunciations(c, ps);
    }
  }

  lemma NoPronunciations(ps: seq<PronunciationFile>, rest: seq<string>, c: Config, probe: FileProbe)
    requires ps == []
    ensures Parse(PronunciationArgs([]) + rest, c, probe) == Parse(rest, c.(pronunciationFiles := c.pronunciationFiles + ps), probe)
  {
    assert PronunciationArgs([]) + rest == rest;
    assert c.pronunciationFiles + ps == c.pronunciationFiles;
  }

  lemma MorePronunciations(c: Config, ps: seq<PronunciationFile>)
    requires ps != []
    ensures c.(pronunciationFiles := c.pronunciationFiles + [ps[0]]).(pronunciationFiles := c.pronunciationFiles + [ps[0]] + ps[1..])
      == c.(pronunciationFiles := c.pronunciationFiles + ps)
  {
    assert c.pronunciationFiles + [ps[0]] + ps[1..] == c.pronunciationFiles + ps;
  }

  lemma PronunciationArgsCons(texts: seq<string>, ps: seq<PronunciationFile>, rest: seq<string>, c: Config, probe: FileProbe)
    requires texts != [] && ReadAs(texts, ps, probe)
    ensures Parse(PronunciationArgs(texts) + rest, c, probe)
      == Parse(PronunciationArgs(texts[1..]) + rest, c.(pronunciationFiles := c.pronunciationFiles + [ps[0]]), probe)
  {
    var tail := PronunciationArgs(texts[1..]) + rest;
    ArgsCons(texts, rest);
    PronunciationStep(texts[0], ps[0], tail, c, probe);
  }

  lemma ArgsCons(texts: seq<string>, rest: seq<string>)
    requires texts != []
    ensures PronunciationArgs(texts) + rest == ["-p", texts[0]] + (PronunciationArgs(texts[1..]) + rest)
  {
    AppendAssoc(["-p", texts[0]], PronunciationArgs(texts[1..]), rest);
  }

  lemma ForceStep(force: bool, rest: seq<string>, c: Config, probe: FileProbe)
    ensures Parse((if force then ["-f"] else []) + rest, c, probe) == Parse(rest, if force then c.(force := true) else c, probe)
  {
    var args := (if force then ["-f"] else []) + rest;
    if force {
      assert args[0] == "-f" && args[1..] == rest;
    } else {
      assert args == rest;
    }
  }

  lemma AppendNil<T>(a: seq<T>)
    ensures a + [] == a
  {
  }

  lemma LanguagesParse(source: string, target: string, rest: seq<string>, x: Config, probe: FileProbe)
    ensures Parse(Pair(Source, source) + (Pair(Target, target) + rest), x, probe)
      == Parse(rest, x.(sourceLanguage := source, targetLanguage := target), probe)
  {
    var x1 := SetPlain(Source, source, x);
    assert x1 == x.(sourceLanguage := source);
    PlainStep(Source, source, Pair(Target, target) + rest, x, probe);
    PlainStep(Target, target, rest, x1, probe);
  }

  lemma TitleAuthorParse(title: string, author: string, x: Config, probe: FileProbe)
    ensures Parse(Pair(Title, title) + Pair(Author, author), x, probe) == Ok(x.(title := title, author := author))
  {
    var x1 := SetPlain(Title, title, x);
    assert x1 == x.(title := title);
    PlainStep(Title, title, Pair(Author, author), x, probe);
    AppendNil(Pair(Author, author));
    PlainStep(Author, author, [], x1, probe);
    assert SetPlain(Author, author, x1) == x.(title := title, author := author);
  }

  lemma LastArgsParse(c: Config, x: Config, probe: FileProbe)
    ensures Parse(LastArgs(c), x, probe)
      == Ok(x.(sourceLanguage := c.sourceLanguage, targetLanguage := c.targetLanguage, title := c.title, author := c.author))
  {
    LanguagesParse(c.sourceLanguage, c.targetLanguage, Pair(Title, c.title) + Pair(Author, c.author), x, probe);
    TitleAuthorParse(c.title, c.author, x.(sourceLanguage := c.sourceLanguage, targetLanguage := c.targetLanguage), probe);
  }

  /** The optional options, from the defaults. */
  lemma OptionsParse(c: Config, rest: seq<string>, probe: FileProbe)
    requires c.inputFilePath.Some? ==> probe(c.inputFilePath.value) == Present
    ensures Parse(
      OptionArgs(Input, c.inputFilePath) + (
      OptionArgs(Output, c.outputPath) + (
      OptionArgs(WikiFile, c.wikiFilePath) + (
      OptionArgs(Search, c.query) + (
      OptionArgs(WikiPrefix, c.wikiPrefix) + rest)))), Defaults(), probe)
      == Parse(rest, Defaults().(inputFilePath := c.inputFilePath, outputPath := c.outputPath,
                                 wikiFilePath := c.wikiFilePath, query := c.query, wikiPrefix := c.wikiPrefix), probe)
  {
    var a4 := OptionArgs(WikiPrefix, c.wikiPrefix) + rest;
    var a3 := OptionArgs(Search, c.query) + a4;
    var a2 := OptionArgs(WikiFile, c.wikiFilePath) + a3;
    var a1 := OptionArgs(Output, c.outputPath) + a2;
    var c0 := Defaults();
    var c1 := c0.(inputFilePath := c.inputFilePath);
    InputStep(c.inputFilePath, a1, c0, probe);
    var c2 := c1.(outputPath := c.outputPath);
    OptionStep(Output, c.outputPath, a2, c1, probe);
    var c3 := c2.(wikiFilePath := c.wikiFilePath);
    OptionStep(WikiFile, c.wikiFilePath, a3, c2, probe);
    var c4 := c3.(query := c.query);
    OptionStep(Search, c.query, a4, c3, probe);
    OptionStep(WikiPrefix, c.wikiPrefix, rest, c4, probe);
  }

  /** The pronunciation files, the force flag and the four texts. */
  lemma TailParse(c: Config, x: Config, probe: FileProbe)
    requires forall i :: 0 <= i < |c.pronunciationFiles| ==> Listed(c.pronunciationFiles[i], probe)
    requires x.pronunciationFiles == [] && !x.force
    ensures Parse(PronunciationArgs(PronunciationTexts(c.pronunciationFiles)) + ((if c.force then ["-f"] else []) + LastArgs(c)), x, probe)
      == Ok(x.(pronunciationFiles := c.pronunciationFiles, force := c.force,
               sourceLanguage := c.sourceLanguage, targetLanguage := c.targetLanguage, title := c.title, author := c.author))
  {
    var texts := PronunciationTexts(c.pronunciationFiles);
    var a6 := (if c.force then ["-f"] else []) + LastArgs(c);
    TextsReadBack(c.pronunciationFiles, probe);
    PronunciationArgsParse(texts, c.pronunciationFiles, a6, x, probe);
    assert x.pronunciationFiles + c.pronunciationFiles == c.pronunciationFiles;
    var x6 := x.(pronunciationFiles := c.pronunciationFiles);
    ForceStep(c.force, LastArgs(c), x6, probe);
    LastArgsParse(c, x6.(force := c.force), probe);
  }

  /** Every checked configuration comes back from its own command line:
      its files exist, its pronunciation names and file names are free of
      `:`, and its names are trimmed. What is given on the command line is
      exactly what the configuration records. */
  lemma RenderRoundTrip(program: string, c: Config, probe: FileProbe)
    requires Checked(c, probe)
    ensures Build([program] + Render(c), probe) == Ok(c)
  {
    var args := [program] + Render(c);
    assert args[1..] == Render(c);
    var tail := PronunciationArgs(PronunciationTexts(c.pronunciationFiles)) + ((if c.force then ["-f"] else []) + LastArgs(c));
    OptionsParse(c, tail, probe);
    var x := Defaults().(inputFilePath := c.inputFilePath, outputPath := c.outputPath,
                         wikiFilePath := c.wikiFilePath, query := c.query, wikiPrefix := c.wikiPrefix);
    TailParse(c, x, probe);
  }
}

=== FILE: inflection.dfy ===
/** The English inflection engine of src/dictionary.rs: the `WordRegex`
    patterns restated as suffix and character-class tests, the `en_add_s`,
    `en_add_ing` and `en_add_ed` rules with their first-match precedence, the
    irregular-verb table, and `inflect`. */
module Inflection {
  import opened Base
  import opened Strings
  import opened Words

  /** The regex class `[aeiou]`. */
  predicate IsVowel(c: char)
  {
    c in "aeiou"
  }

  /** The regex class `[bcdfghjklmnpqrstvwxyz]`; it includes `w`, `x` and
      `y`. */
  predicate IsConsonant(c: char)
  {
    c in "bcdfghjklmnpqrstvwxyz"
  }

  /** The text after the last newline of `s`. A group `(.*)` anchored at the
      end of the word starts here: `.` matches anything but a newline and the
      leftmost match wins. */
  function LastLine(s: string): (r: string)
    ensures '\n' !in r
    ensures |r| <= |s| && r == s[|s| - |r|..]
    ensures '\n' !in s ==> r == s
    ensures |r| < |s| ==> s[|s| - |r| - 1] == '\n'
  {
    if '\n' !in s then s else LastLine(s[1..])
  }

  /** `(s|sh|ch|x)$` */
  predicate EndsSibilant(h: string)
  {
    EndsWith(h, "s") || EndsWith(h, "sh") || EndsWith(h, "ch") || EndsWith(h, "x")
  }

  /** `(.*[bcdfghjklmnpqrstvwxyz])y$` */
  predicate ConsonantY(h: string)
  {
    |h| >= 2 && h[|h| - 1] == 'y' && IsConsonant(h[|h| - 2])
  }

  /** `.*[aeiou]([bcdfghjklmnpqrstvwxyz])$` */
  predicate VowelConsonant(h: string)
  {
    |h| >= 2 && IsVowel(h[|h| - 2]) && IsConsonant(h[|h| - 1])
  }

  /** Words ending in "o" that take "es". */
  predicate TakesEs(h: string)
  {
    h == "hero" || h == "potato" || h == "tomato" || h == "go" || h == "do"
  }

  /** `en_add_s`: plural and third-person form. The rules are tried in order
      and the first that matches decides. */
  function AddS(h: string): (r: string)
    ensures EndsWith(r, "s")
  {
    if EndsSibilant(h) then h + "es"
    else if EndsWith(h, "o") then (if TakesEs(h) then h + "es" else h + "s")
    else if EndsWith(h, "y") then
      (if ConsonantY(h) then LastLine(h[..|h| - 1]) + "ies" else h + "s")
    else h + "s"
  }

  /** The regex `(.*)ie$`: its group is the last line of the word before
      the final "ie"; there is no match when the word does not end in
      "ie". */
  function IeCapture(h: string): Option<string>
  {
    if EndsWith(h, "ie") then Some(LastLine(h[..|h| - 2])) else None
  }

  /** `en_add_ing`: present participle. */
  function AddIng(h: string): (r: string)
    ensures EndsWith(r, "ing")
  {
    if EndsWith(h, "ee") then h + "ing"
    else if EndsWith(h, "e") then LastLine(h[..|h| - 1]) + "ing"
    else
      match IeCapture(h)
      case Some(stem) =>
        // `(.*)ie$` is tried after `(.*)e$`, which matches every word it would
        assert false; stem + "ying"
      case None =>
        if VowelConsonant(h) then h + [h[|h| - 1]] + "ing"
        else h + "ing"
  }

  /** `en_get_irregular_verbs`. */
  const EnIrregularVerbs: map<string, seq<string>> :=
    map[
      "arise" := ["arose", "arisen"],
      "be" := ["was", "were", "been", "am", "are", "is"],
      "bear" := ["bore", "borne"]]

  /** `generate_irregular_verbs`: only English has a table. */
  function IrregularVerbs(language: string): map<string, seq<string>>
  {
    if language == "en" then EnIrregularVerbs else map[]
  }

  /** `en_add_ed`: past forms. An irregular verb (looked up by its case-folded
      key) yields exactly its listed forms; any other verb yields one suffixed
      form. */
  function AddEd(h: string, irregular: map<string, seq<string>>): (r: seq<string>)
    ensures WordToKey(h) in irregular ==> r == irregular[WordToKey(h)]
    ensures WordToKey(h) !in irregular ==> |r| == 1 && EndsWith(r[0], "d")
  {
    if WordToKey(h) in irregular then irregular[WordToKey(h)]
    else if EndsWith(h, "e") then [h + "d"]
    else if ConsonantY(h) then [LastLine(h[..|h| - 1]) + "ied"]
    else if VowelConsonant(h) then [h + [h[|h| - 1]] + "ed"]
    else [h + "ed"]
  }

  /** `inflect` with `pluralize` and `inflect_verb`: a noun gets its plural, a
      verb its -s form, its -ing form and then its past forms; other classes
      and languages other than English get nothing. */
  function Inflect(language: string, h: string, c: WordClass): (r: seq<string>)
    ensures language != "en" || (c != Noun && c != Verb) ==> r == []
    ensures language == "en" && c == Noun ==> r == [AddS(h)]
    ensures language == "en" && c == Verb ==>
      && |r| >= 3
      && r[0] == AddS(h) && r[1] == AddIng(h)
      && r[2..] == AddEd(h, EnIrregularVerbs)
  {
    match c
    case Noun => if language == "en" then [AddS(h)] else []
    case Verb =>
      if language == "en" then [AddS(h), AddIng(h)] + AddEd(h, IrregularVerbs(language)) else []
    case _ => []
  }

  /** How many forms `inflect` yields. */
  lemma InflectCount(language: string, h: string, c: WordClass)
    ensures |Inflect(language, h, c)| ==
      if language != "en" then 0
      else if c == Noun then 1
      else if c == Verb then
        2 + (if WordToKey(h) in EnIrregularVerbs then |EnIrregularVerbs[WordToKey(h)]| else 1)
      else 0
  {
  }

  /** `en_add_s` on a one-line word, stated with plain suffixes: the
      precedence is sibilant, then "o", then consonant + "y", then the
      default. */
  lemma AddSRules(h: string)
    requires '\n' !in h
    ensures EndsSibilant(h) ==> AddS(h) == h + "es"
    ensures !EndsSibilant(h) && EndsWith(h, "o") ==>
      AddS(h) == h + (if TakesEs(h) then "es" else "s")
    ensures !EndsSibilant(h) && ConsonantY(h) ==> AddS(h) == h[..|h| - 1] + "ies"
    ensures !EndsSibilant(h) && !EndsWith(h, "o") && !ConsonantY(h) ==> AddS(h) == h + "s"
  {
    if ConsonantY(h) {
      assert EndsWith(h, "y");
      assert '\n' !in h[..|h| - 1];
    }
  }

  /** `en_add_ing` on a one-line word: "ee" keeps the word, any other final
      "e" is dropped (so the "ie" rule never applies), vowel + consonant
      doubles the last letter, otherwise "ing" is appended. */
  lemma AddIngRules(h: string)
    requires '\n' !in h
    ensures EndsWith(h, "ee") ==> AddIng(h) == h + "ing"
    ensures !EndsWith(h, "ee") && EndsWith(h, "e") ==> AddIng(h) == h[..|h| - 1] + "ing"
    ensures !EndsWith(h, "e") && VowelConsonant(h) ==> AddIng(h) == h + [h[|h| - 1]] + "ing"
    ensures !EndsWith(h, "e") && !VowelConsonant(h) ==> AddIng(h) == h + "ing"
  {
    if EndsWith(h, "e") {
      assert '\n' !in h[..|h| - 1];
    }
  }

  /** `en_add_ed` for a one-line word that is not irregular. */
  lemma AddEdRules(h: string, irregular: map<string, seq<string>>)
    requires '\n' !in h && WordToKey(h) !in irregular
    ensures EndsWith(h, "e") ==> AddEd(h, irregular) == [h + "d"]
    ensures !EndsWith(h, "e") && ConsonantY(h) ==> AddEd(h, irregular) == [h[..|h| - 1] + "ied"]
    ensures !EndsWith(h, "e") && !ConsonantY(h) && VowelConsonant(h) ==>
      AddEd(h, irregular) == [h + [h[|h| - 1]] + "ed"]
    ensures !EndsWith(h, "e") && !ConsonantY(h) && !VowelConsonant(h) ==>
      AddEd(h, irregular) == [h + "ed"]
  {
    if ConsonantY(h) {
      assert '\n' !in h[..|h| - 1];
    }
  }

  /** "tie" takes the drop-the-"e" rule, not the "ie" rule. */
  lemma TieExample()
    ensures AddIng("tie") == "tiing"
  {
  }

  /** "y" counts as a consonant after a vowel, so "play" doubles it. */
  lemma PlayExample()
    ensures AddIng("play") == "playying"
  {
  }

  /** Only the table's own keys are irregular. */
  lemma NotInTable(key: string)
    requires key != "arise" && key != "be" && key != "bear"
    ensures key !in EnIrregularVerbs
  {
  }

  /** "play" is regular and ends in vowel + "y", so the "y" is doubled. */
  lemma PlayedExample()
    ensures AddEd("play", EnIrregularVerbs) == ["playyed"]
  {
    PlayIsRegular();
    PlayShape();
    AddEdRules("play", EnIrregularVerbs);
    assert "play" + ["play"[3]] + "ed" == "playyed";
  }

  /** "carry" is regular and ends in consonant + "y". */
  lemma CarriedExample()
    ensures AddEd("carry", EnIrregularVerbs) == ["carried"]
  {
    CarryIsRegular();
    CarryShape();
    AddEdRules("carry", EnIrregularVerbs);
    assert "carry"[..4] + "ied" == "carried";
  }

  lemma PlayIsRegular()
    ensures WordToKey("play") == "play" && WordToKey("play") !in EnIrregularVerbs
  {
    assert WordToKey("play") == "play";
    NotInTable("play");
  }

  lemma PlayShape()
    ensures '\n' !in "play" && !EndsWith("play", "e") && EndsWith("play", "y")
    ensures !ConsonantY("play") && VowelConsonant("play")
  {
  }

  lemma CarryIsRegular()
    ensures WordToKey("carry") == "carry" && WordToKey("carry") !in EnIrregularVerbs
  {
    assert WordToKey("carry") == "carry";
    NotInTable("carry");
  }

  lemma CarryShape()
    ensures '\n' !in "carry" && !EndsWith("carry", "e") && ConsonantY("carry")
  {
  }

  // ---------------------------------------------------------------------
  // The rules as their names describe them

  /** A final consonant that is doubled after a vowel: "w", "x" and "y" are
      left out, as in "showing", "fixing" and "playing". */
  predicate Doubles(h: string)
  {
    VowelConsonant(h) && h[|h| - 1] != 'w' && h[|h| - 1] != 'x' && h[|h| - 1] != 'y'
  }

  /** The -ing rules with the "ie" rule tried before the drop-the-"e" rule,
      so that it is reachable, and with doubling restricted to `Doubles`. */
  function AddIngIntended(h: string): (r: string)
    ensures EndsWith(r, "ing")
    ensures EndsWith(h, "ie") ==> r == h[..|h| - 2] + "ying"
    ensures EndsWith(h, "y") ==> r == h + "ing"
  {
    if EndsWith(h, "ee") then h + "ing"
    else if EndsWith(h, "ie") then
      var r := h[..|h| - 2] + "ying";
      assert r[|r| - 3..] == "ying"[1..];
      assert h[|h| - 1] == "ie"[1];
      r
    else if EndsWith(h, "e") then h[..|h| - 1] + "ing"
    else if Doubles(h) then h + [h[|h| - 1]] + "ing"
    else h + "ing"
  }

  /** The -ed rules with doubling restricted to `Doubles`. */
  function AddEdIntended(h: string, irregular: map<string, seq<string>>): (r: seq<string>)
    ensures WordToKey(h) in irregular ==> r == irregular[WordToKey(h)]
    ensures WordToKey(h) !in irregular ==> |r| == 1 && EndsWith(r[0], "d")
    ensures WordToKey(h) !in irregular && EndsWith(h, "y") && !ConsonantY(h) ==> r == [h + "ed"]
  {
    if WordToKey(h) in irregular then irregular[WordToKey(h)]
    else if EndsWith(h, "e") then [h + "d"]
    else if ConsonantY(h) then [h[..|h| - 1] + "ied"]
    else if Doubles(h) then [h + [h[|h| - 1]] + "ed"]
    else [h + "ed"]
  }

  /** On a one-line word the code's -ing form and the intended one differ
      exactly for words ending in "ie" and for a vowel followed by "w", "x"
      or "y". */
  lemma AddIngDiffers(h: string)
    requires '\n' !in h
    ensures AddIng(h) != AddIngIntended(h) <==>
      EndsWith(h, "ie") || (VowelConsonant(h) && !Doubles(h))
  {
    if EndsWith(h, "ie") {
      IeDiffers(h);
    } else if VowelConsonant(h) && !Doubles(h) {
      NoDoubleDiffers(h);
    } else {
      IngAgrees(h);
    }
  }

  lemma IeDiffers(h: string)
    requires '\n' !in h && EndsWith(h, "ie")
    ensures AddIng(h) != AddIngIntended(h)
  {
    AddIngRules(h);
    var n := |h|;
    assert h[n - 2] == 'i';
    assert AddIng(h)[n - 2] == 'i';
    assert AddIngIntended(h)[n - 2] == 'y';
  }

  lemma NoDoubleDiffers(h: string)
    requires '\n' !in h && VowelConsonant(h) && !Doubles(h)
    ensures AddIng(h) != AddIngIntended(h)
  {
    AddIngRules(h);
    assert |AddIng(h)| == |AddIngIntended(h)| + 1;
  }

  lemma IngAgrees(h: string)
    requires '\n' !in h && !EndsWith(h, "ie") && !(VowelConsonant(h) && !Doubles(h))
    ensures AddIng(h) == AddIngIntended(h)
  {
    AddIngRules(h);
  }

  /** On a one-line regular word the code's past form and the intended one
      differ exactly for a vowel followed by "w", "x" or "y". */
  lemma AddEdDiffers(h: string, irregular: map<string, seq<string>>)
    requires '\n' !in h && WordToKey(h) !in irregular
    ensures AddEd(h, irregular) != AddEdIntended(h, irregular) <==>
      !EndsWith(h, "e") && VowelConsonant(h) && !Doubles(h)
  {
    AddEdRules(h, irregular);
    if !EndsWith(h, "e") && VowelConsonant(h) && !Doubles(h) {
      assert |AddEd(h, irregular)[0]| == |AddEdIntended(h, irregular)[0]| + 1;
    }
  }

  /** The intended rules give "tying", "playing" and "played". */
  lemma IntendedExamples()
    ensures AddIngIntended("tie") == "tying"
    ensures AddIngIntended("play") == "playing"
    ensures AddEdIntended("play", EnIrregularVerbs) == ["played"]
  {
    TyingIntended();
    PlayingIntended();
    PlayedIntended();
  }

  lemma TyingIntended()
    ensures AddIngIntended("tie") == "tying"
  {
    assert EndsWith("tie", "ie") && "tie"[..1] + "ying" == "tying";
  }

  lemma PlayingIntended()
    ensures AddIngIntended("play") == "playing"
  {
    PlayShape();
    assert "play" + "ing" == "playing";
  }

  lemma PlayedIntended()
    ensures AddEdIntended("play", EnIrregularVerbs) == ["played"]
  {
    PlayIsRegular();
    PlayShape();
    assert "play" + "ed" == "played";
  }

  /** "be" is irregular even when capitalised: the table is consulted by
      key. */
  lemma BeExample()
    ensures AddEd("Be", EnIrregularVerbs) == ["was", "were", "been", "am", "are", "is"]
  {
    assert WordToKey("Be") == "be";
  }

  lemma PotatoExample()
    ensures AddS("potato") == "potatoes"
  {
  }

  lemma RadioExample()
    ensures AddS("radio") == "radios"
  {
  }
}

=== FILE: kindle.dfy ===
/** The Kindle exporter of src/dictionary/writer/kindle.rs: the output-path
    rule, the batching of keys into content files, the entry markup of each
    non-empty term, and the manifest and spine of the OPF package. Files are
    not written: each content file is its path and the text of its entries,
    and the package is its metadata values and its two item lists. Hash-map
    iteration order is the `Order` parameter. */
module Kindle {
  import opened Base
  import opened Strings
  import opened Words
  import opened Lexicon
  import opened Xml
  import opened Ordering

  // ---------------------------------------------------------------------
  // The output directory

  /** What `fs::metadata` says about the output path. `NoMetadata` is any
      failure, most often that nothing exists there. */
  datatype PathKind = NoMetadata | IsFile | IsDirectory | OtherKind

  /** What `to_kindle` decides about the output path before writing: an error message, or
      whether the directory has to be created first. */
  function CheckOutputPath(path: string, kind: PathKind, force: bool): (r: Result<bool>)
    ensures r.Err? <==> kind == IsFile || (kind == IsDirectory && !force)
    ensures r.Ok? ==> (r.value <==> kind == NoMetadata)
    ensures kind == IsFile ==> r.error == path + " is a file, a directory expected."
    ensures kind == IsDirectory && !force ==> r.error == path + " is an existing directory, use -f to force."
  {
    match kind
    case NoMetadata => Ok(true)
    case IsFile => Err(path + " is a file, a directory expected.")
    case IsDirectory =>
      if force then Ok(false) else Err(path + " is an existing directory, use -f to force.")
    case OtherKind => Ok(false)
  }

  /** `-f` changes the outcome for an existing directory and for nothing
      else: it never overrides a file. */
  lemma ForceOnlyForDirectories(path: string, kind: PathKind)
    ensures CheckOutputPath(path, kind, true) != CheckOutputPath(path, kind, false) <==> kind == IsDirectory
    ensures CheckOutputPath(path, kind, true).Err? <==> kind == IsFile
  {
  }

  // ---------------------------------------------------------------------
  // Batching

  const BatchSize: nat := 30000

  /** Number of content files for `n` keys: n / 30000 rounded up. */
  function BatchCount(n: nat): nat
  {
    (n + BatchSize - 1) / BatchSize
  }

  /** The keys of content file `k` (counting from 0): from `k * 30000` up to
      the next multiple or the end. */
  function Batch(keys: seq<string>, k: nat): (r: seq<string>)
    requires k < BatchCount(|keys|)
    ensures 0 < |r| <= BatchSize
    ensures forall x :: x in r ==> x in keys
  {
    var lo := k * BatchSize;
    var hi := if lo + BatchSize > |keys| then |keys| else lo + BatchSize;
    keys[lo..hi]
  }

  /** Reference definition: cut off 30000 keys at a time. */
  function Slices(keys: seq<string>): seq<seq<string>>
    decreases |keys|
  {
    if keys == [] then []
    else if |keys| <= BatchSize then [keys]
    else [keys[..BatchSize]] + Slices(keys[BatchSize..])
  }

  function Flatten(xss: seq<seq<string>>): seq<string>
  {
    if xss == [] then [] else xss[0] + Flatten(xss[1..])
  }

  /** The slices are the batches, and together they are all the keys, in
      order, each exactly once. */
  lemma {:induction false} SlicesAreBatches(keys: seq<string>)
    ensures |Slices(keys)| == BatchCount(|keys|)
    ensures forall k :: 0 <= k < |Slices(keys)| ==> Slices(keys)[k] == Batch(keys, k)
    ensures Flatten(Slices(keys)) == keys
    decreases |keys|
  {
    if |keys| > BatchSize {
      var rest := keys[BatchSize..];
      SlicesAreBatches(rest);
      assert BatchCount(|keys|) == BatchCount(|rest|) + 1;
      forall k | 0 <= k < |Slices(keys)|
        ensures Slices(keys)[k] == Batch(keys, k)
      {
        if k > 0 {
          assert Slices(keys)[k] == Slices(rest)[k - 1];
          BatchShift(keys, k);
        }
      }
      assert Flatten(Slices(keys)) == keys[..BatchSize] + Flatten(Slices(rest));
      assert keys == keys[..BatchSize] + rest;
    } else if keys != [] {
      assert Flatten([keys]) == keys + Flatten([]);
    }
  }

  /** Batch k of the keys is batch k - 1 of what follows the first batch. */
  lemma BatchShift(keys: seq<string>, k: nat)
    requires |keys| > BatchSize && 0 < k < BatchCount(|keys|)
    ensures k - 1 < BatchCount(|keys| - BatchSize)
    ensures Batch(keys[BatchSize..], k - 1) == Batch(keys, k)
  {
    var lo := (k - 1) * BatchSize;
    assert lo + BatchSize == k * BatchSize;
  }

  /** `format!("content{:04}", i)` */
  function ContentId(i: nat): (r: string)
    ensures |r| >= 11 && r[..7] == "content"
    ensures i < 10000 ==> |r| == 11
  {
    "content" + Pad4(i)
  }

  /** File ids never collide, also past 9999 where the number widens. */
  lemma ContentIdInjective(i: nat, j: nat)
    ensures ContentId(i) == ContentId(j) ==> i == j
  {
    if ContentId(i) == ContentId(j) {
      assert Pad4(i) == ContentId(i)[7..];
      assert Pad4(j) == ContentId(j)[7..];
    }
  }

  /** The batch starting at a position before the end. */
  lemma BatchAt(keys: seq<string>, k: nat, pos: nat)
    requires pos == k * BatchSize < |keys|
    ensures k < BatchCount(|keys|)
    ensures k + 1 < BatchCount(|keys|) <==> pos + BatchSize < |keys|
  {
  }

  datatype ContentFile = ContentFile(id: string, path: string, keys: seq<string>)

  function ContentPath(outputPath: string, id: string): string
  {
    outputPath + "/" + id + ".xhtml"
  }

  /** Content file `k` (counting from 0): id `content` and k + 1, and the
      keys of batch `k`. */
  function NthFile(keys: seq<string>, outputPath: string, k: nat): ContentFile
    requires k < BatchCount(|keys|)
  {
    ContentFile(ContentId(k + 1), ContentPath(outputPath, ContentId(k + 1)), Batch(keys, k))
  }

  lemma NextFile(keys: seq<string>, outputPath: string, files: seq<ContentFile>, file: ContentFile)
    requires |files| < BatchCount(|keys|)
    requires forall k :: 0 <= k < |files| ==> files[k] == NthFile(keys, outputPath, k)
    requires file == NthFile(keys, outputPath, |files|)
    ensures forall k :: 0 <= k < |files| + 1 ==> (files + [file])[k] == NthFile(keys, outputPath, k)
  {
  }

  /** `create_kindle_content_files`: one file per batch of keys, numbered
      from 1. Only the bookkeeping is modelled; the text of each file is
      `ContentBody` of its keys. */
  method CreateContentFiles(keys: seq<string>, outputPath: string) returns (files: seq<ContentFile>)
    ensures |files| == BatchCount(|keys|)
    ensures forall k :: 0 <= k < |files| ==> files[k] == NthFile(keys, outputPath, k)
  {
    var pos := 0;
    var i := 1;
    files := [];
    while pos < |keys|
      invariant i == |files| + 1
      invariant pos == |files| * BatchSize
      invariant |files| <= BatchCount(|keys|)
      invariant forall k :: 0 <= k < |files| ==> files[k] == NthFile(keys, outputPath, k)
    {
      var max := pos + BatchSize;
      if max > |keys| {
        max := |keys|;
      }
      var id := ContentId(i);
      var path := ContentPath(outputPath, id);
      BatchAt(keys, |files|, pos);
      var file := ContentFile(id, path, keys[pos..max]);
      assert file == NthFile(keys, outputPath, |files|);
      NextFile(keys, outputPath, files, file);
      files := files + [file];
      pos := pos + BatchSize;
      i := i + 1;
    }
  }

  // ---------------------------------------------------------------------
  // Entries

  /** The terms a content file lists for its keys: the non-empty ones, in
      key order. An empty term is skipped but has used its place in the
      batch. */
  function Exported(d: Dictionary, keys: seq<string>): (r: seq<Term>)
    requires forall k :: k in keys ==> k in d.terms
    ensures |r| <= |keys|
    ensures forall t :: t in r ==> !t.IsEmpty()
  {
    if keys == [] then []
    else
      var t := d.terms[keys[0]];
      (if t.IsEmpty() then [] else [t]) + Exported(d, keys[1..])
  }

  lemma {:induction false} ExportedAppend(d: Dictionary, a: seq<string>, b: seq<string>)
    requires forall k :: k in a ==> k in d.terms
    requires forall k :: k in b ==> k in d.terms
    ensures Exported(d, a + b) == Exported(d, a) + Exported(d, b)
  {
    if a != [] {
      var t := d.terms[a[0]];
      var head := if t.IsEmpty() then [] else [t];
      calc {
        Exported(d, a + b);
        { assert (a + b)[0] == a[0] && (a + b)[1..] == a[1..] + b; }
        head + Exported(d, a[1..] + b);
        { ExportedAppend(d, a[1..], b); }
        head + (Exported(d, a[1..]) + Exported(d, b));
        (head + Exported(d, a[1..])) + Exported(d, b);
        Exported(d, a) + Exported(d, b);
      }
    } else {
      assert a + b == b;
    }
  }

  /** A term is listed iff it is non-empty and some key leads to it. */
  lemma {:induction false} ExportedIff(d: Dictionary, keys: seq<string>, t: Term)
    requires forall k :: k in keys ==> k in d.terms
    ensures t in Exported(d, keys) <==> !t.IsEmpty() && exists i :: 0 <= i < |keys| && d.terms[keys[i]] == t
  {
    if keys != [] {
      ExportedIff(d, keys[1..], t);
      if exists i :: 1 <= i < |keys| && d.terms[keys[i]] == t {
        var i :| 1 <= i < |keys| && d.terms[keys[i]] == t;
        assert d.terms[keys[1..][i - 1]] == t;
      }
      if exists i :: 0 <= i < |keys[1..]| && d.terms[keys[1..][i]] == t {
        var i :| 0 <= i < |keys[1..]| && d.terms[keys[1..][i]] == t;
        assert d.terms[keys[i + 1]] == t;
      }
    }
  }

  /** Splitting the keys into batches loses and repeats no term: the files
      together list exactly what one file over all keys would. */
  lemma {:induction false} ExportedInBatches(d: Dictionary, keys: seq<string>)
    requires forall k :: k in keys ==> k in d.terms
    ensures Flatten(Slices(keys)) == keys
    ensures ExportedAll(d, Slices(keys)) == Exported(d, keys)
    decreases |keys|
  {
    SlicesAreBatches(keys);
    if |keys| > BatchSize {
      var rest := keys[BatchSize..];
      assert keys == keys[..BatchSize] + rest;
      ExportedAppend(d, keys[..BatchSize], rest);
      ExportedInBatches(d, rest);
      assert Slices(keys)[1..] == Slices(rest);
    } else if keys != [] {
      assert Slices(keys)[1..] == [];
    }
  }

  /** The terms of a sequence of batches, one batch after another. */
  function ExportedAll(d: Dictionary, batches: seq<seq<string>>): seq<Term>
    requires forall k :: k in Flatten(batches) ==> k in d.terms
  {
    assert batches != [] ==> Flatten(batches) == batches[0] + Flatten(batches[1..]);
    if batches == [] then [] else Exported(d, batches[0]) + ExportedAll(d, batches[1..])
  }

  // Batching only the listed terms

  /** The keys of the non-empty terms, in order. Slicing these rather than all
      keys is what a batch of "30000 entries" describes; the code slices all
      keys and drops empty terms afterwards. */
  function ListedKeys(d: Dictionary, keys: seq<string>): (r: seq<string>)
    requires forall k :: k in keys ==> k in d.terms
    ensures forall k :: k in r ==> k in keys && !d.terms[k].IsEmpty()
    ensures Exported(d, r) == Exported(d, keys)
    ensures |r| == |Exported(d, keys)|
  {
    if keys == [] then []
    else
      var head := if d.terms[keys[0]].IsEmpty() then [] else [keys[0]];
      var rest := ListedKeys(d, keys[1..]);
      ExportedAppend(d, head, rest);
      head + rest
  }

  /** A run of keys whose terms are all non-empty lists one term per key. */
  lemma {:induction false} ExportedAllListed(d: Dictionary, keys: seq<string>)
    requires forall k :: k in keys ==> k in d.terms && !d.terms[k].IsEmpty()
    ensures |Exported(d, keys)| == |keys|
  {
    if keys != [] {
      ExportedAllListed(d, keys[1..]);
    }
  }

  /** Slicing the listed keys gives the same terms in the same order, and
      every file but the last holds a full 30000 entries, so the number of
      files depends only on how many terms are listed. */
  lemma ListedBatches(d: Dictionary, keys: seq<string>)
    requires forall k :: k in keys ==> k in d.terms
    ensures |Slices(ListedKeys(d, keys))| == BatchCount(|Exported(d, keys)|)
    ensures Flatten(Slices(ListedKeys(d, keys))) == ListedKeys(d, keys)
    ensures ExportedAll(d, Slices(ListedKeys(d, keys))) == Exported(d, keys)
    ensures forall k :: 0 <= k < BatchCount(|Exported(d, keys)|) - 1 ==>
      |Exported(d, Batch(ListedKeys(d, keys), k))| == BatchSize
  {
    var listed := ListedKeys(d, keys);
    SlicesAreBatches(listed);
    ExportedInBatches(d, listed);
    forall k | 0 <= k < BatchCount(|listed|) - 1
      ensures |Exported(d, Batch(listed, k))| == BatchSize
    {
      ExportedAllListed(d, Batch(listed, k));
    }
  }

  /** 30000 non-empty terms and one empty one: the code writes two files,
      the second with no entry, where slicing the listed keys writes one. */
  lemma EmptyTermTakesAFile(d: Dictionary, keys: seq<string>)
    requires |keys| == BatchSize + 1
    requires forall k :: k in keys ==> k in d.terms
    requires d.terms[keys[BatchSize]].IsEmpty()
    requires forall i :: 0 <= i < BatchSize ==> !d.terms[keys[i]].IsEmpty()
    ensures BatchCount(|keys|) == 2 && Exported(d, Batch(keys, 1)) == []
    ensures |Slices(ListedKeys(d, keys))| == 1
  {
    var full := keys[..BatchSize];
    var last := keys[BatchSize..];
    assert keys == full + last;
    assert Batch(keys, 1) == last;
    assert Exported(d, last) == [] by {
      assert last[1..] == [];
    }
    ExportedAppend(d, full, last);
    ExportedAllListed(d, full);
    ListedBatches(d, keys);
  }

  // Headword and inflections

  function IForm(form: string): string
  {
    "<idx:iform value=\"" + Escape(form) + "\" />"
  }

  function IForms(forms: seq<string>): string
  {
    if forms == [] then "" else IForm(forms[0]) + IForms(forms[1..])
  }

  /** The `<idx:infl>` block, present only for a term with inflections. */
  function InflectionBlock(t: Term, order: Order): string
  {
    if t.inflections == {} then ""
    else "<idx:infl>" + IForms(order(t.inflections)) + "</idx:infl>"
  }

  /** The tags around the headword: `<b><idx:orth>` and
      `</idx:orth></b><br />`. */
  const OrthOpen := "<b>" + "<idx:orth>"
  const OrthClose := "</idx:orth>" + "</b>" + "<br />"

  /** `format_headword`: the escaped headword opens the markup, and the
      only tags are the five around it plus those of the inflection block. */
  function HeadwordMarkup(t: Term, order: Order): (r: string)
    ensures StartsWith(r, OrthOpen + Escape(t.headword))
    ensures Count(r, '<') == 5 + Count(InflectionBlock(t, order), '<')
  {
    HeadwordTags(t.headword, InflectionBlock(t, order));
    OrthOpen + Escape(t.headword) + InflectionBlock(t, order) + OrthClose
  }

  lemma HeadwordTags(h: string, block: string)
    ensures Count(OrthOpen + Escape(h) + block + OrthClose, '<') == 5 + Count(block, '<')
  {
    OrthTags();
    EscapedHasNoTag(h);
    CountAppend(OrthOpen, Escape(h), '<');
    CountAppend(OrthOpen + Escape(h), block, '<');
    CountAppend(OrthOpen + Escape(h) + block, OrthClose, '<');
  }

  lemma OrthTags()
    ensures Count(OrthOpen, '<') == 2 && Count(OrthClose, '<') == 3
  {
    OrthOpenTags();
    OrthCloseTags();
  }

  lemma OrthOpenTags()
    ensures Count(OrthOpen, '<') == 2
  {
    CountAppend("<b>", "<idx:orth>", '<');
    CountLeading("<b>", '<');
    OrthStartTag();
  }

  lemma OrthCloseTags()
    ensures Count(OrthClose, '<') == 3
  {
    CountAppend("</idx:orth>", "</b>", '<');
    CountAppend("</idx:orth>" + "</b>", "<br />", '<');
    OrthEndTag();
    BoldBreakTags();
  }

  lemma BoldBreakTags()
    ensures Count("</b>", '<') == 1 && Count("<br />", '<') == 1
  {
    CountLeading("</b>", '<');
    CountLeading("<br />", '<');
  }

  lemma OrthStartTag()
    ensures Count("<idx:orth>", '<') == 1
  {
    CountLeading("<idx:orth>", '<');
  }

  lemma OrthEndTag()
    ensures Count("</idx:orth>", '<') == 1
  {
    CountLeading("</idx:orth>", '<');
  }

  /** Escaped text contains no `<`, so a tag count is a count of the
      markup the writer itself emits. */
  lemma EscapedHasNoTag(s: string)
    ensures Count(Escape(s), '<') == 0
  {
    EscapeIsSafe(s);
    CountAbsent(Escape(s), '<');
  }

  /** Each fixed tag the entry markup is built from opens once. */
  lemma IFormOpens()
    ensures Count("<idx:iform value=\"", '<') == 1
  {
    CountLeading("<idx:iform value=\"", '<');
  }

  lemma IFormCloses()
    ensures Count("\" />", '<') == 0
  {
    CountAbsent("\" />", '<');
  }

  lemma InflOpens()
    ensures Count("<idx:infl>", '<') == 1
  {
    CountLeading("<idx:infl>", '<');
  }

  lemma InflCloses()
    ensures Count("</idx:infl>", '<') == 1
  {
    CountLeading("</idx:infl>", '<');
  }

  lemma LabelTags()
    ensures Count("<i>", '<') == 1 && Count("</i>: ", '<') == 1
  {
    CountLeading("<i>", '<');
    CountLeading("</i>: ", '<');
  }

  lemma BreakTag()
    ensures Count("<br />\n", '<') == 1
  {
    CountLeading("<br />\n", '<');
  }

  lemma IFormTag(form: string)
    ensures Count(IForm(form), '<') == 1
  {
    var a := "<idx:iform value=\"";
    var b := "\" />";
    CountAppend(a, Escape(form), '<');
    CountAppend(a + Escape(form), b, '<');
    EscapedHasNoTag(form);
    IFormOpens();
    IFormCloses();
  }

  lemma {:induction false} IFormsTags(forms: seq<string>)
    ensures Count(IForms(forms), '<') == |forms|
  {
    if forms != [] {
      IFormTag(forms[0]);
      IFormsTags(forms[1..]);
      CountAppend(IForm(forms[0]), IForms(forms[1..]), '<');
    }
  }

  /** The inflection block is there iff the term has inflections, and then
      holds one `iform` tag per inflection between its two own tags. */
  lemma InflectionBlockTags(t: Term, order: Order)
    requires Lists(order)
    ensures InflectionBlock(t, order) == "" <==> t.inflections == {}
    ensures Count(InflectionBlock(t, order), '<') == if t.inflections == {} then 0 else |t.inflections| + 2
  {
    if t.inflections != {} {
      var forms := order(t.inflections);
      assert Enumerates(forms, t.inflections);
      DistinctCard(forms, t.inflections);
      IFormsTags(forms);
      var a := "<idx:infl>";
      var b := "</idx:infl>";
      CountAppend(a, IForms(forms), '<');
      CountAppend(a + IForms(forms), b, '<');
      InflOpens();
      InflCloses();
    }
  }

  // Pronunciations

  /** Whether `format_pronunciations` prints the source `name`: "wiki" is
      dropped when the term has another source too. */
  predicate ShowsSource(t: Term, name: string)
  {
    !(|t.pronunciations| > 1 && name == "wiki")
  }

  function ShownOf(t: Term, names: seq<string>): (r: seq<string>)
    ensures forall x :: x in r <==> x in names && ShowsSource(t, x)
  {
    if names == [] then []
    else (if ShowsSource(t, names[0]) then [names[0]] else []) + ShownOf(t, names[1..])
  }

  /** The sources printed, in the order printed: the sorted names less a
      suppressed "wiki". */
  function ShownSources(t: Term, order: Order): seq<string>
  {
    ShownOf(t, Sort(order(t.pronunciations.Keys)))
  }

  /** The label before a source's list; none for "" and "wiki". */
  function SourceLabel(name: string): string
  {
    if name != "" && name != "wiki" then "<i>" + name + "</i>: " else ""
  }

  function PronunciationLine(t: Term, name: string): string
  {
    SourceLabel(name) + Escape(Join(PronunciationsOf(t, name), ", ")) + "<br />\n"
  }

  /** One line per name; each line ends in a break, so none is empty. */
  function PronunciationLines(t: Term, names: seq<string>): (r: string)
    ensures r == "" <==> names == []
  {
    if names == [] then ""
    else
      var line := PronunciationLine(t, names[0]);
      assert line[|line| - 1] == '\n';
      line + PronunciationLines(t, names[1..])
  }

  /** `format_pronunciations`: nothing at all when no source is shown. */
  function PronunciationMarkup(t: Term, order: Order): (r: string)
    ensures r == "" <==> ShownSources(t, order) == []
  {
    PronunciationLines(t, ShownSources(t, order))
  }

  /** Some source is always shown, so the pronunciation markup is empty
      exactly for a term without pronunciations. */
  lemma PronunciationMarkupEmpty(t: Term, order: Order)
    requires Lists(order)
    ensures PronunciationMarkup(t, order) == "" <==> |t.pronunciations| == 0
  {
    ShownSourcesFacts(t, order, order);
    if |t.pronunciations| > 0 {
      var x :| x in t.pronunciations;
      if !ShowsSource(t, x) {
        var others := t.pronunciations.Keys - {"wiki"};
        assert |others| > 0;
        var y :| y in others;
        assert y in ShownSources(t, order);
      } else {
        assert x in ShownSources(t, order);
      }
    }
  }

  lemma {:induction false} ShownOfSorted(t: Term, names: seq<string>)
    requires StrictlySorted(names)
    ensures StrictlySorted(ShownOf(t, names))
  {
    if names != [] {
      ShownOfSorted(t, names[1..]);
      var rest := ShownOf(t, names[1..]);
      forall j | 0 <= j < |rest|
        ensures Lt(names[0], rest[j])
      {
        assert rest[j] in names[1..];
      }
    }
  }

  /** The printed sources are sorted by name, each once, whatever order the
      hash map gave them in, and are exactly the term's sources except
      "wiki" when it is not the only one. */
  lemma ShownSourcesFacts(t: Term, order: Order, other: Order)
    requires Lists(order) && Lists(other)
    ensures ShownSources(t, order) == ShownSources(t, other)
    ensures StrictlySorted(ShownSources(t, order))
    ensures forall x :: x in ShownSources(t, order) <==> x in t.pronunciations && ShowsSource(t, x)
    ensures "wiki" in ShownSources(t, order) <==> t.pronunciations.Keys == {"wiki"}
  {
    var keys := t.pronunciations.Keys;
    assert Enumerates(order(keys), keys) && Enumerates(other(keys), keys);
    SortedKeysUnique(keys, order(keys), other(keys));
    ShownOfSorted(t, Sort(order(keys)));
    if "wiki" in keys && |keys| == 1 {
      OnlyElement(keys, "wiki");
    }
  }

  lemma OnlyElement(s: set<string>, x: string)
    requires x in s && |s| == 1
    ensures s == {x}
  {
    var rest := s - {x};
    assert |rest| == 0;
    assert s == rest + {x};
  }

  /** A source name is printed as it is: a `<` in it reaches the output,
      while the pronunciations themselves are escaped. */
  lemma PronunciationLineTags(t: Term, name: string)
    ensures Count(PronunciationLine(t, name), '<') ==
      (if name != "" && name != "wiki" then Count(name, '<') + 2 else 0) + 1
  {
    var text := Escape(Join(PronunciationsOf(t, name), ", "));
    EscapedHasNoTag(Join(PronunciationsOf(t, name), ", "));
    var tail := "<br />\n";
    BreakTag();
    LabelTags();
    if name != "" && name != "wiki" {
      CountAppend("<i>", name, '<');
      CountAppend("<i>" + name, "</i>: ", '<');
    }
    CountAppend(SourceLabel(name), text, '<');
    CountAppend(SourceLabel(name) + text, tail, '<');
  }

  // Word classes and meanings

  function ClassesIn(t: Term, cs: seq<WordClass>): (r: seq<WordClass>)
    ensures forall c :: c in r <==> c in cs && c in t.classes
  {
    if cs == [] then []
    else (if cs[0] in t.classes then [cs[0]] else []) + ClassesIn(t, cs[1..])
  }

  /** `classes.sort()` on the term's classes: the derived order is the
      declaration order, so sorting is picking from `AllClasses`. */
  function SortedClasses(t: Term): seq<WordClass>
  {
    ClassesIn(t, AllClasses)
  }

  /** Every union of the meanings' translation sets. */
  function Translations(ms: map<string, Meaning>): set<string>
  {
    set k, x | k in ms && x in ms[k].translations :: x
  }

  /** One `<li>` item of escaped text: two tags. */
  function Item(text: string): (r: string)
    ensures Count(r, '<') == 2
  {
    ItemTags(text);
    "<li>" + Escape(text) + "</li>\n"
  }

  lemma ItemTags(text: string)
    ensures Count("<li>" + Escape(text) + "</li>\n", '<') == 2
  {
    EscapedHasNoTag(text);
    ListTags();
    CountAppend("<li>", Escape(text), '<');
    CountAppend("<li>" + Escape(text), "</li>\n", '<');
  }

  lemma ListTags()
    ensures Count("<li>", '<') == 1 && Count("</li>\n", '<') == 1
    ensures Count("<ul>\n", '<') == 1 && Count("</ul>\n", '<') == 1
    ensures Count("<ol>\n", '<') == 1 && Count("</ol>\n", '<') == 1
  {
    CountLeading("<li>", '<');
    CountLeading("</li>\n", '<');
    CountLeading("<ul>\n", '<');
    CountLeading("</ul>\n", '<');
    CountLeading("<ol>\n", '<');
    CountLeading("</ol>\n", '<');
  }

  /** `format_translations` inside `<ul>`: the whole union as one item
      joined by " | ", and no block at all when there is nothing to list. */
  function TranslationBlock(ms: map<string, Meaning>, order: Order): (r: string)
    ensures r == "" <==> Translations(ms) == {}
    ensures Count(r, '<') == if Translations(ms) == {} then 0 else 4
  {
    var all := Translations(ms);
    if all == {} then ""
    else
      var item := Item(Join(order(all), " | "));
      ListTags();
      CountAppend("<ul>\n", item, '<');
      CountAppend("<ul>\n" + item, "</ul>\n", '<');
      "<ul>\n" + item + "</ul>\n"
  }

  /** The non-empty descriptions of the meanings under `keys`, in order.
      The keys are those of `ms`; any other would contribute nothing. */
  function Described(ms: map<string, Meaning>, keys: seq<string>): (r: seq<string>)
    ensures |r| <= |keys|
    ensures forall k :: k in keys && k in ms && ms[k].description != "" ==> ms[k].description in r
    ensures forall x :: x in r ==> x != "" && exists k :: k in keys && k in ms && ms[k].description == x
  {
    if keys == [] then []
    else if keys[0] in ms && ms[keys[0]].description != "" then [ms[keys[0]].description] + Described(ms, keys[1..])
    else Described(ms, keys[1..])
  }

  /** One item per description, so two tags per description. */
  function ListItems(ds: seq<string>): (r: string)
    ensures r == "" <==> ds == []
    ensures Count(r, '<') == 2 * |ds|
  {
    if ds == [] then ""
    else
      var item := Item(ds[0]);
      var rest := ListItems(ds[1..]);
      CountAppend(item, rest, '<');
      item + rest
  }

  /** `format_meanings`: the translations block, then the numbered list of
      descriptions, which is always present; its tags are the block's, the
      list's own two and two per description. */
  function MeaningsMarkup(ms: map<string, Meaning>, order: Order): (r: string)
    ensures Count(r, '<') ==
      (if Translations(ms) == {} then 0 else 4) + 2 + 2 * |Described(ms, order(ms.Keys))|
  {
    var block := TranslationBlock(ms, order);
    var items := ListItems(Described(ms, order(ms.Keys)));
    ListTags();
    CountAppend(block, "<ol>\n", '<');
    CountAppend(block + "<ol>\n", items, '<');
    CountAppend(block + "<ol>\n" + items, "</ol>\n", '<');
    block + "<ol>\n" + items + "</ol>\n"
  }

  function ClassBlocks(t: Term, cs: seq<WordClass>, order: Order): string
  {
    if cs == [] then ""
    else
      var ms := MeaningsOf(t, cs[0]);
      (if |ms| == 0 then "" else Label(cs[0]) + MeaningsMarkup(ms, order)) + ClassBlocks(t, cs[1..], order)
  }

  /** `format_classes`: one labelled block per class that has meanings,
      in declaration order; a class with no meanings prints nothing. */
  function ClassMarkup(t: Term, order: Order): (r: string)
    ensures r == ClassList(t, ShownClasses(t, AllClasses), order)
  {
    ClassBlocksSkipEmpty(t, SortedClasses(t), order);
    ShownOfSortedClasses(t, AllClasses);
    ClassBlocks(t, SortedClasses(t), order)
  }

  /** The classes printed: the term's classes with meanings, in declaration
      order. */
  function ShownClasses(t: Term, cs: seq<WordClass>): (r: seq<WordClass>)
    ensures forall c :: c in r <==> c in cs && c in t.classes && |t.classes[c]| > 0
  {
    if cs == [] then []
    else (if cs[0] in t.classes && |t.classes[cs[0]]| > 0 then [cs[0]] else []) + ShownClasses(t, cs[1..])
  }

  function ClassList(t: Term, cs: seq<WordClass>, order: Order): string
  {
    if cs == [] then "" else Label(cs[0]) + MeaningsMarkup(MeaningsOf(t, cs[0]), order) + ClassList(t, cs[1..], order)
  }

  lemma {:induction false} ClassBlocksSkipEmpty(t: Term, cs: seq<WordClass>, order: Order)
    ensures ClassBlocks(t, cs, order) == ClassList(t, ShownClasses(t, cs), order)
  {
    if cs != [] {
      ClassBlocksSkipEmpty(t, cs[1..], order);
      if cs[0] in t.classes && |t.classes[cs[0]]| > 0 {
        assert ShownClasses(t, cs) == [cs[0]] + ShownClasses(t, cs[1..]);
        assert ShownClasses(t, cs)[1..] == ShownClasses(t, cs[1..]);
      } else {
        assert ShownClasses(t, cs) == ShownClasses(t, cs[1..]);
      }
    }
  }

  lemma {:induction false} ClassesInRanked(t: Term, cs: seq<WordClass>)
    requires forall i, j :: 0 <= i < j < |cs| ==> Rank(cs[i]) < Rank(cs[j])
    ensures forall i, j :: 0 <= i < j < |ShownClasses(t, cs)| ==>
      Rank(ShownClasses(t, cs)[i]) < Rank(ShownClasses(t, cs)[j])
  {
    if cs != [] {
      ClassesInRanked(t, cs[1..]);
      var rest := ShownClasses(t, cs[1..]);
      forall j | 0 <= j < |rest|
        ensures Rank(cs[0]) < Rank(rest[j])
      {
        assert rest[j] in cs[1..];
      }
    }
  }

  /** The class blocks are one per class that has meanings, in the
      declaration order Verb, Noun, Adjective, ..., labelled by `Label`. */
  lemma ClassMarkupOrder(t: Term, order: Order)
    ensures forall c :: c in ShownClasses(t, AllClasses) <==> c in t.classes && |t.classes[c]| > 0
    ensures forall i, j :: 0 <= i < j < |ShownClasses(t, AllClasses)| ==>
      Rank(ShownClasses(t, AllClasses)[i]) < Rank(ShownClasses(t, AllClasses)[j])
  {
    AllClassesSorted();
    forall c: WordClass
      ensures c in AllClasses
    {
      assert AllClasses[Rank(c)] == c;
    }
    ClassesInRanked(t, AllClasses);
  }

  /** Filtering the sorted keys for meanings is filtering all classes. */
  lemma {:induction false} ShownOfSortedClasses(t: Term, cs: seq<WordClass>)
    ensures ShownClasses(t, ClassesIn(t, cs)) == ShownClasses(t, cs)
  {
    if cs != [] {
      ShownOfSortedClasses(t, cs[1..]);
      var ci := ClassesIn(t, cs);
      if cs[0] in t.classes {
        assert ci == [cs[0]] + ClassesIn(t, cs[1..]);
        assert ci[0] == cs[0] && ci[1..] == ClassesIn(t, cs[1..]);
        assert ShownClasses(t, ci) == (if cs[0] in t.classes && |t.classes[cs[0]]| > 0 then [cs[0]] else []) + ShownClasses(t, ci[1..]);
      } else {
        assert ci == ClassesIn(t, cs[1..]);
      }
    }
  }

  /** The translations block comes first iff some meaning has a
      translation; otherwise the markup opens with the numbered list. */
  lemma MeaningsMarkupOpens(ms: map<string, Meaning>, order: Order)
    ensures StartsWith(MeaningsMarkup(ms, order), "<ul>") <==> Translations(ms) != {}
    ensures Translations(ms) == {} ==> StartsWith(MeaningsMarkup(ms, order), "<ol>")
    ensures Translations(ms) != {} <==> exists k :: k in ms && ms[k].translations != {}
  {
    var r := MeaningsMarkup(ms, order);
    if Translations(ms) == {} {
      assert r[..4] == "<ol>";
    } else {
      assert r[..4] == "<ul>";
    }
    TranslationsNonEmpty(ms);
  }

  lemma TranslationsNonEmpty(ms: map<string, Meaning>)
    ensures Translations(ms) != {} <==> exists k :: k in ms && ms[k].translations != {}
  {
    if exists k :: k in ms && ms[k].translations != {} {
      var k :| k in ms && ms[k].translations != {};
      var x :| x in ms[k].translations;
      assert x in Translations(ms);
    }
    if Translations(ms) != {} {
      var x :| x in Translations(ms);
    }
  }

  /** The keys among `keys` whose meaning has a description. */
  function DescribedKeys(ms: map<string, Meaning>, keys: seq<string>): set<string>
  {
    set k | k in keys && k in ms && ms[k].description != ""
  }

  lemma DescribedKeysCons(ms: map<string, Meaning>, keys: seq<string>)
    requires keys != []
    ensures DescribedKeys(ms, keys) ==
      DescribedKeys(ms, keys[1..]) + (if keys[0] in ms && ms[keys[0]].description != "" then {keys[0]} else {})
  {
    assert keys == [keys[0]] + keys[1..];
  }

  /** The numbered list has one item per meaning with a description. */
  lemma {:induction false} DescribedCount(ms: map<string, Meaning>, keys: seq<string>)
    requires Distinct(keys)
    ensures |Described(ms, keys)| == |DescribedKeys(ms, keys)|
  {
    if keys != [] {
      DescribedCount(ms, keys[1..]);
      DescribedKeysCons(ms, keys);
      assert keys[0] !in keys[1..];
      assert keys[0] !in DescribedKeys(ms, keys[1..]);
    } else {
      assert DescribedKeys(ms, keys) == {};
    }
  }

  // The entry

  const EntryOpen := "\n        <idx:entry name=\"main\" scriptable=\"yes\" spell=\"yes\">\n"
  const EntryClose := "\n</idx:entry>\n"

  /** The markup of one non-empty term: the entry tag, then the escaped
      headword, and the closing tag last. */
  function Entry(t: Term, order: Order): (r: string)
    ensures StartsWith(r, EntryOpen + OrthOpen + Escape(t.headword))
    ensures EndsWith(r, EntryClose)
  {
    var head := HeadwordMarkup(t, order);
    var body := PronunciationMarkup(t, order) + ClassMarkup(t, order);
    Framed(EntryOpen, head, OrthOpen + Escape(t.headword), body, EntryClose);
    EntryOpen + head + body + EntryClose
  }

  lemma Framed(open: string, head: string, start: string, body: string, close: string)
    requires StartsWith(head, start)
    ensures StartsWith(open + head + body + close, open + start)
    ensures EndsWith(open + head + body + close, close)
  {
    var r := open + head + body + close;
    assert r[..|open + start|] == open + start by {
      assert r == open + (head + body + close);
      assert (head + body + close)[..|start|] == head[..|start|];
    }
  }

  /** The entries of `ts`, one after another, each as `render` writes it. */
  function Entries(ts: seq<Term>, render: Term -> string): string
  {
    if ts == [] then "" else render(ts[0]) + Entries(ts[1..], render)
  }

  /** `create_kindle_content_file` between its fixed head and tail: the
      entries of the non-empty terms of `keys`, in key order. */
  function ContentBody(d: Dictionary, keys: seq<string>, order: Order): (r: string)
    requires forall k :: k in keys ==> k in d.terms
    ensures r == "" <==> Exported(d, keys) == []
  {
    var ts := Exported(d, keys);
    assert ts != [] ==> EndsWith(Entry(ts[0], order), EntryClose);
    Entries(ts, t => Entry(t, order))
  }

  lemma {:induction false} EntriesAppend(a: seq<Term>, b: seq<Term>, render: Term -> string)
    ensures Entries(a + b, render) == Entries(a, render) + Entries(b, render)
  {
    if a != [] {
      assert (a + b)[0] == a[0] && (a + b)[1..] == a[1..] + b;
      EntriesAppend(a[1..], b, render);
      var head := render(a[0]);
      assert Entries(a + b, render) == head + Entries(a[1..] + b, render);
      assert Entries(a, render) == head + Entries(a[1..], render);
    } else {
      assert a + b == b;
    }
  }

  /** The bodies of the content files, one after another, are the body a
      single file over all keys would have: batching loses, repeats and
      reorders no entry. */
  lemma ContentBodiesInBatches(d: Dictionary, keys: seq<string>, order: Order)
    requires forall k :: k in keys ==> k in d.terms
    ensures Flatten(Slices(keys)) == keys
    ensures BodiesOf(d, Slices(keys), order) == ContentBody(d, keys, order)
  {
    ExportedInBatches(d, keys);
    BodiesAreEntries(d, Slices(keys), order);
  }

  /** The bodies of consecutive batches, one after another. */
  function BodiesOf(d: Dictionary, batches: seq<seq<string>>, order: Order): string
    requires forall k :: k in Flatten(batches) ==> k in d.terms
  {
    assert batches != [] ==> Flatten(batches) == batches[0] + Flatten(batches[1..]);
    if batches == [] then "" else ContentBody(d, batches[0], order) + BodiesOf(d, batches[1..], order)
  }

  lemma {:induction false} BodiesAreEntries(d: Dictionary, batches: seq<seq<string>>, order: Order)
    requires forall k :: k in Flatten(batches) ==> k in d.terms
    ensures BodiesOf(d, batches, order) == Entries(ExportedAll(d, batches), t => Entry(t, order))
  {
    if batches != [] {
      assert Flatten(batches) == batches[0] + Flatten(batches[1..]);
      BodiesAreEntries(d, batches[1..], order);
      EntriesAppend(Exported(d, batches[0]), ExportedAll(d, batches[1..]), t => Entry(t, order));
    }
  }

  /** Skipping an empty term writes nothing for it: the body of a batch is
      the body of its keys without the empty terms. */
  lemma ContentBodySkipsEmpty(d: Dictionary, before: seq<string>, key: string, after: seq<string>, order: Order)
    requires forall k :: k in before ==> k in d.terms
    requires key in d.terms && d.terms[key].IsEmpty()
    requires forall k :: k in after ==> k in d.terms
    ensures ContentBody(d, before + [key] + after, order) == ContentBody(d, before + after, order)
  {
    ExportedSkipsEmpty(d, before, key, after);
  }

  lemma {:induction false} ExportedSkipsEmpty(d: Dictionary, before: seq<string>, key: string, after: seq<string>)
    requires forall k :: k in before ==> k in d.terms
    requires key in d.terms && d.terms[key].IsEmpty()
    requires forall k :: k in after ==> k in d.terms
    ensures Exported(d, before + [key] + after) == Exported(d, before + after)
  {
    var withKey := before + [key];
    ExportedEmptyKey(d, before, key);
    assert forall k :: k in withKey ==> k in d.terms;
    ExportedAppend(d, withKey, after);
    ExportedAppend(d, before, after);
  }

  lemma ExportedEmptyKey(d: Dictionary, before: seq<string>, key: string)
    requires forall k :: k in before ==> k in d.terms
    requires key in d.terms && d.terms[key].IsEmpty()
    ensures Exported(d, before + [key]) == Exported(d, before)
  {
    ExportedAppend(d, before, [key]);
    assert [key][1..] == [];
  }

  // ---------------------------------------------------------------------
  // The package file

  /** The values `create_kindle_opf_file` fills into its metadata, as given:
      none of them is escaped, and the source language appears twice. */
  datatype Metadata = Metadata(title: string, creator: string, language: string, inLanguage: string, outLanguage: string)

  function MetadataOf(d: Dictionary): (r: Metadata)
    ensures r.title == d.title && r.creator == d.author
    ensures r.language == r.inLanguage == d.sourceLanguage && r.outLanguage == d.targetLanguage
  {
    Metadata(d.title, d.author, d.sourceLanguage, d.sourceLanguage, d.targetLanguage)
  }

  function ManifestItem(id: string): string
  {
    "<item id=\"" + id + "\" href=\"" + id + ".xhtml\" media-type=\"application/xhtml+xml\" />\n"
  }

  function SpineItem(id: string): string
  {
    "<itemref idref=\"" + id + "\"/>\n"
  }

  /** The quoted value right after `prefix`, up to the next `"`; "" when
      the item does not have that shape. */
  function QuotedAfter(item: string, prefix: string): string
  {
    if StartsWith(item, prefix) && '"' in item[|prefix|..] then
      var rest := item[|prefix|..];
      rest[..IndexOf(rest, '"')]
    else ""
  }

  /** Reads the id back out of a manifest item. */
  function ManifestId(item: string): string
  {
    QuotedAfter(item, "<item id=\"")
  }

  /** Reads the id back out of a spine item. */
  function SpineId(item: string): string
  {
    QuotedAfter(item, "<itemref idref=\"")
  }

  lemma QuotedAfterRoundTrip(prefix: string, id: string, tail: string)
    requires '"' !in id && tail != [] && tail[0] == '"'
    ensures QuotedAfter(prefix + id + tail, prefix) == id
  {
    var item := prefix + id + tail;
    assert item[..|prefix|] == prefix;
    assert item[|prefix|..] == id + tail;
    IndexOfAfter(id, tail, '"');
  }

  lemma ManifestIdRoundTrip(id: string)
    requires '"' !in id
    ensures ManifestId(ManifestItem(id)) == id
  {
    var tail := "\" href=\"" + id + ".xhtml\" media-type=\"application/xhtml+xml\" />\n";
    assert ManifestItem(id) == "<item id=\"" + id + tail;
    QuotedAfterRoundTrip("<item id=\"", id, tail);
  }

  lemma SpineIdRoundTrip(id: string)
    requires '"' !in id
    ensures SpineId(SpineItem(id)) == id
  {
    QuotedAfterRoundTrip("<itemref idref=\"", id, "\"/>\n");
  }

  /** The first `c` in `a + b` is the first of `b` when `a` has none. */
  lemma IndexOfAfter(a: string, b: string, c: char)
    requires c !in a && b != [] && b[0] == c
    ensures IndexOf(a + b, c) == |a|
  {
    if a != [] {
      assert (a + b)[1..] == a[1..] + b;
      IndexOfAfter(a[1..], b, c);
    }
  }

  function ManifestItems(files: seq<ContentFile>): (r: seq<string>)
    ensures |r| == |files|
  {
    if files == [] then [] else [ManifestItem(files[0].id)] + ManifestItems(files[1..])
  }

  function SpineItems(files: seq<ContentFile>): (r: seq<string>)
    ensures |r| == |files|
  {
    if files == [] then [] else [SpineItem(files[0].id)] + SpineItems(files[1..])
  }

  /** Item k of the manifest names file k. */
  lemma {:induction false} ManifestInFileOrder(files: seq<ContentFile>)
    requires forall k :: 0 <= k < |files| ==> '"' !in files[k].id
    ensures forall k :: 0 <= k < |files| ==> ManifestId(ManifestItems(files)[k]) == files[k].id
  {
    if files != [] {
      var rest := ManifestItems(files[1..]);
      ManifestInFileOrder(files[1..]);
      ManifestIdRoundTrip(files[0].id);
      assert ManifestItems(files) == [ManifestItem(files[0].id)] + rest;
      forall k | 1 <= k < |files|
        ensures ManifestId(ManifestItems(files)[k]) == files[k].id
      {
        assert ManifestItems(files)[k] == rest[k - 1];
      }
    }
  }

  /** Item k of the spine names file k. */
  lemma {:induction false} SpineInFileOrder(files: seq<ContentFile>)
    requires forall k :: 0 <= k < |files| ==> '"' !in files[k].id
    ensures forall k :: 0 <= k < |files| ==> SpineId(SpineItems(files)[k]) == files[k].id
  {
    if files != [] {
      var rest := SpineItems(files[1..]);
      SpineInFileOrder(files[1..]);
      SpineIdRoundTrip(files[0].id);
      assert SpineItems(files) == [SpineItem(files[0].id)] + rest;
      forall k | 1 <= k < |files|
        ensures SpineId(SpineItems(files)[k]) == files[k].id
      {
        assert SpineItems(files)[k] == rest[k - 1];
      }
    }
  }

  datatype Package = Package(metadata: Metadata, manifest: seq<string>, spine: seq<string>)

  /** `create_kindle_opf_file`: the dictionary's metadata, and one manifest
      item and one spine item per content file, in file order. */
  function PackageOf(d: Dictionary, files: seq<ContentFile>): (r: Package)
    ensures r.metadata == MetadataOf(d)
    ensures |r.manifest| == |r.spine| == |files|
    ensures (forall k :: 0 <= k < |files| ==> '"' !in files[k].id) ==>
      forall k :: 0 <= k < |files| ==>
        ManifestId(r.manifest[k]) == files[k].id && SpineId(r.spine[k]) == files[k].id
  {
    var plain := forall k :: 0 <= k < |files| ==> '"' !in files[k].id;
    assert plain ==> forall k :: 0 <= k < |files| ==>
        ManifestId(ManifestItems(files)[k]) == files[k].id && SpineId(SpineItems(files)[k]) == files[k].id
    by {
      if plain {
        ManifestInFileOrder(files);
        SpineInFileOrder(files);
      }
    }
    Package(MetadataOf(d), ManifestItems(files), SpineItems(files))
  }

  // ---------------------------------------------------------------------
  // The whole export

  datatype Export = Export(createDirectory: bool, files: seq<ContentFile>, contents: seq<string>, package: Package)

  lemma ContentIdPlain(i: nat)
    ensures '"' !in ContentId(i)
  {
    var r := ContentId(i);
    assert r == "content" + Pad4(i);
    forall j | 0 <= j < |r| ensures r[j] != '"' {
      if j >= 7 {
        assert r[j] == Pad4(i)[j - 7];
      }
    }
  }

  /** Under any iteration order that lists each key once, the batches
      cover exactly as many keys as the dictionary has terms. */
  lemma KeysCount(d: Dictionary, order: Order)
    requires Lists(order)
    ensures |order(d.terms.Keys)| == |d.terms|
    ensures forall key :: key in order(d.terms.Keys) <==> key in d.terms
  {
    assert Enumerates(order(d.terms.Keys), d.terms.Keys);
    DistinctCard(order(d.terms.Keys), d.terms.Keys);
  }

  /** The key batches of the files, in file order. */
  function KeysOf(files: seq<ContentFile>): seq<seq<string>>
  {
    seq(|files|, k requires 0 <= k < |files| => files[k].keys)
  }

  /** Every key a file lists is a key of the dictionary. */
  predicate InTerms(d: Dictionary, files: seq<ContentFile>)
  {
    forall i, key :: 0 <= i < |files| && key in files[i].keys ==> key in d.terms
  }

  /** The body of every content file, in file order. */
  function Bodies(d: Dictionary, files: seq<ContentFile>, order: Order): (r: seq<string>)
    requires InTerms(d, files)
    ensures |r| == |files|
  {
    if files == [] then [] else [ContentBody(d, files[0].keys, order)] + Bodies(d, files[1..], order)
  }

  lemma {:induction false} BodiesAt(d: Dictionary, files: seq<ContentFile>, order: Order, k: nat)
    requires InTerms(d, files) && k < |files|
    ensures Bodies(d, files, order)[k] == ContentBody(d, files[k].keys, order)
  {
    if k > 0 {
      BodiesAt(d, files[1..], order, k - 1);
    }
  }

  /** The files made from `keys` list every key once, in order. */
  lemma FilesCoverKeys(keys: seq<string>, outputPath: string, files: seq<ContentFile>)
    requires |files| == BatchCount(|keys|)
    requires forall k :: 0 <= k < |files| ==> files[k] == NthFile(keys, outputPath, k)
    ensures Flatten(KeysOf(files)) == keys
  {
    SlicesAreBatches(keys);
    assert KeysOf(files) == Slices(keys);
  }

  /** A file only lists keys it was given. */
  lemma FilesInTerms(d: Dictionary, keys: seq<string>, outputPath: string, files: seq<ContentFile>)
    requires |files| == BatchCount(|keys|)
    requires forall key :: key in keys ==> key in d.terms
    requires forall k :: 0 <= k < |files| ==> files[k] == NthFile(keys, outputPath, k)
    ensures InTerms(d, files)
  {
    forall i, key | 0 <= i < |files| && key in files[i].keys
      ensures key in d.terms
    {
      var j :| 0 <= j < |Batch(keys, i)| && Batch(keys, i)[j] == key;
      assert key == keys[i * BatchSize + j];
    }
  }

  /** The identifiers of the files need no quoting. */
  lemma FilesPlain(keys: seq<string>, outputPath: string, files: seq<ContentFile>)
    requires |files| == BatchCount(|keys|)
    requires forall k :: 0 <= k < |files| ==> files[k] == NthFile(keys, outputPath, k)
    ensures forall k :: 0 <= k < |files| ==> '"' !in files[k].id
  {
    forall k | 0 <= k < |files|
      ensures '"' !in files[k].id
    {
      ContentIdPlain(k + 1);
    }
  }

  lemma BodiesAll(d: Dictionary, files: seq<ContentFile>, order: Order)
    requires InTerms(d, files)
    ensures forall k :: 0 <= k < |files| ==> Bodies(d, files, order)[k] == ContentBody(d, files[k].keys, order)
  {
    forall k | 0 <= k < |files|
      ensures Bodies(d, files, order)[k] == ContentBody(d, files[k].keys, order)
    {
      BodiesAt(d, files, order, k);
    }
  }

  /** `to_kindle`: check the path, write the content files, then the
      package that lists them. The keys are batched in the order the
      hash map yields them. */
  method ToKindle(d: Dictionary, outputPath: string, kind: PathKind, force: bool, order: Order) returns (r: Result<Export>)
    requires forall key :: key in order(d.terms.Keys) ==> key in d.terms
    ensures CheckOutputPath(outputPath, kind, force).Err? ==> r == Err(CheckOutputPath(outputPath, kind, force).error)
    ensures CheckOutputPath(outputPath, kind, force).Ok? ==> r.Ok?
    ensures r.Ok? ==> r.value.createDirectory == (kind == NoMetadata)
    ensures r.Ok? ==> |r.value.files| == |r.value.contents| == BatchCount(|order(d.terms.Keys)|)
    ensures r.Ok? ==> |r.value.package.manifest| == |r.value.package.spine| == |r.value.files|
    ensures r.Ok? ==> forall k :: 0 <= k < |r.value.files| ==>
      r.value.files[k] == NthFile(order(d.terms.Keys), outputPath, k)
    ensures r.Ok? ==> Flatten(KeysOf(r.value.files)) == order(d.terms.Keys)
    ensures r.Ok? ==> InTerms(d, r.value.files)
    ensures r.Ok? ==> forall k :: 0 <= k < |r.value.files| ==>
      r.value.contents[k] == ContentBody(d, r.value.files[k].keys, order)
    ensures r.Ok? ==> forall k :: 0 <= k < |r.value.files| ==>
      ManifestId(r.value.package.manifest[k]) == ContentId(k + 1) &&
      SpineId(r.value.package.spine[k]) == ContentId(k + 1)
    ensures r.Ok? ==> r.value.package.metadata == MetadataOf(d)
  {
    var check := CheckOutputPath(outputPath, kind, force);
    if check.Err? {
      return Err(check.error);
    }
    var keys := order(d.terms.Keys);
    var files := CreateContentFiles(keys, outputPath);
    FilesCoverKeys(keys, outputPath, files);
    FilesInTerms(d, keys, outputPath, files);
    FilesPlain(keys, outputPath, files);
    var contents := Bodies(d, files, order);
    BodiesAll(d, files, order);
    ManifestInFileOrder(files);
    SpineInFileOrder(files);
    r := Ok(Export(check.value, files, contents, PackageOf(d, files)));
  }
}

=== FILE: lexicon.dfy ===
/** The dictionary model of src/dictionary.rs: terms keyed by case-folded
    headword, append-only pronunciation lists, meanings keyed by case-folded
    description with set-union translations and a first-seen display rank. */
module Lexicon {
  import opened Base
  import opened Strings
  import opened Words
  import opened Inflection

  /** One sense under a word class. `order` is the display rank. */
  datatype Meaning = Meaning(order: nat, description: string, translations: set<string>)
  {
    /** `Meaning::is_empty`: nothing was added to a fresh meaning with an
        empty description, whatever its rank. */
    predicate IsEmpty(): (r: bool)
      ensures r <==> this.(order := 0) == NewMeaning("")
    {
      description == "" && translations == {}
    }
  }

  /** `Meaning::new`: rank 0 and no translations. */
  function NewMeaning(description: string): Meaning
  {
    Meaning(0, description, {})
  }

  /** `Meaning::add_translation` */
  function AddTranslation(m: Meaning, translation: string): (r: Meaning)
    ensures r.translations == m.translations + {translation}
    ensures r.description == m.description && r.order == m.order
    ensures !r.IsEmpty()
  {
    m.(translations := m.translations + {translation})
  }

  /** One lexical entry: the spelling it was first seen with, its inflected
      forms, its pronunciations by source name and its meanings by class and
      folded description. */
  datatype Term = Term(
    headword: string,
    inflections: set<string>,
    pronunciations: map<string, seq<string>>,
    classes: map<WordClass, map<string, Meaning>>)
  {
    /** `Term::is_empty`: such a term is never exported. A term with a
        spelling is empty when nothing but inflections was added to it since
        `Term::new`. */
    predicate IsEmpty(): (r: bool)
      ensures r <==> headword == "" || this.(inflections := {}) == NewTerm(headword)
    {
      headword == "" || (|pronunciations| == 0 && |classes| == 0)
    }
  }

  function NewTerm(headword: string): Term
  {
    Term(headword, {}, map[], map[])
  }

  datatype Dictionary = Dictionary(
    sourceLanguage: string,
    targetLanguage: string,
    title: string,
    author: string,
    terms: map<string, Term>)

  /** `Dictionary::new`. The irregular-verb table it builds is
      `IrregularVerbs(sourceLanguage)`, recomputed where it is used. */
  function New(sourceLanguage: string, targetLanguage: string, title: string, author: string): (d: Dictionary)
    ensures d.terms == map[] && d.sourceLanguage == sourceLanguage
    ensures Valid(d)
  {
    Dictionary(sourceLanguage, targetLanguage, title, author, map[])
  }

  /** The term a fact about `headword` lands in: the stored one, or a new
      term spelled as given (`entry(..).or_insert(Term::new(headword))`). */
  function FindOrNew(d: Dictionary, headword: string): Term
  {
    var key := WordToKey(headword);
    if key in d.terms then d.terms[key] else NewTerm(headword)
  }

  /** The pronunciation list stored for a source name, empty if none. */
  function PronunciationsOf(t: Term, name: string): seq<string>
  {
    if name in t.pronunciations then t.pronunciations[name] else []
  }

  /** The meanings stored for a class, empty if none. */
  function MeaningsOf(t: Term, c: WordClass): map<string, Meaning>
  {
    if c in t.classes then t.classes[c] else map[]
  }

  /** `add_pronunciation`: the string is appended to the list of its source
      name in the term of its headword key; nothing else changes. */
  function AddPronunciation(d: Dictionary, headword: string, name: string, pronunciation: string): (r: Dictionary)
    ensures var key := WordToKey(headword);
      && r.terms.Keys == d.terms.Keys + {key}
      && (forall k :: k in d.terms && k != key ==> r.terms[k] == d.terms[k])
      && r.terms[key].headword == (if key in d.terms then d.terms[key].headword else headword)
      && r.terms[key].pronunciations.Keys == FindOrNew(d, headword).pronunciations.Keys + {name}
      && r.terms[key].pronunciations[name] == PronunciationsOf(FindOrNew(d, headword), name) + [pronunciation]
      && (forall n :: n in r.terms[key].pronunciations && n != name ==>
            r.terms[key].pronunciations[n] == FindOrNew(d, headword).pronunciations[n])
      && r.terms[key].inflections == FindOrNew(d, headword).inflections
      && r.terms[key].classes == FindOrNew(d, headword).classes
    ensures r.sourceLanguage == d.sourceLanguage
  {
    var key := WordToKey(headword);
    var t := FindOrNew(d, headword);
    var list := PronunciationsOf(t, name);
    d.(terms := d.terms[key := t.(pronunciations := t.pronunciations[name := list + [pronunciation]])])
  }

  /** `get_meaning_position`: the rank a meaning would get in its class — its
      stored rank when its folded description is already there, else the size
      of the class, and 0 when the term or the class does not exist yet. */
  function MeaningPosition(d: Dictionary, headword: string, c: WordClass, m: Meaning): nat
  {
    var key := WordToKey(headword);
    if key in d.terms && c in d.terms[key].classes then
      var cls := d.terms[key].classes[c];
      var mkey := WordToKey(m.description);
      if mkey in cls then cls[mkey].order else |cls|
    else 0
  }

  /** The position read through the term `add_meaning` will write to: the
      stored rank of a meaning already under the folded description, else the
      class size, which is 0 for a new term or class. With dense ranks the
      position is below the class size exactly when the description is
      already there, so a new meaning never takes a stored meaning's rank. */
  lemma MeaningPositionRank(d: Dictionary, headword: string, c: WordClass, m: Meaning)
    ensures var cls := MeaningsOf(FindOrNew(d, headword), c);
      var mkey := WordToKey(m.description);
      var r := MeaningPosition(d, headword, c, m);
      && (mkey in cls ==> r == cls[mkey].order)
      && (mkey !in cls ==> r == |cls|)
      && (RanksDense(cls) ==> (r < |cls| <==> mkey in cls))
      && (RanksDense(cls) && mkey !in cls ==> forall k :: k in cls ==> cls[k].order != r)
  {
  }

  /** The inflected forms `add_meaning` adds to a term. */
  function FormsOf(language: string, headword: string, c: WordClass): set<string>
  {
    set f | f in Inflect(language, headword, c)
  }

  /** The class after storing `m` with rank `order`: a meaning already under
      the folded description gets the union of translations and the rank; a
      missing one is created from the description (`or_insert`). */
  function StoreMeaning(cls: map<string, Meaning>, m: Meaning, order: nat): (r: map<string, Meaning>)
    ensures var mkey := WordToKey(m.description);
      && r.Keys == cls.Keys + {mkey}
      && (forall k :: k in cls && k != mkey ==> r[k] == cls[k])
      && (mkey in cls ==>
            r[mkey] == cls[mkey].(translations := cls[mkey].translations + m.translations, order := order))
      && (mkey !in cls ==> r[mkey] == Meaning(order, m.description, m.translations))
  {
    var mkey := WordToKey(m.description);
    var stored := if mkey in cls then cls[mkey] else NewMeaning(m.description);
    cls[mkey := stored.(translations := stored.translations + m.translations, order := order)]
  }

  /** The term after `add_meaning` has stored `m` with rank `order` under
      class `c` and added the inflected `forms`. */
  function WithMeaning(t: Term, forms: set<string>, c: WordClass, m: Meaning, order: nat): (r: Term)
    ensures r.headword == t.headword && r.pronunciations == t.pronunciations
    ensures t.inflections <= r.inflections && forms <= r.inflections
    ensures forall x :: x in r.inflections ==> x in t.inflections || x in forms
    ensures r.classes.Keys == t.classes.Keys + {c}
    ensures r.classes[c] == StoreMeaning(MeaningsOf(t, c), m, order)
    ensures forall c' :: c' in t.classes && c' != c ==> r.classes[c'] == t.classes[c']
  {
    t.(inflections := t.inflections + forms,
       classes := t.classes[c := StoreMeaning(MeaningsOf(t, c), m, order)])
  }

  /** `add_meaning`: the fact lands in the term of the folded headword (see
      `AddMeaningTerm` and `AddMeaningMerges` for what happens inside it);
      no other term changes. */
  function AddMeaning(d: Dictionary, headword: string, c: WordClass, m: Meaning): (r: Dictionary)
    ensures r.terms.Keys == d.terms.Keys + {WordToKey(headword)}
    ensures forall k :: k in d.terms && k != WordToKey(headword) ==> r.terms[k] == d.terms[k]
    ensures r.sourceLanguage == d.sourceLanguage && r.targetLanguage == d.targetLanguage
  {
    var order := MeaningPosition(d, headword, c, m);
    var forms := FormsOf(d.sourceLanguage, headword, c);
    d.(terms := d.terms[WordToKey(headword) := WithMeaning(FindOrNew(d, headword), forms, c, m, order)])
  }

  /** Inside its term, `add_meaning` keeps the first spelling and the
      pronunciations, adds the inflections of the headword for the class, and
      touches no other class. */
  lemma AddMeaningTerm(d: Dictionary, headword: string, c: WordClass, m: Meaning)
    ensures var t := FindOrNew(d, headword);
      var t' := AddMeaning(d, headword, c, m).terms[WordToKey(headword)];
      && t'.headword == t.headword
      && t'.pronunciations == t.pronunciations
      && t'.inflections == t.inflections + FormsOf(d.sourceLanguage, headword, c)
      && t'.classes.Keys == t.classes.Keys + {c}
      && (forall c' :: c' in t.classes && c' != c ==> t'.classes[c'] == t.classes[c'])
  {
    AddMeaningStores(d, headword, c, m);
    var t := FindOrNew(d, headword);
    var cls := StoreMeaning(MeaningsOf(t, c), m, MeaningPosition(d, headword, c, m));
    assert t.classes[c := cls].Keys == t.classes.Keys + {c};
  }

  /** The term `add_meaning` leaves under the folded headword. */
  lemma AddMeaningStores(d: Dictionary, headword: string, c: WordClass, m: Meaning)
    ensures AddMeaning(d, headword, c, m).terms[WordToKey(headword)] ==
      WithMeaning(FindOrNew(d, headword), FormsOf(d.sourceLanguage, headword, c), c, m, MeaningPosition(d, headword, c, m))
  {
  }

  /** The term `add_pronunciation` or `add_meaning` writes has something in
      it, so it is exported exactly when its stored spelling is not empty. */
  lemma WrittenTermShown(d: Dictionary, headword: string, name: string, p: string, c: WordClass, m: Meaning)
    ensures var t := AddPronunciation(d, headword, name, p).terms[WordToKey(headword)];
      t.IsEmpty() <==> t.headword == ""
    ensures var t := AddMeaning(d, headword, c, m).terms[WordToKey(headword)];
      t.IsEmpty() <==> t.headword == ""
  {
    AddMeaningTerm(d, headword, c, m);
  }

  /** Inside the class, a meaning already stored under the folded
      description gets the union of translations and keeps its stored
      description and rank; a new one is stored as given and ranked after the
      meanings already in the class (0 when the class or the term is new).
      Other meanings are untouched. */
  lemma AddMeaningMerges(d: Dictionary, headword: string, c: WordClass, m: Meaning)
    ensures var cls := MeaningsOf(FindOrNew(d, headword), c);
      var cls' := AddMeaning(d, headword, c, m).terms[WordToKey(headword)].classes[c];
      var mkey := WordToKey(m.description);
      && cls'.Keys == cls.Keys + {mkey}
      && (forall k :: k in cls && k != mkey ==> cls'[k] == cls[k])
      && (mkey in cls ==>
            cls'[mkey] == cls[mkey].(translations := cls[mkey].translations + m.translations))
      && (mkey !in cls ==> cls'[mkey] == Meaning(|cls|, m.description, m.translations))
  {
    var t := FindOrNew(d, headword);
    var order := MeaningPosition(d, headword, c, m);
    var t' := WithMeaning(t, FormsOf(d.sourceLanguage, headword, c), c, m, order);
    assert AddMeaning(d, headword, c, m).terms[WordToKey(headword)] == t';
  }

  /** `lookup`: the term stored under the folded word. */
  function Lookup(d: Dictionary, word: string): (r: Option<Term>)
    ensures r.Some? <==> WordToKey(word) in d.terms
    ensures r.Some? ==> r.value == d.terms[WordToKey(word)]
  {
    var key := WordToKey(word);
    if key in d.terms then Some(d.terms[key]) else None
  }

  /** `len`: every stored term counts, empty or not. */
  function Len(d: Dictionary): nat
  {
    |d.terms|
  }

  /** The ranks of a class are below its size and pairwise distinct, hence
      exactly 0 .. n-1 for its n meanings. */
  ghost predicate RanksDense(cls: map<string, Meaning>)
  {
    && (forall k | k in cls :: cls[k].order < |cls|)
    && (forall k1, k2 | k1 in cls && k2 in cls && k1 != k2 :: cls[k1].order != cls[k2].order)
  }

  /** A class is well formed when each meaning sits under its folded
      description and the ranks are dense. */
  ghost predicate ClassOK(cls: map<string, Meaning>)
  {
    && RanksDense(cls)
    && forall mk | mk in cls :: WordToKey(cls[mk].description) == mk
  }

  ghost predicate TermOK(key: string, t: Term)
  {
    && WordToKey(t.headword) == key
    && forall c | c in t.classes :: ClassOK(t.classes[c])
  }

  /** What the merge operations keep true of every dictionary they build:
      terms sit under the folded spelling they were created with, meanings
      under their folded description, and the ranks of each class are dense. */
  ghost predicate Valid(d: Dictionary)
  {
    forall key | key in d.terms :: TermOK(key, d.terms[key])
  }

  lemma AddPronunciationValid(d: Dictionary, headword: string, name: string, pronunciation: string)
    requires Valid(d)
    ensures Valid(AddPronunciation(d, headword, name, pronunciation))
  {
  }

  /** A class gaining a meaning under a fresh key, ranked at its old size,
      keeps dense ranks. */
  lemma RanksDenseExtend(cls: map<string, Meaning>, mkey: string, m: Meaning)
    requires RanksDense(cls) && mkey !in cls && m.order == |cls|
    ensures RanksDense(cls[mkey := m])
  {
    var r := cls[mkey := m];
    assert |r| == |cls| + 1;
    forall k | k in r
      ensures r[k].order < |r|
    {
      if k != mkey { assert r[k] == cls[k]; }
    }
    forall k1, k2 | k1 in r && k2 in r && k1 != k2
      ensures r[k1].order != r[k2].order
    {
      if k1 != mkey && k2 != mkey {
        assert r[k1] == cls[k1] && r[k2] == cls[k2];
      } else if k1 == mkey {
        assert r[k2] == cls[k2];
      } else {
        assert r[k1] == cls[k1];
      }
    }
  }

  /** A meaning replaced under the same key with the same rank keeps dense
      ranks. */
  lemma RanksDenseReplace(cls: map<string, Meaning>, mkey: string, m: Meaning)
    requires RanksDense(cls) && mkey in cls && m.order == cls[mkey].order
    ensures RanksDense(cls[mkey := m])
  {
    var r := cls[mkey := m];
    assert r.Keys == cls.Keys;
    assert |r| == |cls|;
    forall k | k in r
      ensures r[k].order == cls[k].order
    {
    }
  }

  /** Storing a meaning with the rank `get_meaning_position` gives keeps a
      class well formed. */
  lemma StoreMeaningOK(cls: map<string, Meaning>, m: Meaning, order: nat)
    requires ClassOK(cls)
    requires order == if WordToKey(m.description) in cls then cls[WordToKey(m.description)].order else |cls|
    ensures ClassOK(StoreMeaning(cls, m, order))
  {
    var r := StoreMeaning(cls, m, order);
    var mkey := WordToKey(m.description);
    assert r == cls[mkey := r[mkey]];
    if mkey !in cls {
      RanksDenseExtend(cls, mkey, r[mkey]);
    } else {
      RanksDenseReplace(cls, mkey, r[mkey]);
    }
    forall mk | mk in r
      ensures WordToKey(r[mk].description) == mk
    {
      if mk != mkey { assert r[mk] == cls[mk]; }
    }
  }

  /** `WithMeaning` keeps a term well formed when the rank is the one
      `get_meaning_position` gives. */
  lemma WithMeaningOK(key: string, t: Term, forms: set<string>, c: WordClass, m: Meaning, order: nat)
    requires TermOK(key, t)
    requires var cls := MeaningsOf(t, c);
      order == if WordToKey(m.description) in cls then cls[WordToKey(m.description)].order else |cls|
    ensures TermOK(key, WithMeaning(t, forms, c, m, order))
  {
    StoreMeaningOK(MeaningsOf(t, c), m, order);
    var t2 := WithMeaning(t, forms, c, m, order);
    forall c' | c' in t2.classes
      ensures ClassOK(t2.classes[c'])
    {
      if c' != c { assert t2.classes[c'] == t.classes[c']; }
    }
  }

  /** The term `add_meaning` leaves under the key is well formed. */
  lemma AddMeaningTermOK(d: Dictionary, headword: string, c: WordClass, m: Meaning)
    requires Valid(d)
    ensures TermOK(WordToKey(headword), AddMeaning(d, headword, c, m).terms[WordToKey(headword)])
  {
    var key := WordToKey(headword);
    var t := FindOrNew(d, headword);
    if key in d.terms {
      assert TermOK(key, d.terms[key]);
    }
    WithMeaningOK(key, t, FormsOf(d.sourceLanguage, headword, c), c, m, MeaningPosition(d, headword, c, m));
  }

  lemma AddMeaningValid(d: Dictionary, headword: string, c: WordClass, m: Meaning)
    requires Valid(d)
    ensures Valid(AddMeaning(d, headword, c, m))
  {
    AddMeaningTermOK(d, headword, c, m);
  }

  /** Storing a meaning whose translations are already there, with the
      stored rank, leaves the class as it is. */
  lemma StoreMeaningAgain(cls: map<string, Meaning>, m: Meaning, order: nat)
    requires WordToKey(m.description) in cls
    requires order == cls[WordToKey(m.description)].order
    requires m.translations <= cls[WordToKey(m.description)].translations
    ensures StoreMeaning(cls, m, order) == cls
  {
    var mkey := WordToKey(m.description);
    var stored := cls[mkey];
    assert stored.(translations := stored.translations + m.translations, order := order) == stored;
  }

  /** A term that already holds the forms and the stored class is a fixed
      point of `WithMeaning`. */
  lemma WithMeaningAgain(t: Term, forms: set<string>, c: WordClass, m: Meaning, order: nat)
    requires forms <= t.inflections && c in t.classes
    requires StoreMeaning(t.classes[c], m, order) == t.classes[c]
    ensures WithMeaning(t, forms, c, m, order) == t
  {
    assert t.inflections + forms == t.inflections;
    assert t.classes[c := t.classes[c]] == t.classes;
  }

  /** `add_meaning` leaves a dictionary alone when the term it would store
      is the one already there. */
  lemma AddMeaningFixed(d: Dictionary, headword: string, c: WordClass, m: Meaning)
    requires WordToKey(headword) in d.terms
    requires var t := d.terms[WordToKey(headword)];
      WithMeaning(t, FormsOf(d.sourceLanguage, headword, c), c, m, MeaningPosition(d, headword, c, m)) == t
    ensures AddMeaning(d, headword, c, m) == d
  {
    var key := WordToKey(headword);
    assert d.terms[key := d.terms[key]] == d.terms;
  }

  /** Re-adding the same fact changes nothing: translations are already in
      the union, the rank is the stored one, inflections are a set. */
  lemma AddMeaningIdempotent(d: Dictionary, headword: string, c: WordClass, m: Meaning)
    ensures AddMeaning(AddMeaning(d, headword, c, m), headword, c, m) == AddMeaning(d, headword, c, m)
  {
    var key := WordToKey(headword);
    var mkey := WordToKey(m.description);
    var d1 := AddMeaning(d, headword, c, m);
    AddMeaningTerm(d, headword, c, m);
    AddMeaningMerges(d, headword, c, m);
    var t1 := d1.terms[key];
    assert FindOrNew(d1, headword) == t1;
    var cls1 := MeaningsOf(t1, c);
    var forms := FormsOf(d1.sourceLanguage, headword, c);
    var order := MeaningPosition(d1, headword, c, m);
    assert order == cls1[mkey].order;
    assert m.translations <= cls1[mkey].translations;
    StoreMeaningAgain(cls1, m, order);
    assert forms <= t1.inflections;
    WithMeaningAgain(t1, forms, c, m, order);
    AddMeaningFixed(d1, headword, c, m);
  }

  /** Two headwords that fold to the same key reach the same term, and the
      spelling stored is that of the first insertion. */
  lemma SameKeySameTerm(d: Dictionary, h1: string, h2: string, name: string, p: string)
    requires WordToKey(h1) == WordToKey(h2)
    ensures var r := AddPronunciation(d, h1, name, p);
      && Lookup(r, h2).Some?
      && Lookup(r, h2).value.headword ==
           (if WordToKey(h1) in d.terms then d.terms[WordToKey(h1)].headword else h1)
      && Lookup(r, h2).value.pronunciations[name] == PronunciationsOf(FindOrNew(d, h2), name) + [p]
  {
  }

  /** Pronunciation lists are append-only: every list of the old dictionary
      is a prefix of the corresponding list after any `add_pronunciation` or
      `add_meaning`. */
  ghost predicate PronunciationsExtend(d: Dictionary, r: Dictionary)
  {
    forall k | k in d.terms ::
      k in r.terms &&
      forall n | n in d.terms[k].pronunciations ::
        n in r.terms[k].pronunciations &&
        d.terms[k].pronunciations[n] <= r.terms[k].pronunciations[n]
  }

  lemma PronunciationsOnlyGrow(d: Dictionary, headword: string, name: string, p: string, c: WordClass, m: Meaning)
    ensures PronunciationsExtend(d, AddPronunciation(d, headword, name, p))
    ensures PronunciationsExtend(d, AddMeaning(d, headword, c, m))
  {
    AddPronunciationExtends(d, headword, name, p);
    AddMeaningTerm(d, headword, c, m);
  }

  lemma AddPronunciationExtends(d: Dictionary, headword: string, name: string, p: string)
    ensures PronunciationsExtend(d, AddPronunciation(d, headword, name, p))
  {
    var r := AddPronunciation(d, headword, name, p);
    var key := WordToKey(headword);
    if key in d.terms {
      var t := d.terms[key];
      assert FindOrNew(d, headword) == t;
      assert t.pronunciations.Keys <= r.terms[key].pronunciations.Keys;
      assert name in t.pronunciations ==> PronunciationsOf(t, name) == t.pronunciations[name];
    }
  }

  /** A rank depends on arrival order: two meanings added in either order
      get ranks 0 and 1 the other way round. */
  lemma RankIsFirstSeen(d: Dictionary, headword: string, c: WordClass, a: Meaning, b: Meaning)
    requires WordToKey(headword) !in d.terms
    requires WordToKey(a.description) != WordToKey(b.description)
    ensures var r := AddMeaning(AddMeaning(d, headword, c, a), headword, c, b);
      var t := r.terms[WordToKey(headword)].classes[c];
      && t[WordToKey(a.description)].order == 0
      && t[WordToKey(b.description)].order == 1
  {
    var d1 := AddMeaning(d, headword, c, a);
    AddMeaningMerges(d, headword, c, a);
    AddMeaningMerges(d1, headword, c, b);
    assert MeaningsOf(FindOrNew(d, headword), c) == map[];
  }
}

=== FILE: ordering.dfy ===
/** String ordering, sorting and hash-map enumeration, as the Kindle writer
    uses them. Rust orders `String`s by their UTF-8 bytes, which is the order
    of their code points, so the model compares characters. */
module Ordering {

  /** Strict lexicographic order on strings: a proper prefix comes first. */
  predicate Lt(a: string, b: string)
  {
    if b == [] then false
    else if a == [] then true
    else if a[0] != b[0] then a[0] < b[0]
    else Lt(a[1..], b[1..])
  }

  predicate Le(a: string, b: string)
  {
    a == b || Lt(a, b)
  }

  lemma {:induction false} LtIrreflexive(a: string)
    ensures !Lt(a, a)
  {
    if a != [] {
      LtIrreflexive(a[1..]);
    }
  }

  lemma {:induction false} LtAsymmetric(a: string, b: string)
    ensures Lt(a, b) ==> !Lt(b, a)
  {
    if a != [] && b != [] && a[0] == b[0] {
      LtAsymmetric(a[1..], b[1..]);
    }
  }

  lemma {:induction false} LtTransitive(a: string, b: string, c: string)
    ensures Lt(a, b) && Lt(b, c) ==> Lt(a, c)
  {
    if a != [] && b != [] && c != [] && a[0] == b[0] && b[0] == c[0] {
      LtTransitive(a[1..], b[1..], c[1..]);
    }
  }

  lemma {:induction false} LtTotal(a: string, b: string)
    ensures a == b || Lt(a, b) || Lt(b, a)
  {
    if a != [] && b != [] && a[0] == b[0] {
      LtTotal(a[1..], b[1..]);
      if a[1..] == b[1..] {
        assert a == [a[0]] + a[1..] && b == [b[0]] + b[1..];
      }
    }
  }

  lemma LeTransitive(a: string, b: string, c: string)
    requires Le(a, b) && Le(b, c)
    ensures Le(a, c)
  {
    LtTransitive(a, b, c);
  }

  predicate Sorted(xs: seq<string>)
  {
    forall i, j :: 0 <= i < j < |xs| ==> Le(xs[i], xs[j])
  }

  predicate StrictlySorted(xs: seq<string>)
  {
    forall i, j :: 0 <= i < j < |xs| ==> Lt(xs[i], xs[j])
  }

  /** Places `x` before the first element it does not exceed. */
  function Insert(x: string, xs: seq<string>): (r: seq<string>)
    requires Sorted(xs)
    ensures multiset(r) == multiset(xs) + multiset{x}
    ensures Sorted(r)
  {
    if xs == [] then [x]
    else if Le(x, xs[0]) then
      LeadsSorted(x, xs);
      [x] + xs
    else
      LtTotal(x, xs[0]);
      var rest := Insert(x, xs[1..]);
      assert xs == [xs[0]] + xs[1..];
      InsertedTail(x, xs, rest);
      [xs[0]] + rest
  }

  lemma LeadsSorted(x: string, xs: seq<string>)
    requires Sorted(xs) && xs != [] && Le(x, xs[0])
    ensures Sorted([x] + xs)
  {
    forall j | 0 <= j < |xs|
      ensures Le(x, xs[j])
    {
      LeTransitive(x, xs[0], xs[j]);
    }
  }

  /** The head stays in front when `x` goes further in. */
  lemma InsertedTail(x: string, xs: seq<string>, rest: seq<string>)
    requires Sorted(xs) && xs != [] && Lt(xs[0], x)
    requires Sorted(rest) && multiset(rest) == multiset(xs[1..]) + multiset{x}
    ensures Sorted([xs[0]] + rest)
  {
    forall j | 0 <= j < |rest|
      ensures Le(xs[0], rest[j])
    {
      assert rest[j] in multiset(rest);
      if rest[j] != x {
        assert rest[j] in multiset(xs[1..]);
        var k :| 0 <= k < |xs[1..]| && xs[1..][k] == rest[j];
        assert xs[k + 1] == rest[j];
      }
    }
  }

  /** `Vec::sort` on strings, as an insertion sort. */
  function Sort(xs: seq<string>): (r: seq<string>)
    ensures multiset(r) == multiset(xs)
    ensures Sorted(r)
  {
    if xs == [] then [] else
      assert xs == [xs[0]] + xs[1..];
      Insert(xs[0], Sort(xs[1..]))
  }

  predicate Distinct(xs: seq<string>)
  {
    forall i, j :: 0 <= i < j < |xs| ==> xs[i] != xs[j]
  }

  /** `xs` lists the elements of `s`, each once. */
  predicate Enumerates(xs: seq<string>, s: set<string>)
  {
    Distinct(xs) && (forall x :: x in xs ==> x in s) && (forall x :: x in s ==> x in xs)
  }

  /** An iteration order of hash sets and hash-map keys. The model fixes no
      particular one: it is a parameter, and only this much is known of it. */
  type Order = set<string> -> seq<string>

  ghost predicate Lists(order: Order)
  {
    forall s :: Enumerates(order(s), s)
  }

  /** A sorted sequence without repeats is strictly sorted. */
  lemma SortedDistinct(xs: seq<string>)
    requires Sorted(xs) && Distinct(xs)
    ensures StrictlySorted(xs)
  {
  }

  /** In a list without repeats every element occurs at most once. */
  lemma {:induction false} AtMostOnce(xs: seq<string>, x: string)
    requires Distinct(xs)
    ensures multiset(xs)[x] <= 1
  {
    if xs != [] {
      assert xs == [xs[0]] + xs[1..];
      AtMostOnce(xs[1..], x);
      assert xs[0] !in xs[1..];
    }
  }

  lemma TwoPositions(ys: seq<string>, i: nat, j: nat)
    requires i < j < |ys|
    ensures ys[i] == ys[j] ==> multiset(ys)[ys[i]] >= 2
  {
    assert ys == ys[..i] + [ys[i]] + ys[i + 1..j] + [ys[j]] + ys[j + 1..];
  }

  lemma MultisetDistinct(xs: seq<string>, ys: seq<string>)
    requires multiset(xs) == multiset(ys) && Distinct(xs)
    ensures Distinct(ys)
  {
    forall i, j | 0 <= i < j < |ys|
      ensures ys[i] != ys[j]
    {
      AtMostOnce(xs, ys[i]);
      TwoPositions(ys, i, j);
    }
  }

  /** The head of a strictly sorted sequence is below every other element. */
  lemma FirstIsLeast(xs: seq<string>, y: string)
    requires StrictlySorted(xs) && y in xs
    ensures y == xs[0] || Lt(xs[0], y)
  {
  }

  /** Two strictly sorted sequences with the same elements are equal: a
      sorted listing does not depend on the order it was sorted from. */
  lemma {:induction false} StrictlySortedUnique(xs: seq<string>, ys: seq<string>)
    requires StrictlySorted(xs) && StrictlySorted(ys)
    requires forall x :: x in xs <==> x in ys
    ensures xs == ys
  {
    if xs != [] {
      assert xs[0] in ys;
    }
    if ys != [] {
      assert ys[0] in xs;
    }
    if xs != [] && ys != [] {
      assert xs[0] in ys && ys[0] in xs;
      FirstIsLeast(xs, ys[0]);
      FirstIsLeast(ys, xs[0]);
      LtAsymmetric(xs[0], ys[0]);
      forall x
        ensures x in xs[1..] <==> x in ys[1..]
      {
        if x in xs[1..] {
          var i0 :| 0 <= i0 < |xs[1..]| && xs[1..][i0] == x;
          assert xs[i0 + 1] == x;
          LtIrreflexive(xs[0]);
          assert x in xs && x in ys;
          var k :| 0 <= k < |ys| && ys[k] == x;
          assert k != 0;
          assert ys[1..][k - 1] == x;
        }
        if x in ys[1..] {
          var i0 :| 0 <= i0 < |ys[1..]| && ys[1..][i0] == x;
          assert ys[i0 + 1] == x;
          LtIrreflexive(ys[0]);
          assert x in ys && x in xs;
          var k :| 0 <= k < |xs| && xs[k] == x;
          assert k != 0;
          assert xs[1..][k - 1] == x;
        }
      }
      StrictlySortedUnique(xs[1..], ys[1..]);
      assert xs == [xs[0]] + xs[1..] && ys == [ys[0]] + ys[1..];
    }
  }

  /** Sorting a hash-map's keys gives the same sequence whatever order they
      were collected in. */
  lemma SortedKeysUnique(s: set<string>, a: seq<string>, b: seq<string>)
    requires Enumerates(a, s) && Enumerates(b, s)
    ensures Sort(a) == Sort(b)
    ensures StrictlySorted(Sort(a))
    ensures forall x :: x in Sort(a) <==> x in s
  {
    var sa, sb := Sort(a), Sort(b);
    MultisetDistinct(a, sa);
    MultisetDistinct(b, sb);
    forall x
      ensures x in sa <==> x in s
      ensures x in sb <==> x in s
    {
      assert x in sa <==> x in multiset(sa);
      assert x in a <==> x in multiset(a);
      assert x in sb <==> x in multiset(sb);
      assert x in b <==> x in multiset(b);
    }
    StrictlySortedUnique(sa, sb);
  }

  /** A list without repeats has as many elements as the set it lists. */
  lemma {:induction false} DistinctCard(xs: seq<string>, s: set<string>)
    requires Enumerates(xs, s)
    ensures |xs| == |s|
  {
    if xs != [] {
      var rest := s - {xs[0]};
      assert Enumerates(xs[1..], rest) by {
        forall x
          ensures x in xs[1..] <==> x in rest
        {
          if x in xs[1..] {
            var i :| 1 <= i < |xs| && xs[i] == x;
          }
          if x in rest {
            assert x in xs && x != xs[0];
            var i :| 0 <= i < |xs| && xs[i] == x;
            assert i != 0;
            assert xs[1..][i - 1] == x;
          }
        }
      }
      DistinctCard(xs[1..], rest);
    } else {
      assert forall x :: x !in s;
      assert s == {};
    }
  }
}

=== FILE: strings.dfy ===
/** The string primitives the program relies on from Rust's standard library:
    `trim`, `to_lowercase` (restricted to ASCII), `split` on one character,
    `lines`, `join`, prefix/suffix tests, and `{:04}` decimal formatting. */
module Strings {

  /** Rust's `char::is_whitespace`: the Unicode White_Space property. It is
      also what the regex class `\s` matches. */
  predicate IsWhitespace(c: char)
  {
    || ('\U{0009}' <= c <= '\U{000D}')
    || c == ' '
    || c == '\U{0085}'
    || c == '\U{00A0}'
    || c == '\U{1680}'
    || ('\U{2000}' <= c <= '\U{200A}')
    || c == '\U{2028}'
    || c == '\U{2029}'
    || c == '\U{202F}'
    || c == '\U{205F}'
    || c == '\U{3000}'
  }

  /** `str::trim_start`: drops the longest whitespace prefix. */
  function TrimStart(s: string): (r: string)
    ensures |r| <= |s| && r == s[|s| - |r|..]
    ensures forall i :: 0 <= i < |s| - |r| ==> IsWhitespace(s[i])
    ensures |r| > 0 ==> !IsWhitespace(r[0])
  {
    if |s| > 0 && IsWhitespace(s[0]) then TrimStart(s[1..]) else s
  }

  /** `str::trim_end`: drops the longest whitespace suffix. */
  function TrimEnd(s: string): (r: string)
    ensures |r| <= |s| && r == s[..|r|]
    ensures forall i :: |r| <= i < |s| ==> IsWhitespace(s[i])
    ensures |r| > 0 ==> !IsWhitespace(r[|r| - 1])
  {
    if |s| > 0 && IsWhitespace(s[|s| - 1]) then TrimEnd(s[..|s| - 1]) else s
  }

  /** `str::trim`: whitespace removed from both ends. The result is the
      slice of `s` starting after the leading whitespace. */
  function Trim(s: string): (r: string)
    ensures |r| == 0 || (!IsWhitespace(r[0]) && !IsWhitespace(r[|r| - 1]))
    ensures |s| - |TrimStart(s)| + |r| <= |s|
    ensures r == s[|s| - |TrimStart(s)|..|s| - |TrimStart(s)| + |r|]
  {
    TrimEnd(TrimStart(s))
  }

  /** A string with no whitespace at either end is its own trim. */
  lemma TrimOfTrimmed(s: string)
    requires |s| == 0 || (!IsWhitespace(s[0]) && !IsWhitespace(s[|s| - 1]))
    ensures Trim(s) == s
  {
  }

  /** Trimming is idempotent. */
  lemma TrimIdempotent(s: string)
    ensures Trim(Trim(s)) == Trim(s)
  {
    TrimOfTrimmed(Trim(s));
  }

  /** A character absent from a string is absent from its trim. */
  lemma TrimAbsent(s: string, c: char)
    requires c !in s
    ensures c !in Trim(s)
  {
    var r := Trim(s);
    var o := |s| - |TrimStart(s)|;
    forall i | 0 <= i < |r| ensures r[i] != c { assert r[i] == s[o + i]; }
  }

  predicate StartsWith(s: string, prefix: string)
  {
    |prefix| <= |s| && s[..|prefix|] == prefix
  }

  predicate EndsWith(s: string, suffix: string)
  {
    |suffix| <= |s| && s[|s| - |suffix|..] == suffix
  }

  /** ASCII case folding of one character. */
  function LowerChar(c: char): char
  {
    if 'A' <= c <= 'Z' then (c as int - 'A' as int + 'a' as int) as char else c
  }

  /** `str::to_lowercase`, restricted to the ASCII letters. */
  function Lower(s: string): string
  {
    if s == [] then [] else [LowerChar(s[0])] + Lower(s[1..])
  }

  /** Folding maps each character on its own, keeps the length, and leaves
      no upper-case letter; folding twice is folding once. */
  lemma {:induction false} LowerFacts(s: string)
    ensures |Lower(s)| == |s|
    ensures forall i :: 0 <= i < |s| ==> Lower(s)[i] == LowerChar(s[i])
    ensures forall i :: 0 <= i < |s| ==> !('A' <= Lower(s)[i] <= 'Z')
    ensures Lower(Lower(s)) == Lower(s)
  {
    if s != [] {
      LowerFacts(s[1..]);
      assert Lower(s)[1..] == Lower(s[1..]);
    }
  }

  /** Number of occurrences of `c` in `s`. */
  function Count(s: string, c: char): nat
  {
    if s == [] then 0 else (if s[0] == c then 1 else 0) + Count(s[1..], c)
  }

  lemma CountAppend(a: string, b: string, c: char)
    ensures Count(a + b, c) == Count(a, c) + Count(b, c)
  {
    if a == [] {
      assert a + b == b;
    } else {
      assert (a + b)[1..] == a[1..] + b;
      CountAppend(a[1..], b, c);
    }
  }

  lemma CountAbsent(s: string, c: char)
    ensures c !in s <==> Count(s, c) == 0
  {
    if s != [] {
      CountAbsent(s[1..], c);
      assert c in s <==> s[0] == c || c in s[1..];
    }
  }

  /** A string whose only `c` is its first character has one. */
  lemma CountLeading(s: string, c: char)
    requires s != [] && s[0] == c && c !in s[1..]
    ensures Count(s, c) == 1
  {
    CountAbsent(s[1..], c);
  }

  /** `parts.join(sep)`. */
  function Join(parts: seq<string>, sep: string): string
  {
    if |parts| == 0 then ""
    else if |parts| == 1 then parts[0]
    else parts[0] + sep + Join(parts[1..], sep)
  }

  /** `str::split(c)` for a single character: every occurrence of `c` ends a
      piece, empty pieces are kept, and there is always at least one piece. */
  function Split(s: string, c: char): (r: seq<string>)
    ensures |r| == Count(s, c) + 1
    ensures forall i :: 0 <= i < |r| ==> c !in r[i]
    ensures Join(r, [c]) == s
  {
    if s == [] then [""]
    else if s[0] == c then
      var rest := Split(s[1..], c);
      assert [c] + Join(rest, [c]) == s;
      [""] + rest
    else
      var rest := Split(s[1..], c);
      var r := [[s[0]] + rest[0]] + rest[1..];
      assert r[1..] == rest[1..];
      assert Join(r, [c]) == [s[0]] + Join(rest, [c]);
      r
  }

  /** Splitting a string that does not contain the separator gives it back
      whole. */
  lemma SplitAbsent(s: string, c: char)
    requires c !in s
    ensures Split(s, c) == [s]
  {
    CountAbsent(s, c);
  }

  /** A string with exactly one separator splits into the text before it
      and the text after it. */
  lemma {:induction false} SplitPair(a: string, b: string, c: char)
    requires c !in a && c !in b
    ensures Split(a + [c] + b, c) == [a, b]
  {
    var s := a + [c] + b;
    if a == [] {
      assert s[1..] == b;
      SplitAbsent(b, c);
    } else {
      assert s[0] == a[0] && s[1..] == a[1..] + [c] + b;
      SplitPair(a[1..], b, c);
      assert [a[0]] + a[1..] == a;
    }
  }

  /** Two pieces are the text before the one separator and the text after
      it. */
  lemma SplitTwo(s: string, c: char)
    requires |Split(s, c)| == 2
    ensures s == Split(s, c)[0] + [c] + Split(s, c)[1]
    ensures c !in Split(s, c)[0] && c !in Split(s, c)[1]
  {
    var r := Split(s, c);
    assert r[1..] == [r[1]];
    assert Join(r, [c]) == r[0] + [c] + r[1];
  }

  /** A line ending drops a carriage return that precedes the newline. */
  function StripCr(line: string): (r: string)
    ensures r == line || (line == r + "\r")
  {
    if |line| > 0 && line[|line| - 1] == '\r' then line[..|line| - 1] else line
  }

  /** Position of the first `c` in `s`. */
  function IndexOf(s: string, c: char): (i: nat)
    requires c in s
    ensures i < |s| && s[i] == c && c !in s[..i]
  {
    if s[0] == c then 0 else 1 + IndexOf(s[1..], c)
  }

  /** `str::lines`: the text is cut after every newline; the newline and a
      carriage return just before it are dropped. A last line not ended by a
      newline keeps a trailing carriage return, and an empty text after the
      last newline is no line. */
  function Lines(s: string): (r: seq<string>)
    ensures forall i :: 0 <= i < |r| ==> '\n' !in r[i]
    ensures s == [] ==> r == []
    decreases |s|
  {
    if s == [] then []
    else if '\n' !in s then [s]
    else
      var i := IndexOf(s, '\n');
      [StripCr(s[..i])] + Lines(s[i + 1..])
  }

  /** Joining a non-empty list behind a first part puts one separator in
      between. */
  lemma JoinCons(a: string, rest: seq<string>, sep: string)
    requires |rest| > 0
    ensures Join([a] + rest, sep) == a + sep + Join(rest, sep)
  {
    assert ([a] + rest)[1..] == rest;
  }

  /** For a text without carriage returns that does not end in a newline,
      the lines joined with newlines give the text back: no character is
      lost or invented, and empty lines in the middle are kept. */
  lemma {:induction false} LinesJoin(s: string)
    requires '\r' !in s
    requires s == [] || s[|s| - 1] != '\n'
    ensures Join(Lines(s), "\n") == s
    decreases |s|
  {
    if s != [] && '\n' in s {
      var i := IndexOf(s, '\n');
      var rest := s[i + 1..];
      assert i != |s| - 1;
      assert '\r' !in s[..i] by {
        forall j | 0 <= j < i ensures s[..i][j] != '\r' { assert s[..i][j] == s[j]; }
      }
      assert StripCr(s[..i]) == s[..i];
      assert '\r' !in rest by {
        forall j | 0 <= j < |rest| ensures rest[j] != '\r' { assert rest[j] == s[i + 1 + j]; }
      }
      LinesJoin(rest);
      assert Lines(rest) != [];
      JoinCons(s[..i], Lines(rest), "\n");
      assert s == s[..i] + "\n" + rest;
    }
  }

  /** A text without newlines is one line (or none when empty). */
  lemma LinesOfOneLine(s: string)
    requires '\n' !in s && s != ""
    ensures Lines(s) == [s]
  {
    SplitAbsent(s, '\n');
  }

  /** The decimal digit for `d < 10`. */
  function Digit(d: nat): char
    requires d < 10
  {
    "0123456789"[d]
  }

  /** `format!("{}", n)` for a natural number. */
  function Decimal(n: nat): (r: string)
    ensures |r| >= 1
    ensures forall i :: 0 <= i < |r| ==> '0' <= r[i] <= '9'
  {
    if n < 10 then [Digit(n)] else Decimal(n / 10) + [Digit(n % 10)]
  }

  /** Reads a string of decimal digits back into its value. */
  function ParseDecimal(s: string): nat
    requires forall i :: 0 <= i < |s| ==> '0' <= s[i] <= '9'
  {
    if s == [] then 0
    else ParseDecimal(s[..|s| - 1]) * 10 + (s[|s| - 1] as int - '0' as int)
  }

  lemma {:induction false} ParseDecimalRoundTrip(n: nat)
    ensures ParseDecimal(Decimal(n)) == n
  {
    if n >= 10 {
      var s := Decimal(n);
      assert s[..|s| - 1] == Decimal(n / 10);
      ParseDecimalRoundTrip(n / 10);
    }
  }

  function Zeros(k: nat): (r: string)
    ensures |r| == k
    ensures forall i :: 0 <= i < k ==> r[i] == '0'
  {
    if k == 0 then "" else "0" + Zeros(k - 1)
  }

  /** Leading zeros do not change the value read. */
  lemma {:induction false} ParseDecimalZeros(k: nat, s: string)
    requires forall i :: 0 <= i < |s| ==> '0' <= s[i] <= '9'
    ensures ParseDecimal(Zeros(k) + s) == ParseDecimal(s)
    decreases |s|, k
  {
    var z := Zeros(k) + s;
    if s == [] {
      assert z == Zeros(k);
      if k > 0 {
        assert z[..|z| - 1] == Zeros(k - 1) + "";
        ParseDecimalZeros(k - 1, "");
      }
    } else {
      assert z[..|z| - 1] == Zeros(k) + s[..|s| - 1];
      ParseDecimalZeros(k, s[..|s| - 1]);
    }
  }

  /** `format!("{:04}", n)`: the decimal form padded with zeros to at least
      four characters; wider numbers are not truncated. */
  function Pad4(n: nat): (r: string)
    ensures |r| >= 4
    ensures forall i :: 0 <= i < |r| ==> '0' <= r[i] <= '9'
    ensures ParseDecimal(r) == n
    ensures n < 10000 ==> |r| == 4
  {
    var d := Decimal(n);
    ParseDecimalRoundTrip(n);
    if |d| < 4 then
      ParseDecimalZeros(4 - |d|, d);
      DecimalWidthUpTo(n);
      Zeros(4 - |d|) + d
    else
      DecimalWidthUpTo(n);
      d
  }

  /** Numbers below 10000 have at most four digits. */
  lemma DecimalWidthUpTo(n: nat)
    ensures n < 10000 ==> |Decimal(n)| <= 4
  {
    if n < 10000 { DecimalWidth(n); }
  }

  lemma {:induction false} DecimalWidth(n: nat)
    requires n < 10000
    ensures |Decimal(n)| <= 4
  {
    if n >= 10 {
      DecimalWidth(n / 10);
      if n / 10 >= 10 {
        DecimalWidth(n / 100);
      }
    }
  }
}

=== FILE: tabular.dfy ===
/** The tab-separated readers of src/dictionary/reader.rs,
    src/dictionary/reader/gnu_fdl.rs and
    src/dictionary/reader/pronunciation.rs. A file is given by what reading
    it produced: its text, or the message of the read error. */
module Tabular {
  import opened Base
  import opened Strings
  import opened Words
  import opened Lexicon

  /** One line of a tab file cut at its tabs. */
  type Row = seq<string>

  /** The rows `read_tab_file` keeps from a list of lines, in order: a line
      starting with `#` is a comment, and a line that is a single field (it
      has no tab) is dropped. */
  function Rows(lines: seq<string>): (rows: seq<Row>)
    ensures forall i :: 0 <= i < |rows| ==> |rows[i]| > 1
    ensures |rows| <= |lines|
  {
    if lines == [] then []
    else
      var rest := Rows(lines[1..]);
      var row := Split(lines[0], '\t');
      if !StartsWith(lines[0], "#") && |row| > 1 then [row] + rest else rest
  }

  /** Every row has at least two fields. */
  predicate Wide(rows: seq<Row>)
  {
    forall i :: 0 <= i < |rows| ==> |rows[i]| > 1
  }

  /** `read_tab_file` on what reading the file gave; a read error is passed
      on to the caller. */
  function ReadTabFile(file: Result<string>): (r: Result<seq<Row>>)
    ensures file.Err? <==> r.Err?
    ensures file.Err? ==> r.error == file.error
    ensures r.Ok? ==> Wide(r.value)
  {
    if file.Err? then Err(file.error) else Ok(Rows(Lines(file.value)))
  }

  /** Reference for the filter: the lines of data in a tab file are those
      that are not comments and hold at least one tab. */
  function DataLines(lines: seq<string>): seq<string>
  {
    if lines == [] then []
    else if !StartsWith(lines[0], "#") && '\t' in lines[0] then [lines[0]] + DataLines(lines[1..])
    else DataLines(lines[1..])
  }

  /** Each row glued back at its tabs. */
  function JoinRows(rows: seq<Row>): (r: seq<string>)
    ensures |r| == |rows|
  {
    if rows == [] then [] else [Join(rows[0], "\t")] + JoinRows(rows[1..])
  }

  /** A line is cut into more than one field exactly when it holds a tab. */
  lemma SplitManyIff(line: string)
    ensures |Split(line, '\t')| > 1 <==> '\t' in line
  {
    CountAbsent(line, '\t');
  }

  /** The rows are the data lines, in file order, each cut at every tab and
      nothing else: glued back they are exactly the data lines. */
  lemma {:induction false} RowsAreDataLines(lines: seq<string>)
    ensures JoinRows(Rows(lines)) == DataLines(lines)
  {
    if lines != [] {
      SplitManyIff(lines[0]);
      RowsAreDataLines(lines[1..]);
    }
  }

  /** The word-class tags of the FreeDict English-Czech file (third
      column). */
  function ClassTag(c: WordClass): Option<string>
  {
    match c
    case Noun => Some("n:")
    case Verb => Some("v:")
    case Adverb => Some("adv:")
    case Adjective => Some("adj:")
    case Pronoun => Some("pron:")
    case Preposition => Some("prep:")
    case _ => None
  }

  /** The class a tag names; any other text, trailing spaces included, is
      `Unknown`. */
  function TagToClass(tag: string): (c: WordClass)
    ensures c != Unknown ==> ClassTag(c) == Some(tag)
  {
    if tag == "n:" then Noun
    else if tag == "v:" then Verb
    else if tag == "adv:" then Adverb
    else if tag == "adj:" then Adjective
    else if tag == "pron:" then Pronoun
    else if tag == "prep:" then Preposition
    else Unknown
  }

  /** Each tag reads back into the class that has it. */
  lemma TagRoundTrip(c: WordClass)
    ensures ClassTag(c).Some? ==> TagToClass(ClassTag(c).value) == c
    ensures ClassTag(c).None? ==> c in {Determiner, LinkingWord, Unknown}
  {
  }

  /** The meaning a row of the English-Czech file contributes: no
      description, one translation. */
  function CzechMeaning(translation: string): Meaning
  {
    AddTranslation(NewMeaning(""), Trim(translation))
  }

  /** One row of `read_czech`: fewer than three fields are skipped;
      otherwise the meaning goes to the trimmed headword of the first field,
      under the class the third field tags. */
  function CzechRow(d: Dictionary, row: Row): (r: Dictionary)
    ensures |row| < 3 ==> r == d
    ensures |row| >= 3 ==> r.terms.Keys == d.terms.Keys + {WordToKey(Trim(row[0]))}
    ensures Valid(d) ==> Valid(r)
  {
    if |row| < 3 then d
    else
      assert Valid(d) ==> Valid(AddMeaning(d, Trim(row[0]), TagToClass(row[2]), CzechMeaning(row[1]))) by {
        if Valid(d) {
          AddMeaningValid(d, Trim(row[0]), TagToClass(row[2]), CzechMeaning(row[1]));
        }
      }
      AddMeaning(d, Trim(row[0]), TagToClass(row[2]), CzechMeaning(row[1]))
  }

  /** The loop of `read_czech`, rows in file order. It adds exactly the keys
      of the rows with three fields, keeps every term that was there, and
      keeps the dictionary well formed. */
  function CzechRows(d: Dictionary, rows: seq<Row>): (r: Dictionary)
    ensures r.terms.Keys == d.terms.Keys + CzechKeys(rows)
    ensures Valid(d) ==> Valid(r)
    decreases |rows|
  {
    if rows == [] then d
    else CzechRows(CzechRow(d, rows[0]), rows[1..])
  }

  /** `read_czech`: the file's rows merged into the dictionary, or the read
      error with the dictionary untouched. */
  function ReadCzech(d: Dictionary, file: Result<string>): (r: Result<Dictionary>)
    ensures file.Err? <==> r.Err?
  {
    match ReadTabFile(file)
    case Err(e) => Err(e)
    case Ok(rows) => Ok(CzechRows(d, rows))
  }

  /** After a row of three fields or more, its translation is among the
      translations of the description-less meaning of its trimmed headword
      in the tagged class. */
  lemma CzechRowStores(d: Dictionary, row: Row)
    requires |row| >= 3
    ensures var r := CzechRow(d, row);
      var key := WordToKey(Trim(row[0]));
      && key in r.terms
      && TagToClass(row[2]) in r.terms[key].classes
      && "" in r.terms[key].classes[TagToClass(row[2])]
      && Trim(row[1]) in r.terms[key].classes[TagToClass(row[2])][""].translations
  {
    var m := CzechMeaning(row[1]);
    assert WordToKey(m.description) == "";
    AddMeaningTerm(d, Trim(row[0]), TagToClass(row[2]), m);
    AddMeaningMerges(d, Trim(row[0]), TagToClass(row[2]), m);
  }

  /** The headword keys a list of rows adds to. */
  function CzechKeys(rows: seq<Row>): set<string>
  {
    if rows == [] then {}
    else (if |rows[0]| >= 3 then {WordToKey(Trim(rows[0][0]))} else {}) + CzechKeys(rows[1..])
  }

  /** The translation file never touches pronunciations. */
  lemma {:induction false} CzechRowsKeepPronunciations(d: Dictionary, rows: seq<Row>)
    ensures var r := CzechRows(d, rows);
      forall k | k in d.terms :: k in r.terms && r.terms[k].pronunciations == d.terms[k].pronunciations
    decreases |rows|
  {
    if rows != [] {
      var d1 := CzechRow(d, rows[0]);
      if |rows[0]| >= 3 {
        AddMeaningTerm(d, Trim(rows[0][0]), TagToClass(rows[0][2]), CzechMeaning(rows[0][1]));
      }
      CzechRowsKeepPronunciations(d1, rows[1..]);
    }
  }

  /** Every piece of a comma-separated list, trimmed. */
  function TrimAll(pieces: seq<string>): (r: seq<string>)
    ensures |r| == |pieces|
    ensures forall i :: 0 <= i < |r| ==> r[i] == Trim(pieces[i])
  {
    if pieces == [] then [] else [Trim(pieces[0])] + TrimAll(pieces[1..])
  }

  /** What a row of a pronunciation file says: a headword and its
      pronunciations. */
  datatype Entry = Entry(headword: string, pronunciations: seq<string>)

  /** The reading of one row by `read_pronunciation`: the trimmed first
      field, and the second field split at every comma with each piece
      trimmed. Empty pieces are kept, so there is one pronunciation more than
      there are commas. */
  function RowEntry(row: Row): (e: Entry)
    requires |row| > 1
    ensures e.headword == Trim(row[0])
    ensures |e.pronunciations| == Count(row[1], ',') + 1
    ensures forall i :: 0 <= i < |e.pronunciations| ==> e.pronunciations[i] == Trim(Split(row[1], ',')[i])
    ensures forall i :: 0 <= i < |e.pronunciations| ==> ',' !in e.pronunciations[i]
    ensures forall i :: 0 <= i < |e.pronunciations| ==>
      var p := e.pronunciations[i];
      p == [] || (!IsWhitespace(p[0]) && !IsWhitespace(p[|p| - 1]))
    ensures e.headword == [] || (!IsWhitespace(e.headword[0]) && !IsWhitespace(e.headword[|e.headword| - 1]))
  {
    var pieces := Split(row[1], ',');
    forall i | 0 <= i < |pieces|
      ensures ',' !in Trim(pieces[i])
    {
      TrimAbsent(pieces[i], ',');
    }
    Entry(Trim(row[0]), TrimAll(pieces))
  }

  /** Each row read in turn. */
  function RowEntries(rows: seq<Row>): (es: seq<Entry>)
    requires Wide(rows)
    ensures |es| == |rows|
    ensures forall i :: 0 <= i < |rows| ==> es[i] == RowEntry(rows[i])
  {
    if rows == [] then [] else [RowEntry(rows[0])] + RowEntries(rows[1..])
  }

  /** The inner loop of `read_pronunciation`: each pronunciation appended in
      turn under the same headword and source name. */
  function AddPronunciations(d: Dictionary, headword: string, name: string, ps: seq<string>): Dictionary
    decreases |ps|
  {
    if ps == [] then d
    else AddPronunciations(AddPronunciation(d, headword, name, ps[0]), headword, name, ps[1..])
  }

  /** Appending a list one by one appends the whole list, in order, to the
      headword's list for that source name. */
  lemma {:induction false} AddPronunciationsAppends(d: Dictionary, headword: string, name: string, ps: seq<string>)
    ensures PronunciationsOf(FindOrNew(AddPronunciations(d, headword, name, ps), headword), name) ==
            PronunciationsOf(FindOrNew(d, headword), name) + ps
    decreases |ps|
  {
    if ps != [] {
      var d1 := AddPronunciation(d, headword, name, ps[0]);
      AddPronunciationsAppends(d1, headword, name, ps[1..]);
      assert FindOrNew(d1, headword) == d1.terms[WordToKey(headword)];
      assert [ps[0]] + ps[1..] == ps;
    }
  }

  /** The headword's key is the only one added, and no other term
      changes. */
  lemma {:induction false} AddPronunciationsFrame(d: Dictionary, headword: string, name: string, ps: seq<string>)
    ensures var r := AddPronunciations(d, headword, name, ps);
      && r.terms.Keys == d.terms.Keys + (if ps == [] then {} else {WordToKey(headword)})
      && (forall k :: k in d.terms && k != WordToKey(headword) ==> r.terms[k] == d.terms[k])
    decreases |ps|
  {
    if ps != [] {
      AddPronunciationsFrame(AddPronunciation(d, headword, name, ps[0]), headword, name, ps[1..]);
    }
  }

  /** The outer loop of `read_pronunciation`, rows in file order. It keeps
      the dictionary well formed and changes no class, meaning or
      inflection of a term that was there. */
  function AddEntries(d: Dictionary, name: string, entries: seq<Entry>): (r: Dictionary)
    ensures Valid(d) ==> Valid(r)
    ensures forall k | k in d.terms ::
      k in r.terms && r.terms[k].classes == d.terms[k].classes && r.terms[k].inflections == d.terms[k].inflections
    decreases |entries|
  {
    if entries == [] then d
    else
      var e := entries[0];
      assert Valid(d) ==> Valid(AddPronunciations(d, e.headword, name, e.pronunciations)) by {
        if Valid(d) {
          AddPronunciationsValid(d, e.headword, name, e.pronunciations);
        }
      }
      AddPronunciationsKeepMeanings(d, e.headword, name, e.pronunciations);
      AddEntries(AddPronunciations(d, e.headword, name, e.pronunciations), name, entries[1..])
  }

  /** `read_pronunciation`: the file's rows merged into the dictionary under
      the source name, or the read error. */
  function ReadPronunciation(d: Dictionary, name: string, file: Result<string>): (r: Result<Dictionary>)
    ensures file.Err? <==> r.Err?
  {
    match ReadTabFile(file)
    case Err(e) => Err(e)
    case Ok(rows) => Ok(AddEntries(d, name, RowEntries(rows)))
  }

  /** Pronunciation files keep the dictionary well formed. */
  lemma {:induction false} AddPronunciationsValid(d: Dictionary, headword: string, name: string, ps: seq<string>)
    requires Valid(d)
    ensures Valid(AddPronunciations(d, headword, name, ps))
    decreases |ps|
  {
    if ps != [] {
      AddPronunciationValid(d, headword, name, ps[0]);
      AddPronunciationsValid(AddPronunciation(d, headword, name, ps[0]), headword, name, ps[1..]);
    }
  }

  /** The pronunciation file never touches meanings or inflections. */
  lemma {:induction false} AddPronunciationsKeepMeanings(d: Dictionary, headword: string, name: string, ps: seq<string>)
    ensures var r := AddPronunciations(d, headword, name, ps);
      forall k | k in d.terms ::
        k in r.terms && r.terms[k].classes == d.terms[k].classes && r.terms[k].inflections == d.terms[k].inflections
    decreases |ps|
  {
    if ps != [] {
      AddPronunciationsKeepMeanings(AddPronunciation(d, headword, name, ps[0]), headword, name, ps[1..]);
    }
  }

  /** Reading either file into a well-formed dictionary leaves it well
      formed. */
  lemma ReadersKeepValid(d: Dictionary, name: string, file: Result<string>)
    requires Valid(d)
    ensures ReadCzech(d, file).Ok? ==> Valid(ReadCzech(d, file).value)
    ensures ReadPronunciation(d, name, file).Ok? ==> Valid(ReadPronunciation(d, name, file).value)
  {
  }
}

=== FILE: wiki.dfy ===
/** The Wiktionary reader of src/dictionary/reader/wiki.rs: the page state
    machine driven by XML events, and the extraction of one page's headword,
    pronunciations, word classes and translations from its wiki text. The
    four regular expressions of `Re` are written out as predicates on
    strings. */
module Wiki {
  import opened Base
  import opened Strings
  import opened Words
  import opened Lexicon
  import opened Tabular

  // ---------------------------------------------------------------------
  // The patterns of `Re`
  // ---------------------------------------------------------------------

  /** The first position at or after `from` where the character `a` occurs
      twice in a row. */
  function FindPair(s: string, a: char, from: nat): (r: Option<nat>)
    ensures r.Some? ==> from <= r.value && r.value + 1 < |s| && s[r.value] == a && s[r.value + 1] == a
    ensures r.Some? ==> forall j :: from <= j < r.value ==> !(s[j] == a && s[j + 1] == a)
    ensures r.None? ==> forall j :: from <= j && j + 1 < |s| ==> !(s[j] == a && s[j + 1] == a)
    decreases |s| - from
  {
    if from + 1 >= |s| then None
    else if s[from] == a && s[from + 1] == a then Some(from)
    else FindPair(s, a, from + 1)
  }

  /** `re.data.find_iter(line)` with `\{\{(.*?)}}`, giving the captured
      group of each match: the leftmost `{{`, the text up to the first `}}`
      after it, and the search goes on after that `}}`. When no `}}` follows
      the first `{{`, there is no further match.
      Because the match is lazy, no template found holds `}}`, and a line
      without `{{` holds no template at all. */
  function Templates(line: string): (r: seq<string>)
    ensures forall i :: 0 <= i < |r| ==> NoClose(r[i])
    ensures (forall j :: 0 <= j && j + 1 < |line| ==> !(line[j] == '{' && line[j + 1] == '{')) ==> r == []
    decreases |line|
  {
    match FindPair(line, '{', 0)
    case None => []
    case Some(p) =>
      match FindPair(line, '}', p + 2)
      case None => []
      case Some(q) =>
        CaptureNoClose(line, p, q);
        [line[p + 2..q]] + Templates(line[q + 2..])
  }

  /** `s` holds no `}}`. */
  predicate NoClose(s: string)
  {
    forall j :: 0 <= j && j + 1 < |s| ==> !(s[j] == '}' && s[j + 1] == '}')
  }

  /** A template written out in front of the rest of a line is the first
      one found, with its text exactly as written, provided it neither holds
      `}}` nor ends in `}` (either would end the match earlier). */
  lemma TemplatesCons(t: string, rest: string)
    requires NoClose(t) && (t == [] || t[|t| - 1] != '}')
    ensures Templates("{{" + t + "}}" + rest) == [t] + Templates(rest)
  {
    var line := "{{" + t + "}}" + rest;
    var q := |t| + 2;
    assert line[0] == '{' && line[1] == '{';
    assert FindPair(line, '{', 0) == Some(0);
    assert line[q] == '}' && line[q + 1] == '}';
    forall j | 2 <= j < q
      ensures !(line[j] == '}' && line[j + 1] == '}')
    {
      assert line[j] == t[j - 2];
      if j + 1 < q { assert line[j + 1] == t[j - 1]; }
    }
    assert FindPair(line, '}', 2) == Some(q) by {
      FindPairFirst(line, '}', 2, q);
    }
    assert line[2..q] == t;
    assert line[q + 2..] == rest;
  }

  /** `FindPair` finds the pair at `q` when none comes earlier. */
  lemma {:induction false} FindPairFirst(s: string, a: char, from: nat, q: nat)
    requires from <= q && q + 1 < |s| && s[q] == a && s[q + 1] == a
    requires forall j :: from <= j < q ==> !(s[j] == a && s[j + 1] == a)
    ensures FindPair(s, a, from) == Some(q)
    decreases q - from
  {
    if from < q {
      FindPairFirst(s, a, from + 1, q);
    }
  }

  /** The text between a `{{` and the first `}}` after it holds no
      `}}`. */
  lemma CaptureNoClose(line: string, p: nat, q: nat)
    requires p + 2 <= q && q + 1 < |line|
    requires forall j :: p + 2 <= j < q ==> !(line[j] == '}' && line[j + 1] == '}')
    ensures NoClose(line[p + 2..q])
  {
    var t := line[p + 2..q];
    forall j | 0 <= j && j + 1 < |t|
      ensures !(t[j] == '}' && t[j + 1] == '}')
    {
      assert t[j] == line[p + 2 + j] && t[j + 1] == line[p + 3 + j];
    }
  }

  /** `re.language` (`^==([^=]+)==$`): a line that is a language heading,
      and the language it names. */
  function LanguageHeading(line: string): (r: Option<string>)
    ensures r.Some? ==> line == "==" + r.value + "==" && r.value != [] && '=' !in r.value
  {
    if |line| >= 5 && line[..2] == "==" && line[|line| - 2..] == "==" && '=' !in line[2..|line| - 2] then
      assert line == line[..2] + line[2..|line| - 2] + line[|line| - 2..];
      Some(line[2..|line| - 2])
    else None
  }

  /** Every `==X==` with a non-empty `X` free of `=` is a heading for `X`. */
  lemma LanguageHeadingOf(x: string)
    requires x != [] && '=' !in x
    ensures LanguageHeading("==" + x + "==") == Some(x)
  {
    var line := "==" + x + "==";
    assert line[..2] == "==";
    assert line[|line| - 2..] == "==";
    assert line[2..|line| - 2] == x;
  }

  /** The suffix that marks a translations subpage. */
  const TranslationsSuffix: string := "/translations"

  /** A trimmed title with the `/translations` of a subpage taken off:
      only when what precedes it is non-empty and free of `/`. */
  function StripTranslations(t: string): string
  {
    var n := |TranslationsSuffix|;
    if EndsWith(t, TranslationsSuffix) && |t| > n && '/' !in t[..|t| - n] then t[..|t| - n] else t
  }

  /** The headword of a page: `re.translations_title`
      (`^([^/]+)/translations$`) applied to the trimmed title. Only a title
      holding `/` loses anything beyond its surrounding whitespace. */
  function HeadwordOf(title: string): (r: string)
    ensures r != Trim(title) ==> '/' in Trim(title)
  {
    var t := Trim(title);
    assert EndsWith(t, TranslationsSuffix) ==> '/' in t by {
      if EndsWith(t, TranslationsSuffix) {
        SuffixHasSlash(t);
      }
    }
    StripTranslations(t)
  }

  lemma SuffixHasSlash(t: string)
    requires EndsWith(t, TranslationsSuffix)
    ensures '/' in t
  {
    assert t[|t| - |TranslationsSuffix|] == TranslationsSuffix[0];
  }

  lemma StripTranslationsOf(x: string)
    requires x != [] && '/' !in x
    ensures StripTranslations(x + TranslationsSuffix) == x
  {
    var t := x + TranslationsSuffix;
    var n := |TranslationsSuffix|;
    assert t[|t| - n..] == TranslationsSuffix;
    assert t[..|t| - n] == x;
  }

  lemma StripTranslationsNested(x: string)
    requires '/' in x
    ensures StripTranslations(x + TranslationsSuffix) == x + TranslationsSuffix
  {
    var t := x + TranslationsSuffix;
    assert t[..|t| - |TranslationsSuffix|] == x;
  }

  /** A translations subpage names the word it belongs to. */
  lemma HeadwordOfTranslations(x: string)
    requires x != [] && '/' !in x && !IsWhitespace(x[0])
    ensures HeadwordOf(x + TranslationsSuffix) == x
  {
    var t := x + TranslationsSuffix;
    assert t[|t| - 1] == 's';
    TrimOfTrimmed(t);
    StripTranslationsOf(x);
  }

  /** A `/translations` suffix after a part with a `/` stays in the
      headword. */
  lemma HeadwordOfNested(x: string)
    requires '/' in x && !IsWhitespace(x[0])
    ensures HeadwordOf(x + TranslationsSuffix) == x + TranslationsSuffix
  {
    var t := x + TranslationsSuffix;
    assert t[|t| - 1] == 's';
    TrimOfTrimmed(t);
    StripTranslationsNested(x);
  }

  /** `\s<prefix>:` at the start of `s`. */
  predicate SpaceThenPrefix(s: string, prefix: string)
  {
    |s| > 0 && IsWhitespace(s[0]) && StartsWith(s[1..], prefix + ":")
  }

  /** `re.prefix` (`^\*.?\s<prefix>:`): a bullet, at most one other
      character (not a newline), a whitespace character, then the language
      prefix and a colon. The prefix is taken as literal text. */
  predicate PrefixMatch(line: string, prefix: string): (r: bool)
    ensures r ==> |line| >= |prefix| + 3 && line[0] == '*'
  {
    && |line| > 0 && line[0] == '*'
    && (SpaceThenPrefix(line[1..], prefix)
        || (|line| > 1 && line[1] != '\n' && SpaceThenPrefix(line[2..], prefix)))
  }

  /** The two shapes of a translation line: `* cs: …` and `*: cs: …`, and
      a line that does not start with a bullet never matches. */
  lemma PrefixMatchShapes(prefix: string, rest: string, c: char)
    requires c != '\n'
    ensures PrefixMatch("* " + prefix + ":" + rest, prefix)
    ensures PrefixMatch("*" + [c] + " " + prefix + ":" + rest, prefix)
    ensures forall line :: |line| > 0 && line[0] != '*' ==> !PrefixMatch(line, prefix)
  {
    var l1 := "* " + prefix + ":" + rest;
    assert l1[1..][1..][..|prefix + ":"|] == prefix + ":";
    var l2 := "*" + [c] + " " + prefix + ":" + rest;
    assert l2[2..][1..][..|prefix + ":"|] == prefix + ":";
  }

  // ---------------------------------------------------------------------
  // One page
  // ---------------------------------------------------------------------

  /** The word class an `en-…` headword template sets. */
  function ClassTemplate(control: string): (r: Option<WordClass>)
  {
    if control == "en-noun" then Some(Noun)
    else if control == "en-pron" then Some(Pronoun)
    else if control == "en-adv" then Some(Adverb)
    else if control == "en-det" then Some(Determiner)
    else if control == "en-con" then Some(LinkingWord)
    else if control == "en-verb" then Some(Verb)
    else if control == "en-adj" then Some(Adjective)
    else if control == "en-prep" then Some(Preposition)
    else None
  }

  /** The headword template of each class that has one. */
  function TemplateOfClass(c: WordClass): Option<string>
  {
    match c
    case Noun => Some("en-noun")
    case Pronoun => Some("en-pron")
    case Adverb => Some("en-adv")
    case Determiner => Some("en-det")
    case LinkingWord => Some("en-con")
    case Verb => Some("en-verb")
    case Adjective => Some("en-adj")
    case Preposition => Some("en-prep")
    case Unknown => None
  }

  /** The two tables are inverse: every class but `Unknown` has exactly one
      headword template. */
  lemma ClassTemplateRoundTrip(control: string, c: WordClass)
    ensures ClassTemplate(control) == Some(c) <==> TemplateOfClass(c) == Some(control)
  {
  }

  /** What `read_wiki_page` carries from line to line: the dictionary, the
      current word class, the pending meaning and the current language. */
  datatype Cursor = Cursor(dict: Dictionary, wordClass: WordClass, meaning: Meaning, language: string)

  /** The cursor at the top of a page. */
  function Begin(d: Dictionary): Cursor
  {
    Cursor(d, Unknown, NewMeaning(""), "")
  }

  /** The dictionary after the pending meaning is added, when it is not
      empty. */
  function Flush(c: Cursor, headword: string): Dictionary
  {
    if c.meaning.IsEmpty() then c.dict else AddMeaning(c.dict, headword, c.wordClass, c.meaning)
  }

  /** The pronunciations an `IPA` template gives: its trimmed fields that
      start with `/`, in order. */
  function IpaPronunciations(fields: seq<string>): (r: seq<string>)
    ensures |r| <= |fields|
    ensures forall i :: 0 <= i < |r| ==> StartsWith(r[i], "/")
    ensures forall x :: x in r ==> TrimmedField(x, fields)
    ensures forall i :: 0 <= i < |fields| && StartsWith(Trim(fields[i]), "/") ==> Trim(fields[i]) in r
    decreases |fields|
  {
    if fields == [] then []
    else
      var rest := IpaPronunciations(fields[1..]);
      var r := if StartsWith(Trim(fields[0]), "/") then [Trim(fields[0])] + rest else rest;
      IpaConsSlashes(fields[0], rest, r);
      IpaConsFromFields(fields, rest, r);
      IpaConsKeepsAll(fields, rest, r);
      r
  }

  /** `x` is one of the fields, trimmed. */
  predicate TrimmedField(x: string, fields: seq<string>)
  {
    exists i :: 0 <= i < |fields| && x == Trim(fields[i])
  }

  lemma IpaConsSlashes(field: string, rest: seq<string>, r: seq<string>)
    requires forall i :: 0 <= i < |rest| ==> StartsWith(rest[i], "/")
    requires r == if StartsWith(Trim(field), "/") then [Trim(field)] + rest else rest
    ensures forall i :: 0 <= i < |r| ==> StartsWith(r[i], "/")
  {
    forall i | 0 <= i < |r|
      ensures StartsWith(r[i], "/")
    {
      if StartsWith(Trim(field), "/") && i > 0 {
        assert r[i] == rest[i - 1];
      }
    }
  }

  lemma IpaConsFromFields(fields: seq<string>, rest: seq<string>, r: seq<string>)
    requires fields != []
    requires forall x :: x in rest ==> TrimmedField(x, fields[1..])
    requires r == if StartsWith(Trim(fields[0]), "/") then [Trim(fields[0])] + rest else rest
    ensures forall x :: x in r ==> TrimmedField(x, fields)
  {
    forall x | x in r
      ensures TrimmedField(x, fields)
    {
      if x in rest {
        var j :| 0 <= j < |fields[1..]| && x == Trim(fields[1..][j]);
        assert fields[j + 1] == fields[1..][j];
      } else {
        assert x == Trim(fields[0]);
      }
    }
  }

  lemma IpaConsKeepsAll(fields: seq<string>, rest: seq<string>, r: seq<string>)
    requires fields != []
    requires forall i :: 0 <= i < |fields[1..]| && StartsWith(Trim(fields[1..][i]), "/") ==> Trim(fields[1..][i]) in rest
    requires r == if StartsWith(Trim(fields[0]), "/") then [Trim(fields[0])] + rest else rest
    ensures forall i :: 0 <= i < |fields| && StartsWith(Trim(fields[i]), "/") ==> Trim(fields[i]) in r
  {
    forall i | 0 <= i < |fields| && StartsWith(Trim(fields[i]), "/")
      ensures Trim(fields[i]) in r
    {
      if i > 0 {
        assert fields[i] == fields[1..][i - 1];
      }
    }
  }

  /** The loop over the fields of an `IPA` template. */
  function AddIpa(d: Dictionary, headword: string, fields: seq<string>): Dictionary
    decreases |fields|
  {
    if fields == [] then d
    else
      var p := Trim(fields[0]);
      var d1 := if StartsWith(p, "/") then AddPronunciation(d, headword, "wiki", p) else d;
      AddIpa(d1, headword, fields[1..])
  }

  /** The loop registers exactly the filtered list, in order, under the
      source name `wiki`. */
  lemma {:induction false} AddIpaAppends(d: Dictionary, headword: string, fields: seq<string>)
    ensures AddIpa(d, headword, fields) == AddPronunciations(d, headword, "wiki", IpaPronunciations(fields))
    decreases |fields|
  {
    if fields != [] {
      var p := Trim(fields[0]);
      if StartsWith(p, "/") {
        AddIpaAppends(AddPronunciation(d, headword, "wiki", p), headword, fields[1..]);
        assert ([p] + IpaPronunciations(fields[1..]))[1..] == IpaPronunciations(fields[1..]);
      } else {
        AddIpaAppends(d, headword, fields[1..]);
      }
    }
  }

  /** The `IPA` arm: skipped when field 1 is present and is not the source
      language, or outside the English section. */
  function IpaStep(c: Cursor, headword: string, parts: seq<string>): Cursor
  {
    if |parts| > 1 && parts[1] != c.dict.sourceLanguage then c
    else if c.language != "english" then c
    else c.(dict := AddIpa(c.dict, headword, if |parts| > 2 then parts[2..] else []))
  }

  /** The `trans-top` arm: the pending meaning is flushed and a new one
      begins, described by field 1 only in the English section. */
  function TransTop(c: Cursor, headword: string, parts: seq<string>): (r: Cursor)
    ensures r.dict == Flush(c, headword)
    ensures r.wordClass == c.wordClass && r.language == c.language
    ensures r.meaning.translations == {} && r.meaning.order == 0
    ensures r.meaning.description == if |parts| >= 2 && c.language == "english" then Trim(parts[1]) else ""
  {
    var d1 := Flush(c, headword);
    if |parts| < 2 then c.(dict := d1, meaning := NewMeaning(""))
    else if c.language == "english" then c.(dict := d1, meaning := NewMeaning(Trim(parts[1])))
    else c.(dict := d1, meaning := NewMeaning(""))
  }

  /** The `trans-bottom` arm: a non-empty pending meaning is flushed and
      reset; an empty one is left as it is. */
  function TransBottom(c: Cursor, headword: string): (r: Cursor)
    ensures r.dict == Flush(c, headword)
    ensures r.meaning.IsEmpty()
    ensures c.meaning.IsEmpty() ==> r == c
    ensures r.wordClass == c.wordClass && r.language == c.language
  {
    if !c.meaning.IsEmpty() then c.(dict := AddMeaning(c.dict, headword, c.wordClass, c.meaning), meaning := NewMeaning(""))
    else c
  }

  /** One template of a line, dispatched on its trimmed first field. */
  function TemplateStep(c: Cursor, headword: string, prefix: string, line: string, template: string): Cursor
  {
    var parts := Split(template, '|');
    var control := Trim(parts[0]);
    if control == "IPA" then IpaStep(c, headword, parts)
    else if control == "trans-top" then TransTop(c, headword, parts)
    else if control == "trans-bottom" then TransBottom(c, headword)
    else if ClassTemplate(control).Some? then c.(wordClass := ClassTemplate(control).value)
    else if |parts| > 2 && PrefixMatch(line, prefix) then c.(meaning := AddTranslation(c.meaning, Trim(parts[2])))
    else c
  }

  /** The templates of one line, left to right. */
  function TemplatesStep(c: Cursor, headword: string, prefix: string, line: string, templates: seq<string>): Cursor
    decreases |templates|
  {
    if templates == [] then c
    else TemplatesStep(TemplateStep(c, headword, prefix, line, templates[0]), headword, prefix, line, templates[1..])
  }

  /** The language after a line: a heading sets it, lower-cased; any other
      line keeps it. */
  function LanguageAfter(language: string, line: string): string
  {
    match LanguageHeading(line)
    case Some(x) => Lower(x)
    case None => language
  }

  /** The page may still be read under this language: none seen yet, or
      English. */
  predicate Readable(language: string)
  {
    language == "" || language == "english"
  }

  /** The loop over the lines of the page; it stops for good at the first
      heading of another language. */
  function ReadLines(c: Cursor, headword: string, prefix: string, lines: seq<string>): Cursor
    decreases |lines|
  {
    if lines == [] then c
    else
      var c1 := c.(language := LanguageAfter(c.language, lines[0]));
      if !Readable(c1.language) then c1
      else ReadLines(TemplatesStep(c1, headword, prefix, lines[0], Templates(lines[0])), headword, prefix, lines[1..])
  }

  /** A page of the dump: its title and its wiki text. */
  datatype Page = Page(title: string, content: string)

  /** `read_wiki_page`: the lines of the page read under the headword from
      its title, then the last pending meaning flushed (also after a stop at
      a foreign section). */
  function ReadWikiPage(d: Dictionary, page: Page, prefix: string): (r: Dictionary)
    ensures OnlyAt(d, r, WordToKey(HeadwordOf(page.title)))
  {
    var headword := HeadwordOf(page.title);
    var c := ReadLines(Begin(d), headword, prefix, Lines(page.content));
    ReadLinesOnlyAt(Begin(d), headword, prefix, Lines(page.content));
    FlushOnlyAt(c, headword);
    OnlyAtTrans(d, c.dict, Flush(c, headword), WordToKey(headword));
    Flush(c, headword)
  }

  /** The `IPA` arm appends the trimmed `/…` fields from field 2 on, in
      order, under the source name `wiki` — but only in the English section
      and when field 1 is absent or names the source language. */
  lemma IpaStepAppends(c: Cursor, headword: string, parts: seq<string>)
    ensures var r := IpaStep(c, headword, parts);
      && r.wordClass == c.wordClass && r.meaning == c.meaning && r.language == c.language
      && r.dict == if (|parts| <= 1 || parts[1] == c.dict.sourceLanguage) && c.language == "english"
                   then AddPronunciations(c.dict, headword, "wiki", IpaPronunciations(if |parts| > 2 then parts[2..] else []))
                   else c.dict
  {
    AddIpaAppends(c.dict, headword, if |parts| > 2 then parts[2..] else []);
  }

  /** The class templates are none of the other controls. */
  lemma ClassControlsDistinct(control: string)
    requires ClassTemplate(control).Some?
    ensures control != "IPA" && control != "trans-top" && control != "trans-bottom"
  {
    assert |control| == 6 || |control| == 7;
  }

  /** An `en-…` template only sets the word class. */
  lemma ClassTemplateStep(c: Cursor, headword: string, prefix: string, line: string, template: string)
    requires ClassTemplate(Trim(Split(template, '|')[0])).Some?
    ensures TemplateStep(c, headword, prefix, line, template)
            == c.(wordClass := ClassTemplate(Trim(Split(template, '|')[0])).value)
  {
    ClassControlsDistinct(Trim(Split(template, '|')[0]));
  }

  /** Any other template adds its trimmed field 2 to the pending meaning
      when it has three fields or more and the line is a translation line of
      the target language; otherwise it changes nothing. */
  lemma TranslationTemplateStep(c: Cursor, headword: string, prefix: string, line: string, template: string)
    requires var control := Trim(Split(template, '|')[0]);
      control != "IPA" && control != "trans-top" && control != "trans-bottom" && ClassTemplate(control).None?
    ensures var parts := Split(template, '|');
      TemplateStep(c, headword, prefix, line, template)
      == if |parts| > 2 && PrefixMatch(line, prefix)
         then c.(meaning := AddTranslation(c.meaning, Trim(parts[2])))
         else c
  {
  }

  /** A line that is not a heading is read under the current language, as
      long as that language is English or not yet known. */
  lemma PlainLineRead(c: Cursor, headword: string, prefix: string, line: string, rest: seq<string>)
    requires LanguageHeading(line).None? && Readable(c.language)
    ensures ReadLines(c, headword, prefix, [line] + rest)
            == ReadLines(TemplatesStep(c, headword, prefix, line, Templates(line)), headword, prefix, rest)
  {
    assert c.(language := LanguageAfter(c.language, line)) == c;
    assert ([line] + rest)[1..] == rest;
  }

  /** A heading of a language other than English ends the reading: nothing
      on that line or after it is looked at. */
  lemma ForeignHeadingStops(c: Cursor, headword: string, prefix: string, line: string, rest: seq<string>)
    requires !Readable(LanguageAfter(c.language, line))
    ensures ReadLines(c, headword, prefix, [line] + rest) == c.(language := LanguageAfter(c.language, line))
  {
  }

  /** A page whose first line is the heading of another language adds
      nothing. */
  lemma ForeignPageUnchanged(d: Dictionary, page: Page, prefix: string)
    requires Lines(page.content) != []
    requires !Readable(LanguageAfter("", Lines(page.content)[0]))
    ensures ReadWikiPage(d, page, prefix) == d
  {
    var lines := Lines(page.content);
    assert lines == [lines[0]] + lines[1..];
    ForeignHeadingStops(Begin(d), HeadwordOf(page.title), prefix, lines[0], lines[1..]);
  }

  /** Once the language is English or unset, a line that is no heading
      leaves it so. */
  lemma LanguageKept(language: string, line: string)
    requires LanguageHeading(line).None?
    ensures LanguageAfter(language, line) == language
  {
  }

  // ---------------------------------------------------------------------
  // What a page may change
  // ---------------------------------------------------------------------

  /** `r` differs from `d` at most in the term under `key`, and keeps the
      languages. */
  ghost predicate OnlyAt(d: Dictionary, r: Dictionary, key: string)
  {
    && r.sourceLanguage == d.sourceLanguage
    && r.terms.Keys <= d.terms.Keys + {key}
    && (forall k | k in d.terms && k != key :: k in r.terms && r.terms[k] == d.terms[k])
    && (Valid(d) ==> Valid(r))
  }

  lemma OnlyAtTrans(d1: Dictionary, d2: Dictionary, d3: Dictionary, key: string)
    requires OnlyAt(d1, d2, key) && OnlyAt(d2, d3, key)
    ensures OnlyAt(d1, d3, key)
  {
  }

  lemma AddMeaningOnlyAt(d: Dictionary, headword: string, c: WordClass, m: Meaning)
    ensures OnlyAt(d, AddMeaning(d, headword, c, m), WordToKey(headword))
  {
    if Valid(d) {
      AddMeaningValid(d, headword, c, m);
    }
  }

  lemma FlushOnlyAt(c: Cursor, headword: string)
    ensures OnlyAt(c.dict, Flush(c, headword), WordToKey(headword))
  {
    if !c.meaning.IsEmpty() {
      AddMeaningOnlyAt(c.dict, headword, c.wordClass, c.meaning);
    }
  }

  lemma {:induction false} AddIpaOnlyAt(d: Dictionary, headword: string, fields: seq<string>)
    ensures OnlyAt(d, AddIpa(d, headword, fields), WordToKey(headword))
    decreases |fields|
  {
    if fields != [] {
      var p := Trim(fields[0]);
      var d1 := if StartsWith(p, "/") then AddPronunciation(d, headword, "wiki", p) else d;
      if Valid(d) {
        AddPronunciationValid(d, headword, "wiki", p);
      }
      AddIpaOnlyAt(d1, headword, fields[1..]);
      OnlyAtTrans(d, d1, AddIpa(d1, headword, fields[1..]), WordToKey(headword));
    }
  }

  lemma TemplateStepOnlyAt(c: Cursor, headword: string, prefix: string, line: string, template: string)
    ensures OnlyAt(c.dict, TemplateStep(c, headword, prefix, line, template).dict, WordToKey(headword))
  {
    var parts := Split(template, '|');
    var control := Trim(parts[0]);
    if control == "IPA" {
      AddIpaOnlyAt(c.dict, headword, if |parts| > 2 then parts[2..] else []);
    } else if control == "trans-top" || control == "trans-bottom" {
      FlushOnlyAt(c, headword);
    }
  }

  lemma {:induction false} TemplatesStepOnlyAt(c: Cursor, headword: string, prefix: string, line: string, templates: seq<string>)
    ensures OnlyAt(c.dict, TemplatesStep(c, headword, prefix, line, templates).dict, WordToKey(headword))
    decreases |templates|
  {
    if templates != [] {
      var c1 := TemplateStep(c, headword, prefix, line, templates[0]);
      TemplateStepOnlyAt(c, headword, prefix, line, templates[0]);
      TemplatesStepOnlyAt(c1, headword, prefix, line, templates[1..]);
      OnlyAtTrans(c.dict, c1.dict, TemplatesStep(c1, headword, prefix, line, templates[1..]).dict, WordToKey(headword));
    }
  }

  lemma {:induction false} ReadLinesOnlyAt(c: Cursor, headword: string, prefix: string, lines: seq<string>)
    ensures OnlyAt(c.dict, ReadLines(c, headword, prefix, lines).dict, WordToKey(headword))
    decreases |lines|
  {
    if lines != [] {
      var c1 := c.(language := LanguageAfter(c.language, lines[0]));
      if Readable(c1.language) {
        var c2 := TemplatesStep(c1, headword, prefix, lines[0], Templates(lines[0]));
        TemplatesStepOnlyAt(c1, headword, prefix, lines[0], Templates(lines[0]));
        ReadLinesOnlyAt(c2, headword, prefix, lines[1..]);
        OnlyAtTrans(c.dict, c2.dict, ReadLines(c2, headword, prefix, lines[1..]).dict, WordToKey(headword));
      }
    }
  }

  // ---------------------------------------------------------------------
  // The event loop of `read_wiki`
  // ---------------------------------------------------------------------

  /** The XML events the loop distinguishes; `Text` carries the already
      unescaped text. */
  datatype Event = Start(name: string) | End(name: string) | Text(text: string) | Eof | Other

  /** `State`: outside any page, inside a page, inside its title, inside
      its text. */
  datatype State = Outside | InPage | InTitle | InContent

  /** The loop's variables. The dictionary is only ever changed by reading
      a finished page, and nothing in the loop depends on it, so the reader
      records the finished pages in order and `ReadWiki` reads them in that
      order afterwards. */
  datatype Reader = Reader(state: State, page: Page, finished: seq<Page>)

  /** One turn of the loop (`Eof` is handled by `Run`). Pages are handed
      on only at their end, and only with a title free of `:` (pages of
      other namespaces are dropped); every other event leaves the finished
      pages as they are. */
  function Step(r: Reader, e: Event): (r': Reader)
    ensures e != End("page") ==> r'.finished == r.finished
    ensures e == End("page") && ':' in r.page.title ==> r'.finished == r.finished
    ensures e == End("page") && ':' !in r.page.title ==> r'.finished == r.finished + [r.page]
  {
    match e
    case Start(name) =>
      if name == "page" then r.(state := InPage, page := Page("", ""))
      else if name == "title" then r.(state := InTitle, page := r.page.(title := ""))
      else if name == "text" then r.(state := InContent, page := r.page.(content := ""))
      else r
    case End(name) =>
      if name == "page" then
        r.(state := Outside, finished := if ':' in r.page.title then r.finished else r.finished + [r.page])
      else if name == "title" || name == "text" then r.(state := InPage)
      else r
    case Text(s) =>
      if r.state == InTitle then r.(page := r.page.(title := r.page.title + s))
      else if r.state == InContent then r.(page := r.page.(content := r.page.content + s))
      else r
    case _ => r
  }

  /** The loop, until the end of the stream. Finished pages are only ever
      added at the end, and none of them has a `:` in its title. */
  function Run(r: Reader, events: seq<Event>): (r': Reader)
    ensures |r.finished| <= |r'.finished| && r'.finished[..|r.finished|] == r.finished
    ensures forall i :: |r.finished| <= i < |r'.finished| ==> ':' !in r'.finished[i].title
    decreases |events|
  {
    if events == [] || events[0] == Eof then r else Run(Step(r, events[0]), events[1..])
  }

  /** The key of the term a page writes to. */
  function PageKey(page: Page): string
  {
    WordToKey(HeadwordOf(page.title))
  }

  /** `read_wiki_page` on each page in turn. Terms of keys no page names
      stay as they are, a well-formed dictionary stays well formed, and the
      languages are kept. */
  function ReadPages(d: Dictionary, pages: seq<Page>, prefix: string): (r: Dictionary)
    ensures PagesFrame(d, r, pages)
    decreases |pages|
  {
    if pages == [] then d
    else
      var d1 := ReadWikiPage(d, pages[0], prefix);
      var r := ReadPages(d1, pages[1..], prefix);
      FrameCons(d, d1, r, pages);
      r
  }

  /** The keys of the terms the pages write to. */
  function PageKeys(pages: seq<Page>): set<string>
  {
    if pages == [] then {} else {PageKey(pages[0])} + PageKeys(pages[1..])
  }

  /** What reading `pages` may do to `d`: keep the languages and a
      well-formed dictionary well formed, add only keys the pages name, and
      leave the terms of every other key as they are. */
  ghost predicate PagesFrame(d: Dictionary, r: Dictionary, pages: seq<Page>)
  {
    && r.sourceLanguage == d.sourceLanguage
    && (Valid(d) ==> Valid(r))
    && r.terms.Keys <= d.terms.Keys + PageKeys(pages)
    && (forall k | k in d.terms && k !in PageKeys(pages) :: k in r.terms && r.terms[k] == d.terms[k])
  }

  lemma FrameCons(d: Dictionary, d1: Dictionary, r: Dictionary, pages: seq<Page>)
    requires pages != []
    requires OnlyAt(d, d1, PageKey(pages[0]))
    requires PagesFrame(d1, r, pages[1..])
    ensures PagesFrame(d, r, pages)
  {
  }


  /** `read_wiki` over the event stream of a dump: the pages of the main
      namespace, in dump order. */
  function ReadWiki(d: Dictionary, events: seq<Event>, prefix: string): (r: Dictionary)
    ensures PagesFrame(d, r, Run(Reader(Outside, Page("", ""), []), events).finished)
  {
    ReadPages(d, Run(Reader(Outside, Page("", ""), []), events).finished, prefix)
  }

  /** Text is collected only inside a title or a text element. */
  lemma TextOutsideIgnored(r: Reader, s: string)
    requires r.state == Outside || r.state == InPage
    ensures Step(r, Text(s)) == r
  {
  }

  /** The state after an event, as a function of the state before. */
  lemma StepState(r: Reader, e: Event)
    ensures e.Start? && e.name == "page" ==> Step(r, e).state == InPage && Step(r, e).page == Page("", "")
    ensures e.Start? && e.name == "title" ==> Step(r, e).state == InTitle && Step(r, e).page.title == ""
    ensures e.Start? && e.name == "text" ==> Step(r, e).state == InContent && Step(r, e).page.content == ""
    ensures e.End? && e.name == "page" ==> Step(r, e).state == Outside
    ensures e.End? && (e.name == "title" || e.name == "text") ==> Step(r, e).state == InPage
    ensures (e.Start? || e.End?) && e.name !in {"page", "title", "text"} ==> Step(r, e) == r
  {
  }

  /** Nothing after the end of the stream is read. */
  lemma EofStops(r: Reader, rest: seq<Event>)
    ensures Run(r, [Eof] + rest) == r
  {
  }

  /** The loop takes the first event and goes on with the rest. */
  lemma RunStep(r: Reader, e: Event, rest: seq<Event>)
    requires e != Eof
    ensures Run(r, [e] + rest) == Run(Step(r, e), rest)
  {
    assert ([e] + rest)[1..] == rest;
  }

  /** A page opens and its title is collected. */
  lemma OpenWithTitle(r: Reader, title: string, rest: seq<Event>)
    ensures Run(r, [Start("page")] + ([Start("title")] + ([Text(title)] + ([End("title")] + rest))))
            == Run(Reader(InPage, Page(title, ""), r.finished), rest)
  {
    var r1 := Step(r, Start("page"));
    var r2 := Step(r1, Start("title"));
    var r3 := Step(r2, Text(title));
    assert "" + title == title;
    RunStep(r, Start("page"), [Start("title")] + ([Text(title)] + ([End("title")] + rest)));
    RunStep(r1, Start("title"), [Text(title)] + ([End("title")] + rest));
    RunStep(r2, Text(title), [End("title")] + rest);
    RunStep(r3, End("title"), rest);
  }

  /** Inside a page, a text element gives the page its content. */
  lemma CollectText(r: Reader, text: string, rest: seq<Event>)
    requires r.state == InPage
    ensures Run(r, [Start("text")] + ([Text(text)] + ([End("text")] + rest)))
            == Run(r.(page := r.page.(content := text)), rest)
  {
    var r1 := Step(r, Start("text"));
    var r2 := Step(r1, Text(text));
    assert "" + text == text;
    RunStep(r, Start("text"), [Text(text)] + ([End("text")] + rest));
    RunStep(r1, Text(text), [End("text")] + rest);
    RunStep(r2, End("text"), rest);
  }

  /** A page element read from outside any page: the title and the text are
      collected, and the page is handed on iff its title has no `:`. */
  lemma OnePage(title: string, text: string)
    ensures Run(Reader(Outside, Page("", ""), []),
                [Start("page"), Start("title"), Text(title), End("title"),
                 Start("text"), Text(text), End("text"), End("page")]).finished
            == if ':' in title then [] else [Page(title, text)]
  {
    var tail: seq<Event> := [End("page")];
    var middle := [Start("text")] + ([Text(text)] + ([End("text")] + tail));
    assert [Start("page"), Start("title"), Text(title), End("title"),
            Start("text"), Text(text), End("text"), End("page")]
        == [Start("page")] + ([Start("title")] + ([Text(title)] + ([End("title")] + middle)));
    OpenWithTitle(Reader(Outside, Page("", ""), []), title, middle);
    CollectText(Reader(InPage, Page(title, ""), []), text, tail);
    RunStep(Reader(InPage, Page(title, text), []), End("page"), []);
    assert tail == [End("page")] + [];
  }

  /** Reading a dump that holds one page of the main namespace is reading
      that page; a page of another namespace adds nothing. */
  lemma OnePageRead(d: Dictionary, title: string, text: string, prefix: string)
    ensures ReadWiki(d, [Start("page"), Start("title"), Text(title), End("title"),
                         Start("text"), Text(text), End("text"), End("page")], prefix)
            == if ':' in title then d else ReadWikiPage(d, Page(title, text), prefix)
  {
    var events := [Start("page"), Start("title"), Text(title), End("title"),
                   Start("text"), Text(text), End("text"), End("page")];
    var pages := Run(Reader(Outside, Page("", ""), []), events).finished;
    OnePage(title, text);
    assert ReadWiki(d, events, prefix) == ReadPages(d, pages, prefix);
    if ':' !in title {
      var p := Page(title, text);
      assert pages == [p];
      assert ReadPages(d, [p], prefix) == ReadPages(ReadWikiPage(d, p, prefix), [], prefix);
    }
  }
}

=== FILE: words.dfy ===
/** Word classes and headword keys of src/dictionary.rs, shared by the
    inflection engine, the dictionary and the readers. */
module Words {
  import opened Base
  import opened Strings

  /** `WordClass`; the derived ordering is the declaration order. */
  datatype WordClass =
    | Verb | Noun | Adjective | Adverb | Preposition
    | Determiner | Pronoun | LinkingWord | Unknown

  /** Position in the declaration, which is what `#[derive(Ord)]` compares. */
  function Rank(c: WordClass): nat
  {
    match c
    case Verb => 0
    case Noun => 1
    case Adjective => 2
    case Adverb => 3
    case Preposition => 4
    case Determiner => 5
    case Pronoun => 6
    case LinkingWord => 7
    case Unknown => 8
  }

  /** Every class, in ascending order. */
  const AllClasses: seq<WordClass> :=
    [Verb, Noun, Adjective, Adverb, Preposition, Determiner, Pronoun, LinkingWord, Unknown]

  /** `AllClasses` lists each class once, at the position of its rank, so
      filtering it is sorting by the derived order. */
  lemma AllClassesSorted()
    ensures |AllClasses| == 9
    ensures forall i :: 0 <= i < |AllClasses| ==> Rank(AllClasses[i]) == i
    ensures forall c: WordClass :: AllClasses[Rank(c)] == c
  {
  }

  /** `WordClass::as_str`: the display label of a class. */
  function Label(c: WordClass): string
  {
    match c
    case Noun => "noun"
    case Verb => "verb"
    case Adjective => "adjective"
    case Adverb => "adverb"
    case Determiner => "determiner"
    case LinkingWord => "linking"
    case Preposition => "preposition"
    case Pronoun => "pronoun"
    case Unknown => "other"
  }

  /** Reads a label back into its class. */
  function ClassOfLabel(s: string): (r: Option<WordClass>)
    ensures r.Some? ==> Label(r.value) == s
  {
    if s == "noun" then Some(Noun)
    else if s == "verb" then Some(Verb)
    else if s == "adjective" then Some(Adjective)
    else if s == "adverb" then Some(Adverb)
    else if s == "determiner" then Some(Determiner)
    else if s == "linking" then Some(LinkingWord)
    else if s == "preposition" then Some(Preposition)
    else if s == "pronoun" then Some(Pronoun)
    else if s == "other" then Some(Unknown)
    else None
  }

  /** Distinct classes have distinct labels: each label reads back into the
      class it came from. */
  lemma LabelRoundTrip(c: WordClass)
    ensures ClassOfLabel(Label(c)) == Some(c)
  {
  }

  /** `Dictionary::word_to_key`: the case-folded form under which headwords
      and meaning descriptions are merged. It keeps the length, and a key is
      its own key. */
  function WordToKey(w: string): (r: string)
    ensures |r| == |w|
    ensures Lower(r) == r
  {
    LowerFacts(w);
    Lower(w)
  }
}

=== FILE: xml.dfy ===
/** `escape_xml` of src/dictionary/writer.rs: five chained `str::replace`
    calls, ampersand first. The model keeps the chain as written and proves it
    equal to a character-by-character escape, from which the safety and
    round-trip properties follow. */
module Xml {
  import opened Strings

  /** `str::replace` with a one-character pattern: every occurrence of `c`,
      left to right, becomes `rep`. */
  function Replace(s: string, c: char, rep: string): (r: string)
    ensures c !in s ==> r == s
    ensures c !in rep ==> c !in r
  {
    if s == [] then ""
    else (if s[0] == c then rep else [s[0]]) + Replace(s[1..], c, rep)
  }

  lemma EntitiesOmitOwn()
    ensures '<' !in "&lt;" && '>' !in "&gt;" && '\'' !in "&apos;" && '"' !in "&quot;"
  {
  }

  lemma NoLtInEntities()
    ensures '<' !in "&gt;" && '<' !in "&apos;" && '<' !in "&quot;"
  {
  }

  lemma NoGtInEntities()
    ensures '>' !in "&apos;" && '>' !in "&quot;"
  {
  }

  lemma NoAposInQuot()
    ensures '\'' !in "&quot;"
  {
  }

  /** A replacement adds no character that its replacement text lacks. */
  lemma {:induction false} ReplaceKeeps(s: string, c: char, rep: string, x: char)
    requires x !in s && x !in rep
    ensures x !in Replace(s, c, rep)
  {
    if s != [] {
      ReplaceKeeps(s[1..], c, rep, x);
      assert s[0] != x;
    }
  }

  lemma {:induction false} ReplaceAppend(a: string, b: string, c: char, rep: string)
    ensures Replace(a + b, c, rep) == Replace(a, c, rep) + Replace(b, c, rep)
  {
    if a == [] {
      assert a + b == b;
    } else {
      assert (a + b)[1..] == a[1..] + b;
      ReplaceAppend(a[1..], b, c, rep);
    }
  }

  /** The source's `escape_xml`, as the chain of replacements it is. */
  function Escape(s: string): (r: string)
    ensures (forall i :: 0 <= i < |s| ==> !IsSpecial(s[i])) ==> r == s
    ensures '<' !in r && '>' !in r && '\'' !in r && '"' !in r
  {
    ChainRemovesRaw(s);
    Replace(Replace(Replace(Replace(Replace(s,
      '&', "&amp;"), '<', "&lt;"), '>', "&gt;"), '\'', "&apos;"), '"', "&quot;")
  }

  /** Each replacement removes its own character, and none of the later
      entities brings an earlier character back. */
  lemma ChainRemovesRaw(s: string)
    ensures var r := Replace(Replace(Replace(Replace(Replace(s,
      '&', "&amp;"), '<', "&lt;"), '>', "&gt;"), '\'', "&apos;"), '"', "&quot;");
      '<' !in r && '>' !in r && '\'' !in r && '"' !in r
  {
    var s2 := Replace(Replace(s, '&', "&amp;"), '<', "&lt;");
    var s3 := Replace(s2, '>', "&gt;");
    var s4 := Replace(s3, '\'', "&apos;");
    EntitiesOmitOwn();
    LtStaysOut(s2);
    GtStaysOut(s3);
    AposStaysOut(s4);
  }

  lemma LtStaysOut(s2: string)
    requires '<' !in s2
    ensures '<' !in Replace(Replace(Replace(s2, '>', "&gt;"), '\'', "&apos;"), '"', "&quot;")
  {
    NoLtInEntities();
    var s3 := Replace(s2, '>', "&gt;");
    ReplaceKeeps(s2, '>', "&gt;", '<');
    var s4 := Replace(s3, '\'', "&apos;");
    ReplaceKeeps(s3, '\'', "&apos;", '<');
    ReplaceKeeps(s4, '"', "&quot;", '<');
  }

  lemma GtStaysOut(s3: string)
    requires '>' !in s3
    ensures '>' !in Replace(Replace(s3, '\'', "&apos;"), '"', "&quot;")
  {
    NoGtInEntities();
    ReplaceKeeps(s3, '\'', "&apos;", '>');
    ReplaceKeeps(Replace(s3, '\'', "&apos;"), '"', "&quot;", '>');
  }

  lemma AposStaysOut(s4: string)
    requires '\'' !in s4
    ensures '\'' !in Replace(s4, '"', "&quot;")
  {
    NoAposInQuot();
    ReplaceKeeps(s4, '"', "&quot;", '\'');
  }

  predicate IsSpecial(c: char)
  {
    c == '&' || c == '<' || c == '>' || c == '\'' || c == '"'
  }

  /** Reference definition: the entity for one character. */
  function EscapeChar(c: char): string
  {
    match c
    case '&' => "&amp;"
    case '<' => "&lt;"
    case '>' => "&gt;"
    case '\'' => "&apos;"
    case '"' => "&quot;"
    case _ => [c]
  }

  /** Reference definition: each character escaped on its own. */
  function EscapeEach(s: string): string
  {
    if s == [] then "" else EscapeChar(s[0]) + EscapeEach(s[1..])
  }

  lemma EscapeAppend(a: string, b: string)
    ensures Escape(a + b) == Escape(a) + Escape(b)
  {
    var a1, b1 := Replace(a, '&', "&amp;"), Replace(b, '&', "&amp;");
    ReplaceAppend(a, b, '&', "&amp;");
    var a2, b2 := Replace(a1, '<', "&lt;"), Replace(b1, '<', "&lt;");
    ReplaceAppend(a1, b1, '<', "&lt;");
    var a3, b3 := Replace(a2, '>', "&gt;"), Replace(b2, '>', "&gt;");
    ReplaceAppend(a2, b2, '>', "&gt;");
    var a4, b4 := Replace(a3, '\'', "&apos;"), Replace(b3, '\'', "&apos;");
    ReplaceAppend(a3, b3, '\'', "&apos;");
    ReplaceAppend(a4, b4, '"', "&quot;");
  }

  lemma ReplaceSingle(c: char, d: char, rep: string)
    ensures Replace([c], d, rep) == if c == d then rep else [c]
  {
    assert [c][1..] == "";
  }

  lemma After1(s: string)
    requires '<' !in s && '>' !in s && '\'' !in s && '"' !in s
    ensures Replace(Replace(Replace(Replace(s, '<', "&lt;"), '>', "&gt;"), '\'', "&apos;"), '"', "&quot;") == s
  {
  }

  lemma After2(s: string)
    requires '>' !in s && '\'' !in s && '"' !in s
    ensures Replace(Replace(Replace(s, '>', "&gt;"), '\'', "&apos;"), '"', "&quot;") == s
  {
  }

  lemma After3(s: string)
    requires '\'' !in s && '"' !in s
    ensures Replace(Replace(s, '\'', "&apos;"), '"', "&quot;") == s
  {
  }

  lemma EscapeOneChar(c: char)
    ensures Escape([c]) == EscapeChar(c)
  {
    ReplaceSingle(c, '&', "&amp;");
    if c == '&' {
      After1("&amp;");
    } else {
      ReplaceSingle(c, '<', "&lt;");
      if c == '<' {
        After2("&lt;");
      } else {
        ReplaceSingle(c, '>', "&gt;");
        if c == '>' {
          After3("&gt;");
        } else {
          ReplaceSingle(c, '\'', "&apos;");
          if c == '\'' {
            assert '"' !in "&apos;";
          } else {
            ReplaceSingle(c, '"', "&quot;");
          }
        }
      }
    }
  }

  /** The chained replacements equal the per-character escape: no later
      replacement sees a character introduced by an earlier one except `&`,
      which is replaced first. */
  lemma {:induction false} EscapeIsPerCharacter(s: string)
    ensures Escape(s) == EscapeEach(s)
  {
    if s != [] {
      assert s == [s[0]] + s[1..];
      EscapeAppend([s[0]], s[1..]);
      EscapeOneChar(s[0]);
      EscapeIsPerCharacter(s[1..]);
    }
  }

  /** One of the five entities starts at position `i` of `r`. */
  predicate EntityAt(r: string, i: nat)
    requires i <= |r|
  {
    var t := r[i..];
    StartsWith(t, "&amp;") || StartsWith(t, "&lt;") || StartsWith(t, "&gt;")
    || StartsWith(t, "&apos;") || StartsWith(t, "&quot;")
  }

  /** Escaping one character yields no raw reserved character, and a `&`
      only at its start, where an entity begins. */
  lemma EscapeCharSafe(c: char, t: string)
    ensures forall i :: 0 <= i < |EscapeChar(c)| ==> !(EscapeChar(c)[i] in "<>'\"")
    ensures forall i :: 0 < i < |EscapeChar(c)| ==> EscapeChar(c)[i] != '&'
    ensures EscapeChar(c)[0] == '&' ==> EntityAt(EscapeChar(c) + t, 0)
  {
    var r := EscapeChar(c) + t;
    assert r[..|EscapeChar(c)|] == EscapeChar(c);
  }

  lemma {:induction false} EscapeEachNoRaw(s: string)
    ensures forall i :: 0 <= i < |EscapeEach(s)| ==> !(EscapeEach(s)[i] in "<>'\"")
  {
    if s != [] {
      EscapeEachNoRaw(s[1..]);
      EscapeCharSafe(s[0], EscapeEach(s[1..]));
      var h, t := EscapeChar(s[0]), EscapeEach(s[1..]);
      assert forall i :: |h| <= i < |h + t| ==> (h + t)[i] == t[i - |h|];
    }
  }

  lemma {:induction false} EscapeEachAmpersands(s: string)
    ensures forall i :: 0 <= i < |EscapeEach(s)| && EscapeEach(s)[i] == '&' ==> EntityAt(EscapeEach(s), i)
  {
    if s != [] {
      EscapeEachAmpersands(s[1..]);
      var h, t := EscapeChar(s[0]), EscapeEach(s[1..]);
      EscapeCharSafe(s[0], t);
      var r := h + t;
      forall i | 0 <= i < |r| && r[i] == '&'
        ensures EntityAt(r, i)
      {
        if i >= |h| {
          assert r[i] == t[i - |h|];
          assert r[i..] == t[i - |h|..];
        }
      }
    }
  }

  /** The escaped text holds no raw `<`, `>`, `'` or `"`, and every `&` in it
      begins one of the five entities: nothing is escaped twice and no markup
      can be injected. */
  lemma EscapeIsSafe(s: string)
    ensures forall i :: 0 <= i < |Escape(s)| ==> !(Escape(s)[i] in "<>'\"")
    ensures forall i :: 0 <= i < |Escape(s)| && Escape(s)[i] == '&' ==> EntityAt(Escape(s), i)
  {
    EscapeIsPerCharacter(s);
    EscapeEachNoRaw(s);
    EscapeEachAmpersands(s);
  }

  /** Decodes the five entities; every other character is kept. */
  function Unescape(s: string): (r: string)
    ensures |r| <= |s|
  {
    if s == [] then ""
    else if StartsWith(s, "&amp;") then "&" + Unescape(s[5..])
    else if StartsWith(s, "&lt;") then "<" + Unescape(s[4..])
    else if StartsWith(s, "&gt;") then ">" + Unescape(s[4..])
    else if StartsWith(s, "&apos;") then "'" + Unescape(s[6..])
    else if StartsWith(s, "&quot;") then "\"" + Unescape(s[6..])
    else [s[0]] + Unescape(s[1..])
  }

  lemma UnescapeAmp(t: string)
    ensures Unescape("&amp;" + t) == "&" + Unescape(t)
  {
    var r := "&amp;" + t;
    assert r[..5] == "&amp;" && r[5..] == t;
  }

  /** The two three-letter entities, told apart by their second letter. */
  lemma UnescapeAngles(t: string)
    ensures Unescape("&lt;" + t) == "<" + Unescape(t)
    ensures Unescape("&gt;" + t) == ">" + Unescape(t)
  {
    var lt := "&lt;" + t;
    assert lt[..4] == "&lt;" && lt[4..] == t && lt[1] == 'l';
    var gt := "&gt;" + t;
    assert gt[..4] == "&gt;" && gt[4..] == t && gt[1] == 'g';
  }

  lemma UnescapeApos(t: string)
    ensures Unescape("&apos;" + t) == "'" + Unescape(t)
  {
    var r := "&apos;" + t;
    assert r[..6] == "&apos;" && r[6..] == t && r[1] == 'a' && r[2] == 'p';
  }

  lemma UnescapeQuot(t: string)
    ensures Unescape("&quot;" + t) == "\"" + Unescape(t)
  {
    var r := "&quot;" + t;
    assert r[..6] == "&quot;" && r[6..] == t && r[1] == 'q';
  }

  /** Text that does not start with `&` starts with no entity. */
  lemma NoEntityAt(s: string)
    requires s != [] && s[0] != '&'
    ensures !StartsWith(s, "&amp;") && !StartsWith(s, "&lt;") && !StartsWith(s, "&gt;")
    ensures !StartsWith(s, "&apos;") && !StartsWith(s, "&quot;")
  {
    forall e: string | e != [] && e[0] == '&' && |e| <= |s|
      ensures s[..|e|] != e
    {
      assert s[..|e|][0] == s[0];
    }
  }

  lemma UnescapePlain(c: char, t: string)
    requires !IsSpecial(c)
    ensures Unescape([c] + t) == [c] + Unescape(t)
  {
    var r := [c] + t;
    assert r[0] == c;
    NoEntityAt(r);
    assert r[1..] == t;
  }

  lemma UnescapeEntity(c: char, t: string)
    ensures Unescape(EscapeChar(c) + t) == [c] + Unescape(t)
  {
    match c
    case '&' => UnescapeAmp(t);
    case '<' => UnescapeAngles(t);
    case '>' => UnescapeAngles(t);
    case '\'' => UnescapeApos(t);
    case '"' => UnescapeQuot(t);
    case _ => UnescapePlain(c, t);
  }

  lemma {:induction false} UnescapeEscapeEach(s: string)
    ensures Unescape(EscapeEach(s)) == s
  {
    if s != [] {
      UnescapeEntity(s[0], EscapeEach(s[1..]));
      UnescapeEscapeEach(s[1..]);
    }
  }

  /** Unescaping the five entities recovers the input exactly. */
  lemma EscapeRoundTrip(s: string)
    ensures Unescape(Escape(s)) == s
  {
    EscapeIsPerCharacter(s);
    UnescapeEscapeEach(s);
  }

  /** Size of the escaped text: each `&` grows by 4, `<` and `>` by 3, `'`
      and `"` by 5; everything else is copied. */
  function EscapedLength(s: string): nat
  {
    |s| + 4 * Count(s, '&') + 3 * (Count(s, '<') + Count(s, '>'))
        + 5 * (Count(s, '\'') + Count(s, '"'))
  }

  lemma {:induction false} EscapeEachLength(s: string)
    ensures |EscapeEach(s)| == EscapedLength(s)
  {
    if s != [] {
      EscapeEachLength(s[1..]);
    }
  }

  lemma {:induction false} EscapeEachUnchanged(s: string)
    ensures EscapeEach(s) == s <==> forall i :: 0 <= i < |s| ==> !IsSpecial(s[i])
  {
    if s != [] {
      EscapeEachUnchanged(s[1..]);
      EscapeEachLength(s);
      EscapeEachLength(s[1..]);
      if IsSpecial(s[0]) {
        assert |EscapeEach(s)| > |s|;
      } else {
        assert EscapeEach(s) == [s[0]] + EscapeEach(s[1..]);
        assert (forall i :: 0 <= i < |s| ==> !IsSpecial(s[i]))
          <==> (forall i :: 0 <= i < |s[1..]| ==> !IsSpecial(s[1..][i]));
      }
    }
  }

  /** A text without the five reserved characters passes through unchanged,
      and any text containing one of them is changed (it grows as
      `EscapedLength` says). */
  lemma EscapeUnchangedIff(s: string)
    ensures Escape(s) == s <==> forall i :: 0 <= i < |s| ==> !IsSpecial(s[i])
    ensures |Escape(s)| == EscapedLength(s)
  {
    EscapeIsPerCharacter(s);
    EscapeEachUnchanged(s);
    EscapeEachLength(s);
  }
}
